=== FILE: README.md ===
# EatsAndThinks backend: a Dafny model

This project models the decision logic of the EatsAndThinks Spring backend. EatsAndThinks is a restaurant discovery service for Madrid, with users, places, reviews, replies, favourites and search history.

Each endpoint or service method becomes a pure function. It takes the request and an immutable store (`Entities.Db`, one sequence per table) and returns the answer: an HTTP status or a `Result`, together with the new store. The properties the code promises are proved as postconditions and lemmas.

The model covers:
- administrator authorisation and user administration (`Admin`);
- account loading (`UserDetailsService`), registration, login and guest sessions (`AuthService`, `AuthController`);
- profile reading and updating (`UserController`);
- review replies and reply notifications (`ReviewReplyService`, `ReplyNotificationService`);
- favourites, including the bounded retry loop (`FavoriteService`);
- Google Places decoding and the search filter pipeline (`GooglePlacesService`, `GooglePlacesController`);
- the place store's insert-if-absent and upsert rules (`LocalController`);
- the search history (`SearchHistoryController`).

Shared modules:
- `Base`: Option, Result, status codes, first-match lookup, fresh identities, filter and subsequence facts.
- `JavaString`: the `java.lang.String` operations the decisions use. `isBlank` follows `Character.isWhitespace` over all of Unicode, `trim` cuts characters up to U+0020, and `length` counts UTF-16 code units; case mapping and case-insensitive comparison cover ASCII letters only.
- `Json`: the Jackson `JsonNode` accessors the decoder calls.

External collaborators are parameters:
- The password encoder is a pair of functions (`Entities.Encoder`). "A password matches its own encoding" is the hypothesis `Sound(enc)` of the lemmas that need it.
- The JWT issuer is a function from subject to token.
- Clocks are natural numbers.
- Each Google response is an already-parsed JSON value. For the favourites retry loop it is a function from attempt number to details.

In the table below every source path is relative to the repository root, and P stands for `eatsandthinks-backend/src/main/java/com/eatsandthinks/demo`.

## Model

| member | source | states |
|---|---|---|
| Entities.NewUser | eatsandthinks-backend/src/main/java/com/eatsandthinks/demo/entity/User.java:19-33 | a new account has role USER, is not banned and may review |
| Entities.NewPlace | eatsandthinks-backend/src/main/java/com/eatsandthinks/demo/entity/LocalEntity.java:22-47 | a new place has source GOOGLE and no rating or creator |
| Admin.ValidateAdmin | eatsandthinks-backend/src/main/java/com/eatsandthinks/demo/controller/AdminController.java:32-45 | only an authenticated caller whose own row has role exactly "ADMIN" or "ROLE_ADMIN" passes |
| Admin.ValidateAdminIff | eatsandthinks-backend/src/main/java/com/eatsandthinks/demo/controller/AdminController.java:32-45 | with unique emails, the check passes iff some row with the caller's email has an exact admin role, so "admin" is refused |
| Admin.Authorize | eatsandthinks-backend/src/main/java/com/eatsandthinks/demo/controller/AdminController.java:47-67 | the shared guard admits a request iff the caller is an admin, the target exists and `MayAdminister` holds: a super admin may act on anyone, anyone else only on non-admins, on itself, and never on the super admin |
| Admin.NormalizeRole | eatsandthinks-backend/src/main/java/com/eatsandthinks/demo/controller/AdminController.java:127-131 | the result drops exactly one leading "ROLE_", and differs from the role iff the role starts with it |
| Admin.AcceptedRoleInputs | eatsandthinks-backend/src/main/java/com/eatsandthinks/demo/controller/AdminController.java:127-139 | the accepted role values are exactly the six strings ADMIN, USER, GUEST, with or without "ROLE_" |
| Admin.ChangeUserRole | eatsandthinks-backend/src/main/java/com/eatsandthinks/demo/controller/AdminController.java:108-148 | 200 iff the guard admits and the role, once normalised, is ADMIN, USER or GUEST, and then only the target's role changes, to the normalised value; 400 iff the guard admits and the normalised role is another one; a missing role or a refused guard gives 403; a rejection changes nothing |
| Admin.PrefixedRoleIsSameRequest | eatsandthinks-backend/src/main/java/com/eatsandthinks/demo/controller/AdminController.java:127-146 | "ROLE_X" and "X" are the same request for an assignable X: same answer, same stored role |
| Admin.PromotedUserPassesValidateAdmin | eatsandthinks-backend/src/main/java/com/eatsandthinks/demo/controller/AdminController.java:32-45 | with unique ids and emails, a user promoted to ADMIN passes validateAdmin afterwards |
| Admin.ToggleBanUser | eatsandthinks-backend/src/main/java/com/eatsandthinks/demo/controller/AdminController.java:155-186 | 200 iff the guard admits and the flag is present; only the target's banned flag changes; otherwise 403 and no change |
| Admin.ToggleReviewPermission | eatsandthinks-backend/src/main/java/com/eatsandthinks/demo/controller/AdminController.java:193-226 | the same as ToggleBanUser for canReview |
| Admin.DeleteUser | eatsandthinks-backend/src/main/java/com/eatsandthinks/demo/controller/AdminController.java:233-264 | 200 iff the guard admits and the target is not the acting admin, and then exactly the target row is removed; 400 iff the guard admits a self-delete; every rejection changes nothing |
| Admin.SuperAdminProtected | eatsandthinks-backend/src/main/java/com/eatsandthinks/demo/controller/AdminController.java:61-67 | a non-super admin acting on the super admin gets 403 from all four mutations, with the store unchanged |
| Admin.DeleteKeepsActingAdmin | eatsandthinks-backend/src/main/java/com/eatsandthinks/demo/controller/AdminController.java:251-258 | after a successful delete the acting admin's row is still stored |
| Admin.DeleteRemovesTarget | eatsandthinks-backend/src/main/java/com/eatsandthinks/demo/controller/AdminController.java:233-264 | after a delete no row has the target id, the table has one row fewer and stays unique |
| Admin.EffectivePlaceId | eatsandthinks-backend/src/main/java/com/eatsandthinks/demo/controller/AdminController.java:278-283 | a null or blank placeId is replaced by "LOCAL_<millis>_<adminId>" |
| Admin.LocalFromDto | eatsandthinks-backend/src/main/java/com/eatsandthinks/demo/controller/AdminController.java:285-310 | the created place has source LOCAL and the admin as creator; a rating is kept only when present and positive, with the count then 0 |
| Admin.CreateLocal | eatsandthinks-backend/src/main/java/com/eatsandthinks/demo/controller/AdminController.java:271-323 | 403 iff not an admin; 400 iff the effective placeId is taken; otherwise 201 and exactly one new place with a fresh placeId |
| Admin.CreateLocalKeepsPlacesUnique | eatsandthinks-backend/src/main/java/com/eatsandthinks/demo/controller/AdminController.java:285-298 | creating a place keeps ids and placeIds unique |
| UserDetailsService.Authority | eatsandthinks-backend/src/main/java/com/eatsandthinks/demo/security/UserDetailsServiceImpl.java:26-29 | the authority always starts with "ROLE_": it is the role itself if already prefixed, else "ROLE_" + role |
| UserDetailsService.AuthorityIdempotent | eatsandthinks-backend/src/main/java/com/eatsandthinks/demo/security/UserDetailsServiceImpl.java:26-29 | prefixing twice equals prefixing once |
| UserDetailsService.BareRole | eatsandthinks-backend/src/main/java/com/eatsandthinks/demo/security/UserDetailsServiceImpl.java:26-29 | the authority of a role is "ROLE_" followed by the role with one leading "ROLE_" dropped |
| UserDetailsService.AuthorityIff | eatsandthinks-backend/src/main/java/com/eatsandthinks/demo/security/UserDetailsServiceImpl.java:26-29 | two roles give the same authority iff they are equal once one leading "ROLE_" is dropped from each (`BareRole`) |
| UserDetailsService.LoadUserByUsername | eatsandthinks-backend/src/main/java/com/eatsandthinks/demo/security/UserDetailsServiceImpl.java:16-40 | fails iff the email is unknown or banned is true (a null flag counts as not banned); otherwise the account has the stored email, password and authority |
| AuthService.AddUserWellFormed | eatsandthinks-backend/src/main/java/com/eatsandthinks/demo/service/AuthService.java:36-44 | appending a user that passes the unique constraints keeps ids, emails and names unique |
| AuthService.Register | eatsandthinks-backend/src/main/java/com/eatsandthinks/demo/service/AuthService.java:25-51 | a taken email is refused before a name taken ignoring case; success stores exactly one USER row with the encoded password |
| AuthService.RegisterKeepsUsersWellFormed | eatsandthinks-backend/src/main/java/com/eatsandthinks/demo/service/AuthService.java:27-44 | the two checks are enough for the save to respect the unique constraints |
| AuthService.Login | eatsandthinks-backend/src/main/java/com/eatsandthinks/demo/service/AuthService.java:58-71 | succeeds iff the email is stored and the password matches the stored hash |
| AuthService.RegisterThenLogin | eatsandthinks-backend/src/main/java/com/eatsandthinks/demo/service/AuthService.java:25-71 | with a sound encoder, a freshly registered user logs in with its password |
| AuthService.GuestEmail | eatsandthinks-backend/src/main/java/com/eatsandthinks/demo/service/AuthService.java:79-81 | the guest email starts with "guest_" |
| AuthService.GuestUser | eatsandthinks-backend/src/main/java/com/eatsandthinks/demo/service/AuthService.java:79-90 | a guest is named "Invitado", has role GUEST, is not banned and may not review |
| AuthService.CreateGuestSession | eatsandthinks-backend/src/main/java/com/eatsandthinks/demo/service/AuthService.java:77-109 | 200 iff the guest row passes the unique constraints, and then exactly that row is added; otherwise 500 with nothing changed |
| AuthService.SecondGuestFails | eatsandthinks-backend/src/main/java/com/eatsandthinks/demo/service/AuthService.java:77-109 | while one guest exists a second guest session fails, because the name is unique |
| AuthController.Login | eatsandthinks-backend/src/main/java/com/eatsandthinks/demo/controller/AuthController.java:53-65 | 200 iff the account loads and the password matches, answering exactly the token and "OK"; otherwise the uncaught authentication failure is answered 403 by the security filter chain, with no token |
| AuthController.BannedCannotLogin | eatsandthinks-backend/src/main/java/com/eatsandthinks/demo/controller/AuthController.java:53-65 | a banned user gets 403 whatever the password |
| AuthController.Logout | eatsandthinks-backend/src/main/java/com/eatsandthinks/demo/controller/AuthController.java:81-102 | always 200; a row is deleted only for an authenticated "guest_" email whose stored role is exactly GUEST |
| AuthController.GuestSessionRoundTrip | eatsandthinks-backend/src/main/java/com/eatsandthinks/demo/controller/AuthController.java:81-102 | logging out of a fresh guest session restores the store |
| AuthController.LogoutKeepsNonGuests | eatsandthinks-backend/src/main/java/com/eatsandthinks/demo/controller/AuthController.java:87-92 | logout never deletes a non-GUEST account, even one whose email starts with "guest_" |
| UserController.CleanRole | eatsandthinks-backend/src/main/java/com/eatsandthinks/demo/controller/UserController.java:51 | the shown role is never longer than the stored one and equals it when it has no "ROLE_" |
| UserController.CleanRoleOfAuthority | eatsandthinks-backend/src/main/java/com/eatsandthinks/demo/controller/UserController.java:51 | removing "ROLE_" from an authority gives the role back |
| UserController.GetCurrentUser | eatsandthinks-backend/src/main/java/com/eatsandthinks/demo/controller/UserController.java:37-66 | 401 iff anonymous; 500 iff the caller's row is missing; otherwise the profile of that row with the cleaned role |
| UserController.Updated | eatsandthinks-backend/src/main/java/com/eatsandthinks/demo/controller/UserController.java:122-147 | the name changes only for a non-blank value, the email only when wanted, and the password only for a non-blank new one |
| UserController.UpdateCurrentUser | eatsandthinks-backend/src/main/java/com/eatsandthinks/demo/controller/UserController.java:111-162 | 401 iff anonymous; for a known caller, 400 iff the wanted email is taken or a new password comes without the matching current one; 200 iff neither holds and the saved row keeps names and emails unique; every non-200 answer changes nothing; on 200 exactly the caller's row is replaced and emailChanged says whether the email was |
| UserController.PasswordNeedsCurrent | eatsandthinks-backend/src/main/java/com/eatsandthinks/demo/controller/UserController.java:139-145 | a successful update that changes the password had a matching current password |
| UserController.UpdateKeepsUsersWellFormed | eatsandthinks-backend/src/main/java/com/eatsandthinks/demo/controller/UserController.java:111-162 | a successful update keeps the user table unique and leaves other accounts untouched |
| UserController.UpdatedProfileIsRead | eatsandthinks-backend/src/main/java/com/eatsandthinks/demo/controller/UserController.java:37-66 | after a 200 update, reading the profile under the answered email gives the same id, the new name and email, and the unchanged role |
| ReplyNotificationService.BuildSnippet | eatsandthinks-backend/src/main/java/com/eatsandthinks/demo/service/ReviewReplyNotificationService.java:96-102 | null becomes ""; text of up to 160 UTF-16 code units is unchanged; longer text becomes its longest prefix of at most 160 units (159 when a surrogate pair would be split) followed by "…" |
| ReplyNotificationService.BuildSnippetIdempotent | eatsandthinks-backend/src/main/java/com/eatsandthinks/demo/service/ReviewReplyNotificationService.java:96-102 | snipping a snippet changes nothing, since a cut text is cut again at the same place |
| ReplyNotificationService.NotificationFor | eatsandthinks-backend/src/main/java/com/eatsandthinks/demo/service/ReviewReplyNotificationService.java:37-48 | the notice goes to the review's author, is unread, and has null place fields when the place is null |
| ReplyNotificationService.NotifyReviewAuthor | eatsandthinks-backend/src/main/java/com/eatsandthinks/demo/service/ReviewReplyNotificationService.java:29-49 | nothing happens for a null argument or a self-reply; otherwise exactly one notice is appended |
| ReplyNotificationService.NoSelfNotification | eatsandthinks-backend/src/main/java/com/eatsandthinks/demo/service/ReviewReplyNotificationService.java:33-36 | replying to one's own review creates no notice |
| ReplyNotificationService.NotifyAddsOneUnread | eatsandthinks-backend/src/main/java/com/eatsandthinks/demo/service/ReviewReplyNotificationService.java:29-54 | a notice adds exactly one to its addressee's unread count and nothing to anyone else's |
| ReplyNotificationService.CountUnread | eatsandthinks-backend/src/main/java/com/eatsandthinks/demo/service/ReviewReplyNotificationService.java:51-54 | the count is the number of the user's unread notices, so 0 iff there is none |
| ReplyNotificationService.GetUnreadCount | eatsandthinks-backend/src/main/java/com/eatsandthinks/demo/service/ReviewReplyNotificationService.java:51-54 | a null user has count 0; otherwise the number of the user's unread notices |
| ReplyNotificationService.GetNotifications | eatsandthinks-backend/src/main/java/com/eatsandthinks/demo/service/ReviewReplyNotificationService.java:56-64 | at most 20 notices, all the user's own; none for a null user |
| ReplyNotificationService.GetNotificationsNewestFirst | eatsandthinks-backend/src/main/java/com/eatsandthinks/demo/service/ReviewReplyNotificationService.java:56-64 | the page has min(20, n) entries for a user with n notices, the i-th being the user's i-th newest; with at most 20 none is missing |
| ReplyNotificationService.MarkAsRead | eatsandthinks-backend/src/main/java/com/eatsandthinks/demo/service/ReviewReplyNotificationService.java:66-79 | a notice becomes read iff it is selected (all the user's unread ones with markAll, else the user's ones among the ids); every other notice is unchanged; a null user, or no ids without markAll, changes nothing |
| ReplyNotificationService.MarkAsReadIdempotent | eatsandthinks-backend/src/main/java/com/eatsandthinks/demo/service/ReviewReplyNotificationService.java:66-79 | marking twice equals marking once |
| ReplyNotificationService.MarkAllClearsUnread | eatsandthinks-backend/src/main/java/com/eatsandthinks/demo/service/ReviewReplyNotificationService.java:69-70 | after markAll the user's unread count is 0 |
| ReplyNotificationService.MarkAsReadNeverAddsUnread | eatsandthinks-backend/src/main/java/com/eatsandthinks/demo/service/ReviewReplyNotificationService.java:66-79 | no user's unread count grows |
| ReviewReplyService.ValidateContent | eatsandthinks-backend/src/main/java/com/eatsandthinks/demo/service/ReviewReplyService.java:42-48 | accepted iff non-null, at least 2 UTF-16 code units after trimming and at most 2000 before; the short check comes first; the result is the trimmed text |
| ReviewReplyService.ValidContentIsStable | eatsandthinks-backend/src/main/java/com/eatsandthinks/demo/service/ReviewReplyService.java:42-48 | validated content validates to itself |
| ReviewReplyService.MapToDto | eatsandthinks-backend/src/main/java/com/eatsandthinks/demo/service/ReviewReplyService.java:86-96 | a missing author shows as "Usuario" without an avatar |
| ReviewReplyService.CreateReply | eatsandthinks-backend/src/main/java/com/eatsandthinks/demo/service/ReviewReplyService.java:41-74 | succeeds iff the content is valid, the review and author exist and the author is not banned and has canReview true; success saves exactly one reply with the trimmed content |
| ReviewReplyService.ReplyNotifiesIffOtherAuthor | eatsandthinks-backend/src/main/java/com/eatsandthinks/demo/service/ReviewReplyService.java:62-73 | a successful reply adds a notice iff the replier is not the review's author |
| ReviewReplyService.GetReplies | eatsandthinks-backend/src/main/java/com/eatsandthinks/demo/service/ReviewReplyService.java:76-96 | the i-th entry is the review's i-th stored reply, in creation order, with its author's name and avatar or "Usuario" when the author is gone |
| ReviewReplyService.CreatedReplyIsListed | eatsandthinks-backend/src/main/java/com/eatsandthinks/demo/service/ReviewReplyService.java:41-84 | after a successful reply its review's listing is the old listing followed by exactly the returned reply; every other review's listing is unchanged |
| ReviewReplyService.CreateReplyEndpoint | eatsandthinks-backend/src/main/java/com/eatsandthinks/demo/controller/ReviewReplyController.java:36-61 | 401 iff anonymous; 403 for banned (checked first) or canReview not true; service errors give 400; success gives 201 |
| ReviewReplyService.ControllerAdmitsValidReplies | eatsandthinks-backend/src/main/java/com/eatsandthinks/demo/controller/ReviewReplyController.java:36-61 | a permitted caller with valid content on an existing review gets 201 |
| GooglePlacesService.OptionalNumber | eatsandthinks-backend/src/main/java/com/eatsandthinks/demo/service/GooglePlacesService.java:270 | a missing member reads as null, a present one as its value (the rating, read with asDouble) |
| GooglePlacesService.OptionalInt | eatsandthinks-backend/src/main/java/com/eatsandthinks/demo/service/GooglePlacesService.java:272 | a missing member reads as null; a present one is read with asInt, so it is cut to 32 bits and kept as is when in range |
| Json.ToInt32 | eatsandthinks-backend/src/main/java/com/eatsandthinks/demo/service/GooglePlacesService.java:271-272 | the cast keeps a value in the 32-bit range, and otherwise gives the in-range value congruent to it modulo 2^32 |
| GooglePlacesService.NumberOrZero | eatsandthinks-backend/src/main/java/com/eatsandthinks/demo/service/GooglePlacesService.java:271 | a missing member reads as 0; a present one is read with asInt and cut to 32 bits |
| GooglePlacesService.FirstPhotoRef | eatsandthinks-backend/src/main/java/com/eatsandthinks/demo/service/GooglePlacesService.java:291-293 | the photo reference is null unless "photos" is a non-empty array |
| GooglePlacesService.TypesOf | eatsandthinks-backend/src/main/java/com/eatsandthinks/demo/service/GooglePlacesService.java:275-281 | the types are the array's texts, or empty when "types" is not an array |
| GooglePlacesService.DecodeResult | eatsandthinks-backend/src/main/java/com/eatsandthinks/demo/service/GooglePlacesService.java:263-297 | type is the first type or null; a missing rating is null; a missing count is 0; openNow defaults to false |
| GooglePlacesService.DecodeResults | eatsandthinks-backend/src/main/java/com/eatsandthinks/demo/service/GooglePlacesService.java:258-301 | every output is gastronomic, and every raw result with an allowed type is decoded into the output |
| GooglePlacesService.DecodeResultsInOrder | eatsandthinks-backend/src/main/java/com/eatsandthinks/demo/service/GooglePlacesService.java:258-301 | the output is the kept raw results, decoded in response order (an order-preserving subsequence) |
| GooglePlacesService.SearchPlaces | eatsandthinks-backend/src/main/java/com/eatsandthinks/demo/service/GooglePlacesService.java:211-312 | empty without a key, without a body or with a status other than "OK"; otherwise the decoded gastronomic results |
| GooglePlacesService.SearchKeepsExactlyGastronomic | eatsandthinks-backend/src/main/java/com/eatsandthinks/demo/service/GooglePlacesService.java:283-289 | a result with an allowed type is kept, and one without is dropped |
| GooglePlacesService.GetPlaceDetails | eatsandthinks-backend/src/main/java/com/eatsandthinks/demo/service/GooglePlacesService.java:45-205 | null iff the key is missing, the body is missing, the status is not "OK", "result" is absent, or the result's price_level is negative (logging it with "€".repeat throws and the catch answers null); otherwise every decoded field by value: lat and lng from geometry.location when "geometry" is present, openNow from opening_hours.open_now (false by default) when "opening_hours" is present, the rating read with asDouble, and the other fields as the search decodes them |
| GooglePlacesService.WrappedPriceLevelGivesNull | eatsandthinks-backend/src/main/java/com/eatsandthinks/demo/service/GooglePlacesService.java:143-148 | a price_level of 2^31 wraps to a negative int, so the details are null |
| GooglePlacesService.DetailsAgreeWithSearch | eatsandthinks-backend/src/main/java/com/eatsandthinks/demo/service/GooglePlacesService.java:121-166 | the details of a result object agree with its text-search decoding on name, address, rating, count, price, photo and type, and on coordinates and openNow where present |
| GooglePlacesController.HasCuisineMatchSymmetric | eatsandthinks-backend/src/main/java/com/eatsandthinks/demo/controller/GooglePlacesController.java:139-161 | the cuisine alias match is symmetric |
| GooglePlacesController.Limit | eatsandthinks-backend/src/main/java/com/eatsandthinks/demo/controller/GooglePlacesController.java:94-97 | a positive limit keeps at most that many results from the front; otherwise nothing is cut |
| GooglePlacesController.FilterResultsIsOneFilter | eatsandthinks-backend/src/main/java/com/eatsandthinks/demo/controller/GooglePlacesController.java:41-100 | the staged pipeline equals one filter by all requested conditions, then the limit |
| GooglePlacesController.FilterResultsSound | eatsandthinks-backend/src/main/java/com/eatsandthinks/demo/controller/GooglePlacesController.java:54-97 | every returned place passes every requested filter and comes from the results; a positive limit bounds the count |
| GooglePlacesController.NoLimitKeepsEveryMatch | eatsandthinks-backend/src/main/java/com/eatsandthinks/demo/controller/GooglePlacesController.java:41-100 | without a limit every passing place is returned, as an order-preserving subsequence |
| GooglePlacesController.SearchPlacesEndpoint | eatsandthinks-backend/src/main/java/com/eatsandthinks/demo/controller/GooglePlacesController.java:28-106 | the answer is gastronomic, passes the filters and respects the limit |
| GooglePlacesController.GetPlaceDetailsEndpoint | eatsandthinks-backend/src/main/java/com/eatsandthinks/demo/controller/GooglePlacesController.java:110-134 | 404 iff the service has no details; otherwise 200 with them |
| LocalController.PlaceFromResult | eatsandthinks-backend/src/main/java/com/eatsandthinks/demo/controller/LocalController.java:52-62 | a place stored from a search result has source GOOGLE and the result's fields |
| LocalController.StoreOne | eatsandthinks-backend/src/main/java/com/eatsandthinks/demo/controller/LocalController.java:48-66 | a result whose placeId is stored changes nothing; otherwise one GOOGLE row is appended |
| LocalController.StoreResults | eatsandthinks-backend/src/main/java/com/eatsandthinks/demo/controller/LocalController.java:48-66 | stored places are kept as they are, and every added place is GOOGLE |
| LocalController.StoreResultsCovers | eatsandthinks-backend/src/main/java/com/eatsandthinks/demo/controller/LocalController.java:48-66 | afterwards every result's placeId is in the store |
| LocalController.StoreResultsWellFormed | eatsandthinks-backend/src/main/java/com/eatsandthinks/demo/controller/LocalController.java:48-66 | placeIds and ids stay unique |
| LocalController.StoreResultsStable | eatsandthinks-backend/src/main/java/com/eatsandthinks/demo/controller/LocalController.java:49-51 | results that are all stored change nothing |
| LocalController.StoreResultsIdempotent | eatsandthinks-backend/src/main/java/com/eatsandthinks/demo/controller/LocalController.java:48-66 | storing the same results twice equals storing them once |
| LocalController.SearchLocales | eatsandthinks-backend/src/main/java/com/eatsandthinks/demo/controller/LocalController.java:31-84 | the answer is the results passing minRating, priceLevel and openNowOnly, in order, with no limit; cuisine and openNow are ignored |
| LocalController.SearchLocalesEffect | eatsandthinks-backend/src/main/java/com/eatsandthinks/demo/controller/LocalController.java:31-84 | afterwards every returned placeId is stored and places stay unique |
| LocalController.GetCommunityLocales | eatsandthinks-backend/src/main/java/com/eatsandthinks/demo/controller/LocalController.java:107-119 | exactly the stored places with source LOCAL |
| LocalController.Refreshed | eatsandthinks-backend/src/main/java/com/eatsandthinks/demo/controller/LocalController.java:149-170 | an upsert keeps the id, placeId, source and creator and overwrites the Google columns |
| LocalController.DetailsFor | eatsandthinks-backend/src/main/java/com/eatsandthinks/demo/controller/LocalController.java:137-204 | without details: the stored place or 404, with no change; with details: the place is updated in place or created as GOOGLE |
| LocalController.DetailsForIdempotent | eatsandthinks-backend/src/main/java/com/eatsandthinks/demo/controller/LocalController.java:149-170 | the upsert keeps places unique, and repeating it changes nothing |
| LocalController.GetLocalDetails | eatsandthinks-backend/src/main/java/com/eatsandthinks/demo/controller/LocalController.java:127-204 | 404 iff Google has nothing and the place is not stored; without details the store is unchanged |
| FavoriteService.RetryFetch | eatsandthinks-backend/src/main/java/com/eatsandthinks/demo/service/FavoriteService.java:57-91 | at most 3 attempts, stopping at the first usable details; pauses of 1000 and 2000 ms, none after the last attempt; the outcome is RetryOutcome |
| FavoriteService.ToDto | eatsandthinks-backend/src/main/java/com/eatsandthinks/demo/service/FavoriteService.java:250-272 | null exactly without a place; otherwise the pair's id, user and date, and all eight LocalDTO fields copied from the place |
| FavoriteService.IsFavorite | eatsandthinks-backend/src/main/java/com/eatsandthinks/demo/service/FavoriteService.java:235-248 | false when no place has the placeId; otherwise true iff the (user, place) pair is stored |
| FavoriteService.PlaceFromDetails | eatsandthinks-backend/src/main/java/com/eatsandthinks/demo/service/FavoriteService.java:116-128 | a place created from details has source GOOGLE, the fetched fields and a fresh id |
| FavoriteService.ResolvePlace | eatsandthinks-backend/src/main/java/com/eatsandthinks/demo/service/FavoriteService.java:48-141 | a stored place is used as is; otherwise one is created from usable details, and without them it is an error |
| FavoriteService.AddFavorite | eatsandthinks-backend/src/main/java/com/eatsandthinks/demo/service/FavoriteService.java:35-180 | a null userId, or a null placeId or one that trims to empty, is refused; an unresolvable place or a stored pair is an error; success adds exactly one pair |
| FavoriteService.AddThenIsFavorite | eatsandthinks-backend/src/main/java/com/eatsandthinks/demo/service/FavoriteService.java:148-173 | after a successful add, isFavorite is true |
| FavoriteService.AddKeepsWellFormed | eatsandthinks-backend/src/main/java/com/eatsandthinks/demo/entity/Favorite.java:7-8 | a successful add keeps (user, place) pairs unique, and ids and placeIds too |
| FavoriteService.RemoveFavorite | eatsandthinks-backend/src/main/java/com/eatsandthinks/demo/service/FavoriteService.java:186-203 | an unknown placeId is an error; otherwise exactly the user's pairs for that place go and the others stay |
| FavoriteService.RemoveThenNotFavorite | eatsandthinks-backend/src/main/java/com/eatsandthinks/demo/service/FavoriteService.java:186-203 | after removal isFavorite is false, and the remaining pairs keep their order |
| FavoriteService.AddThenRemoveRestores | eatsandthinks-backend/src/main/java/com/eatsandthinks/demo/service/FavoriteService.java:35-203 | removing what was just added restores the favourites |
| FavoriteService.DtosOf | eatsandthinks-backend/src/main/java/com/eatsandthinks/demo/service/FavoriteService.java:215-224 | none as soon as one favourite's place is missing; otherwise one DTO per favourite, in order |
| FavoriteService.GetUserFavorites | eatsandthinks-backend/src/main/java/com/eatsandthinks/demo/service/FavoriteService.java:208-230 | all the user's favourites in order, but empty when any of their places is missing |
| SearchHistoryController.SaveSearchAsWritten | eatsandthinks-backend/src/main/java/com/eatsandthinks/demo/controller/SearchHistoryController.java:29-56 | 401 when anonymous; 500 for an unknown caller; 200 iff the term is non-null and not blank, in which case the trimmed term is appended for the caller |
| SearchHistoryController.AsWrittenSavesEmptyTerm | eatsandthinks-backend/src/main/java/com/eatsandthinks/demo/controller/SearchHistoryController.java:43-49 | the term "\u0001" is saved as the empty string |
| SearchHistoryController.SaveSearch | eatsandthinks-backend/src/main/java/com/eatsandthinks/demo/controller/SearchHistoryController.java:29-56 | as above, but a term that trims to nothing is refused with 400, so a saved term is never empty |
| SearchHistoryController.SaveSearchAgreesWithAsWritten | eatsandthinks-backend/src/main/java/com/eatsandthinks/demo/controller/SearchHistoryController.java:42-49 | whenever the written endpoint does not save an empty term, both versions give the same answer |
| SearchHistoryController.SaveSearchKeepsTermsNonEmpty | eatsandthinks-backend/src/main/java/com/eatsandthinks/demo/controller/SearchHistoryController.java:42-49 | a history without empty terms keeps that property |
| SearchHistoryController.BothRefuseUnicodeBlank | eatsandthinks-backend/src/main/java/com/eatsandthinks/demo/controller/SearchHistoryController.java:42-45 | an ideographic space is blank, so both versions refuse it with 400 although trim would keep it |
| SearchHistoryController.GetSearchHistory | eatsandthinks-backend/src/main/java/com/eatsandthinks/demo/controller/SearchHistoryController.java:62-86 | 401 when anonymous; 500 for an unknown caller or a failing query; otherwise the first ten of the query's list, all of it when it has at most ten |
| SearchHistoryController.RecentTerms | eatsandthinks-backend/src/main/java/com/eatsandthinks/demo/repository/SearchHistoryRepository.java:16-17 | the list the query is meant to return: every term listed was saved by the user, every term the user saved is listed, none twice |
| SearchHistoryController.SavedTermListedFirst | eatsandthinks-backend/src/main/java/com/eatsandthinks/demo/controller/SearchHistoryController.java:29-86 | after a successful save, the history lists the saved term first and only once |
| SearchHistoryController.ClearSearchHistory | eatsandthinks-backend/src/main/java/com/eatsandthinks/demo/controller/SearchHistoryController.java:92-111 | none of the caller's entries remain; everyone else's remain; only the history changes |
| SearchHistoryController.ClearKeepsOthersHistory | eatsandthinks-backend/src/main/java/com/eatsandthinks/demo/controller/SearchHistoryController.java:103-104 | every other user's history is exactly as before, and the survivors keep their order |
| SearchHistoryController.ClearIdempotent | eatsandthinks-backend/src/main/java/com/eatsandthinks/demo/controller/SearchHistoryController.java:92-111 | clearing twice equals clearing once |
| SearchHistoryController.ClearedHistoryListsNothing | eatsandthinks-backend/src/main/java/com/eatsandthinks/demo/controller/SearchHistoryController.java:62-111 | after a successful clear, the history lists nothing |
| SearchHistoryController.RecentTermsOfAbsentUser | eatsandthinks-backend/src/main/java/com/eatsandthinks/demo/repository/SearchHistoryRepository.java:16-17 | a user without entries has no recent terms |

## Left out

- HTTP transport, WebClient calls, `.block()` and Jackson's text parsing. Responses are already-parsed JSON values, and the numeric accessors read integer nodes only. Jackson's conversion of textual numbers in `asInt`/`asDouble` is not modelled.
- Floating point. Ratings, coordinates and price levels are integers (a rating is a fixed-point value), so the Float/Double comparisons of the filters are exact integer comparisons. The average rating and review statistics in getCurrentUser are not modelled.
- BCrypt and JWT generation. They are function parameters; the encoder's soundness is a lemma hypothesis.
- Clocks, `Thread.sleep` and thread interrupts. Timestamps are parameters. The retry loop returns the list of pauses instead of sleeping. The interrupt branch of the retry loop only restores the interrupt flag, so it is not modelled.
- Spring Data query semantics:
  - `findDistinctSearchTermsByUserId` is a function-valued input that may fail. `RecentTerms` states the list it is meant to return. As written, the query orders a DISTINCT selection by a column it does not select, which MySQL 5.7 and later refuse; that failure is the endpoint's 500 answer;
  - The model assumes that the store's order is creation order, with creation times that never decrease. Under that assumption:
    - `findTop20ByUserIdOrderByCreatedAtDesc` gives the user's 20 newest notices;
    - `findByReviewIdOrderByCreatedAtAsc` (ReviewReplyService.GetReplies, and ReviewReplyService.CreatedReplyIsListed) lists in store order. A reply created with a clock earlier than a stored reply's would be listed before it by the database, and last by the model;
    - `findByUserId` (FavoriteService.GetUserFavorites) has no ORDER BY, so the database's order is unspecified and the model uses store order.
- SearchHistoryController.SaveSearchAsWritten: the 500 answer for a failing save is not modelled. The SearchHistory entity is not part of this model, so which terms the table refuses is unknown. For example, under JPA's default mapping a term longer than 255 characters would not fit the column.
- Spring Security: the route authorisation table of SecurityConfig, the authentication manager and the security context. `Auth` is either anonymous or authenticated under an email. AuthController.Login composes the account loading with the encoder check.
- LocalService, ReviewReplyNotificationController, the admin read-only endpoints (getAllUsers, getSystemStats, getAllReviews), getCurrentUserReviews and getUserReviewsById. These only delegate or copy fields.
- Configuration, bootstrap, CORS, media and test controllers, and the password hash generators. They contain no decision logic.
- Logging. Transactions are modelled as atomic: an error leaves the store unchanged.
- Case-insensitive comparison and lower-casing use ASCII only. Locale-dependent case mapping is not modelled.
- The Google reviews (`reviews`) and the opening-hours texts in `getPlaceDetails` are left out, and the phone and website are copied through. They do not affect any decision.
- LocalController.StoreResults: a search result without a placeId is skipped. The Java code would try to save a row with a null placeId.
- GooglePlacesService.DecodeResults, GooglePlacesService.SearchPlaces, GooglePlacesService.GetPlaceDetails: a JSON object with duplicate member names is read by its first member, and the raw results' other fields are copied through.
- ReplyNotificationService.BuildSnippet: when a surrogate pair straddles the 160th code unit, `substring` keeps its lone high half; a string here is a sequence of whole characters, so the model drops the whole character and keeps 159 units.
- GooglePlacesService.GetPlaceDetails: values beyond 64 bits, and numbers that are not whole, are not modelled; `asInt` is modelled as a cut to 32 bits. A price_level just below 2^31 makes "€".repeat run out of memory, an Error the catch does not handle; it is not modelled.

## Findings

| source | as written | input that shows it | evidently intended | confidence | as-written member | corrected member |
|---|---|---|---|---|---|---|
| eatsandthinks-backend/src/main/java/com/eatsandthinks/demo/controller/SearchHistoryController.java:43-48 | the term is checked with `isBlank()` but stored as `trim()`. `trim` also removes control characters that are not whitespace | a logged-in user posts the search term "\u0001": it is not blank, so 200 is answered and the empty string is stored | no empty search term is ever stored | medium, not executed | SearchHistoryController.SaveSearchAsWritten, SearchHistoryController.AsWrittenSavesEmptyTerm | SearchHistoryController.SaveSearch, SearchHistoryController.SaveSearchKeepsTermsNonEmpty |

=== FILE: admin.dfy ===
/** The administration endpoints under /api/admin: who counts as an
    administrator, which administrator may act on which user, and the four
    user mutations (role, ban, review permission, deletion) plus the manual
    creation of a place. Every RuntimeException these endpoints raise is
    answered with 403. */
module Admin {
  import opened Base
  import opened JavaString
  import opened Entities
  import UserDetailsService

  /** validateAdmin's role test: exactly "ADMIN" or "ROLE_ADMIN", case
      sensitive. */
  predicate HasExactAdminRole(u: User) {
    u.role == "ADMIN" || u.role == "ROLE_ADMIN"
  }

  /** validateAdmin: the authenticated caller's row, provided its role is
      an exact administrator role. */
  function ValidateAdmin(auth: Auth, users: seq<User>): (r: Result<User>)
    ensures r.Ok? ==> auth.Authenticated? && r.value in users && r.value.email == auth.name
    ensures r.Ok? ==> HasExactAdminRole(r.value)
    ensures auth.Anonymous? ==> r.Err?
  {
    match auth
    case Anonymous => Err("No autenticado")
    case Authenticated(email) =>
      match UserByEmail(users, email)
      case None => Err("Usuario no encontrado")
      case Some(i) =>
        if !HasExactAdminRole(users[i]) then Err("Acceso denegado: se requieren permisos de administrador")
        else Ok(users[i])
  }

  /** With unique emails, validateAdmin admits the caller exactly when the
      caller's own row carries an exact administrator role; "admin" or
      "Role_Admin" are refused. */
  lemma ValidateAdminIff(email: string, users: seq<User>)
    requires UsersWellFormed(users)
    ensures ValidateAdmin(Authenticated(email), users).Ok? <==>
      exists k :: 0 <= k < |users| && users[k].email == email && HasExactAdminRole(users[k])
  {
    if k :| 0 <= k < |users| && users[k].email == email && HasExactAdminRole(users[k]) {
      UserByEmailUnique(users, email, k);
    }
  }

  /** isAdminRole: "ADMIN" or "ROLE_ADMIN" ignoring case. */
  predicate IsAdminRole(role: string) {
    EqualsIgnoreCase("ADMIN", role) || EqualsIgnoreCase("ROLE_ADMIN", role)
  }

  /** isSuperAdmin: the user named "Administrator" or with email
      "admin@gmail.com", ignoring case; never a missing user. */
  predicate IsSuperAdmin(u: Option<User>) {
    u.Some? && (EqualsIgnoreCase("Administrator", u.value.nombre) || EqualsIgnoreCase("admin@gmail.com", u.value.email))
  }

  /** isOtherAdmin: a non-super administrator acting on a different user
      whose role is an administrator role. */
  predicate IsOtherAdmin(acting: Option<User>, target: Option<User>) {
    if acting.None? || target.None? then false
    else if IsSuperAdmin(acting) then false
    else acting.value.id != target.value.id && IsAdminRole(target.value.role)
  }

  /** Who may administer whom, stated directly: a super administrator may
      act on anyone; any other administrator only on a user who is not the
      super administrator and is either the administrator itself or not an
      administrator. */
  predicate MayAdminister(admin: User, target: User) {
    IsSuperAdmin(Some(admin))
    || (!IsSuperAdmin(Some(target)) && (admin.id == target.id || !IsAdminRole(target.role)))
  }

  /** An admitted request: the acting administrator and the index of the
      target user. */
  datatype Authorized = Authorized(admin: User, target: nat)

  /** The guard shared by the four user mutations, in the source's order:
      validateAdmin, findById, isOtherAdmin, then the super-admin
      protection. */
  function Authorize(auth: Auth, userId: nat, users: seq<User>): (r: Result<Authorized>)
    ensures r.Ok? ==> ValidateAdmin(auth, users) == Ok(r.value.admin)
    ensures r.Ok? ==> r.value.target < |users| && users[r.value.target].id == userId
    ensures r.Ok? <==>
      && ValidateAdmin(auth, users).Ok?
      && UserById(users, userId).Some?
      && MayAdminister(ValidateAdmin(auth, users).value, users[UserById(users, userId).value])
  {
    match ValidateAdmin(auth, users)
    case Err(m) => Err(m)
    case Ok(admin) =>
      match UserById(users, userId)
      case None => Err("Usuario no encontrado")
      case Some(k) =>
        if IsOtherAdmin(Some(admin), Some(users[k])) then Err("No puedes modificar a otro administrador")
        else if !IsSuperAdmin(Some(admin)) && IsSuperAdmin(Some(users[k])) then Err("Usuario Administrator protegido")
        else Ok(Authorized(admin, k))
  }

  /** The roles changeUserRole assigns. */
  const ASSIGNABLE_ROLES: seq<string> := ["ADMIN", "USER", "GUEST"]

  /** changeUserRole's normalisation: one leading "ROLE_" is dropped. */
  function NormalizeRole(role: string): (r: string)
    ensures |r| <= |role|
    ensures r == role || role == "ROLE_" + r
    ensures StartsWith(role, "ROLE_") <==> r != role
  {
    UserDetailsService.BareRole(role)
  }

  /** The request values changeUserRole accepts, listed: the three roles,
      bare or with a single "ROLE_" prefix. */
  lemma {:induction false} AcceptedRoleInputs(role: string)
    ensures NormalizeRole(role) in ASSIGNABLE_ROLES <==>
      role in ["ADMIN", "USER", "GUEST", "ROLE_ADMIN", "ROLE_USER", "ROLE_GUEST"]
  {
    if StartsWith(role, "ROLE_") {
      var bare := role[5..];
      assert role == "ROLE_" + bare;
      assert role[0] == 'R';
      assert bare == "ADMIN" <==> role == "ROLE_ADMIN";
      assert bare == "USER" <==> role == "ROLE_USER";
      assert bare == "GUEST" <==> role == "ROLE_GUEST";
    } else {
      assert "ROLE_" <= "ROLE_ADMIN" && "ROLE_" <= "ROLE_USER" && "ROLE_" <= "ROLE_GUEST";
    }
  }

  datatype RoleChange = RoleChange(status: int, newRole: Option<string>, db: Db)

  /** PUT /api/admin/users/{userId}/role. */
  function ChangeUserRole(auth: Auth, userId: nat, role: Option<string>, db: Db): (r: RoleChange)
    ensures r.status in {OK, BAD_REQUEST, FORBIDDEN}
    ensures r.status != OK ==> r.db == db && r.newRole.None?
    ensures Authorize(auth, userId, db.users).Err? ==> r.status == FORBIDDEN
    ensures r.status == OK ==>
      && Authorize(auth, userId, db.users).Ok?
      && role.Some? && r.newRole == Some(NormalizeRole(role.value))
      && r.newRole.value in ASSIGNABLE_ROLES
      && var k := Authorize(auth, userId, db.users).value.target;
         r.db == db.(users := db.users[k := db.users[k].(role := r.newRole.value)])
    ensures r.status == BAD_REQUEST <==>
      Authorize(auth, userId, db.users).Ok? && role.Some? && NormalizeRole(role.value) !in ASSIGNABLE_ROLES
    ensures r.status == OK <==>
      Authorize(auth, userId, db.users).Ok? && role.Some? && NormalizeRole(role.value) in ASSIGNABLE_ROLES
  {
    match Authorize(auth, userId, db.users)
    case Err(_) => RoleChange(FORBIDDEN, None, db)
    case Ok(Authorized(_, k)) =>
      match role
      // body.get("role") is null: newRole.startsWith throws, answered 403
      case None => RoleChange(FORBIDDEN, None, db)
      case Some(requested) =>
        var newRole := NormalizeRole(requested);
        if newRole !in ASSIGNABLE_ROLES then RoleChange(BAD_REQUEST, None, db)
        else RoleChange(OK, Some(newRole), db.(users := db.users[k := db.users[k].(role := newRole)]))
  }

  datatype Answer = Answer(status: int, db: Db)

  /** PUT /api/admin/users/{userId}/ban. A missing flag would store null in
      the NOT NULL `banned` column; the save fails and the answer is 403. */
  function ToggleBanUser(auth: Auth, userId: nat, banned: Option<bool>, db: Db): (r: Answer)
    ensures r.status in {OK, FORBIDDEN}
    ensures r.status != OK ==> r.db == db
    ensures r.status == OK <==> Authorize(auth, userId, db.users).Ok? && banned.Some?
    ensures r.status == OK ==>
      var k := Authorize(auth, userId, db.users).value.target;
      r.db == db.(users := db.users[k := db.users[k].(banned := banned)])
  {
    match Authorize(auth, userId, db.users)
    case Err(_) => Answer(FORBIDDEN, db)
    case Ok(Authorized(_, k)) =>
      if banned.None? then Answer(FORBIDDEN, db)
      else Answer(OK, db.(users := db.users[k := db.users[k].(banned := banned)]))
  }

  /** PUT /api/admin/users/{userId}/review-permission; `canReview` is a
      NOT NULL column as well. */
  function ToggleReviewPermission(auth: Auth, userId: nat, canReview: Option<bool>, db: Db): (r: Answer)
    ensures r.status in {OK, FORBIDDEN}
    ensures r.status != OK ==> r.db == db
    ensures r.status == OK <==> Authorize(auth, userId, db.users).Ok? && canReview.Some?
    ensures r.status == OK ==>
      var k := Authorize(auth, userId, db.users).value.target;
      r.db == db.(users := db.users[k := db.users[k].(canReview := canReview)])
  {
    match Authorize(auth, userId, db.users)
    case Err(_) => Answer(FORBIDDEN, db)
    case Ok(Authorized(_, k)) =>
      if canReview.None? then Answer(FORBIDDEN, db)
      else Answer(OK, db.(users := db.users[k := db.users[k].(canReview := canReview)]))
  }

  /** DELETE /api/admin/users/{userId}: the guard, then a refusal (400) of
      self-deletion. */
  function DeleteUser(auth: Auth, userId: nat, db: Db): (r: Answer)
    ensures r.status in {OK, BAD_REQUEST, FORBIDDEN}
    ensures r.status != OK ==> r.db == db
    ensures r.status == BAD_REQUEST <==>
      Authorize(auth, userId, db.users).Ok? && Authorize(auth, userId, db.users).value.admin.id == userId
    ensures r.status == OK <==>
      Authorize(auth, userId, db.users).Ok? && Authorize(auth, userId, db.users).value.admin.id != userId
    ensures r.status == OK ==>
      && Authorize(auth, userId, db.users).Ok?
      && Authorize(auth, userId, db.users).value.admin.id != userId
      && var k := Authorize(auth, userId, db.users).value.target;
         r.db == db.(users := RemoveAt(db.users, k))
  {
    match Authorize(auth, userId, db.users)
    case Err(_) => Answer(FORBIDDEN, db)
    case Ok(Authorized(admin, k)) =>
      if admin.id == userId then Answer(BAD_REQUEST, db)
      else Answer(OK, db.(users := RemoveAt(db.users, k)))
  }

  /** A prefixed role and its bare form are the same request: both give
      the same answer and store the same bare role. */
  lemma {:induction false} PrefixedRoleIsSameRequest(auth: Auth, userId: nat, bare: string, db: Db)
    requires bare in ASSIGNABLE_ROLES
    ensures ChangeUserRole(auth, userId, Some("ROLE_" + bare), db) == ChangeUserRole(auth, userId, Some(bare), db)
  {
    var prefixed := "ROLE_" + bare;
    assert StartsWith(prefixed, "ROLE_") && prefixed[5..] == bare;
    assert !StartsWith(bare, "ROLE_") by {
      assert bare[0] != 'R' || bare[1] != 'O';
    }
    assert NormalizeRole(prefixed) == bare == NormalizeRole(bare);
  }

  /** Promoting a user to ADMIN makes that user an administrator in the
      eyes of validateAdmin, when ids and emails are unique. */
  lemma {:induction false} PromotedUserPassesValidateAdmin(auth: Auth, userId: nat, db: Db)
    requires UsersWellFormed(db.users)
    requires ChangeUserRole(auth, userId, Some("ADMIN"), db).status == OK
    ensures
      var users' := ChangeUserRole(auth, userId, Some("ADMIN"), db).db.users;
      var k := Authorize(auth, userId, db.users).value.target;
      ValidateAdmin(Authenticated(users'[k].email), users').Ok?
  {
    var users' := ChangeUserRole(auth, userId, Some("ADMIN"), db).db.users;
    var k := Authorize(auth, userId, db.users).value.target;
    assert "ADMIN"[0] != 'R';
    assert NormalizeRole("ADMIN") == "ADMIN";
    assert users'[k].role == "ADMIN";
    assert UsersWellFormed(users') by {
      assert forall j :: 0 <= j < |users'| ==> users'[j].id == db.users[j].id && users'[j].email == db.users[j].email && users'[j].nombre == db.users[j].nombre;
    }
    UserByEmailUnique(users', users'[k].email, k);
  }

  /** A non-super administrator can never change the role, ban flag or
      review permission of the super administrator, nor delete it: every
      such request is answered 403 and changes nothing. */
  lemma SuperAdminProtected(auth: Auth, userId: nat, role: Option<string>, flag: Option<bool>, db: Db)
    requires ValidateAdmin(auth, db.users).Ok? && !IsSuperAdmin(Some(ValidateAdmin(auth, db.users).value))
    requires UserById(db.users, userId).Some? && IsSuperAdmin(Some(db.users[UserById(db.users, userId).value]))
    ensures ChangeUserRole(auth, userId, role, db) == RoleChange(FORBIDDEN, None, db)
    ensures ToggleBanUser(auth, userId, flag, db) == Answer(FORBIDDEN, db)
    ensures ToggleReviewPermission(auth, userId, flag, db) == Answer(FORBIDDEN, db)
    ensures DeleteUser(auth, userId, db) == Answer(FORBIDDEN, db)
  {
  }

  /** A successful deletion never removes the acting administrator: with
      unique ids its row is still there afterwards. */
  lemma {:induction false} DeleteKeepsActingAdmin(auth: Auth, userId: nat, db: Db)
    requires UsersWellFormed(db.users)
    requires DeleteUser(auth, userId, db).status == OK
    ensures ValidateAdmin(auth, db.users).Ok?
    ensures ValidateAdmin(auth, db.users).value in DeleteUser(auth, userId, db).db.users
  {
    var admin := ValidateAdmin(auth, db.users).value;
    var k := Authorize(auth, userId, db.users).value.target;
    var a :| 0 <= a < |db.users| && db.users[a] == admin;
    assert a != k;
    var users' := DeleteUser(auth, userId, db).db.users;
    if a < k {
      assert users'[a] == admin;
    } else {
      assert users'[a - 1] == admin;
    }
  }

  /** A successful deletion removes exactly the target: no row with that
      id remains, one row fewer, and unique ids, emails and names are kept. */
  lemma {:induction false} DeleteRemovesTarget(auth: Auth, userId: nat, db: Db)
    requires UsersWellFormed(db.users)
    requires DeleteUser(auth, userId, db).status == OK
    ensures forall u :: u in DeleteUser(auth, userId, db).db.users ==> u.id != userId
    ensures |DeleteUser(auth, userId, db).db.users| == |db.users| - 1
    ensures UsersWellFormed(DeleteUser(auth, userId, db).db.users)
  {
    var k := Authorize(auth, userId, db.users).value.target;
    assert DeleteUser(auth, userId, db).db.users == RemoveAt(db.users, k);
    RemoveAtDropsId(db.users, k);
    RemoveAtWellFormed(db.users, k);
  }

  /** The body of POST /api/admin/locals (fields the model keeps). */
  datatype CreateLocalDto = CreateLocalDto(
    placeId: Option<string>,
    nombre: Option<string>,
    direccion: Option<string>,
    tipo: Option<string>,
    lat: Option<Coordinate>,
    lng: Option<Coordinate>,
    priceLevel: Option<int>,
    photoRef: Option<string>,
    rating: Option<Rating>)

  /** The placeId generated for a place created without one. */
  function GeneratedPlaceId(millis: nat, adminId: nat): (r: string)
    ensures StartsWith(r, "LOCAL_")
  {
    "LOCAL_" + NatToString(millis) + "_" + NatToString(adminId)
  }

  /** The placeId createLocal stores: the requested one, unless it is null
      or blank. */
  function EffectivePlaceId(requested: Option<string>, millis: nat, adminId: nat): (r: string)
    ensures requested.Some? && !IsBlank(requested.value) ==> r == requested.value
    ensures requested.None? || IsBlank(requested.value) ==> r == GeneratedPlaceId(millis, adminId)
  {
    if requested.None? || IsBlank(requested.value) then GeneratedPlaceId(millis, adminId)
    else requested.value
  }

  datatype Creation = Creation(status: int, placeId: Option<string>, db: Db)

  /** The place createLocal saves: source LOCAL, the creator recorded, and
      the request's rating kept only when present and positive, in which
      case the rating count is 0. */
  function LocalFromDto(id: nat, placeId: string, dto: CreateLocalDto, adminId: nat): (p: Place)
    ensures p.id == id && p.placeId == placeId && p.source == LOCAL && p.creadoPorUsuarioId == Some(adminId)
    ensures p.nombre == dto.nombre && p.direccion == dto.direccion && p.tipo == dto.tipo
    ensures p.precioNivel == dto.priceLevel && p.fotoRef == dto.photoRef
    ensures dto.rating.Some? && dto.rating.value > 0 ==> p.rating == dto.rating && p.totalValoraciones == Some(0)
    ensures dto.rating.None? || dto.rating.value <= 0 ==> p.rating.None? && p.totalValoraciones.None?
  {
    var positive := dto.rating.Some? && dto.rating.value > 0;
    Place(
      id, placeId, dto.nombre, dto.direccion, dto.tipo, dto.lat, dto.lng,
      if positive then dto.rating else None,
      if positive then Some(0) else None,
      dto.priceLevel, None, dto.photoRef, Some(adminId), LOCAL)
  }

  /** POST /api/admin/locals at clock reading `millis`. */
  function CreateLocal(auth: Auth, dto: CreateLocalDto, millis: nat, db: Db): (r: Creation)
    ensures r.status in {CREATED, BAD_REQUEST, FORBIDDEN}
    ensures r.status != CREATED ==> r.db == db && r.placeId.None?
    ensures r.status == FORBIDDEN <==> ValidateAdmin(auth, db.users).Err?
    ensures r.status == BAD_REQUEST <==>
      && ValidateAdmin(auth, db.users).Ok?
      && PlaceByPlaceId(db.places, EffectivePlaceId(dto.placeId, millis, ValidateAdmin(auth, db.users).value.id)).Some?
    ensures r.status == CREATED ==>
      && var admin := ValidateAdmin(auth, db.users).value;
         var pid := EffectivePlaceId(dto.placeId, millis, admin.id);
         && r.placeId == Some(pid)
         && (forall j :: 0 <= j < |db.places| ==> db.places[j].placeId != pid)
         && r.db == db.(places := db.places + [LocalFromDto(NextId(db.places, PlaceRowId), pid, dto, admin.id)])
  {
    match ValidateAdmin(auth, db.users)
    case Err(_) => Creation(FORBIDDEN, None, db)
    case Ok(admin) =>
      var pid := EffectivePlaceId(dto.placeId, millis, admin.id);
      if PlaceByPlaceId(db.places, pid).Some? then Creation(BAD_REQUEST, None, db)
      else
        var place := LocalFromDto(NextId(db.places, PlaceRowId), pid, dto, admin.id);
        Creation(CREATED, Some(pid), db.(places := db.places + [place]))
  }

  /** Creating a place keeps ids and placeIds unique. */
  lemma CreateLocalKeepsPlacesUnique(auth: Auth, dto: CreateLocalDto, millis: nat, db: Db)
    requires PlacesWellFormed(db.places)
    ensures PlacesWellFormed(CreateLocal(auth, dto, millis, db).db.places)
  {
  }
}

=== FILE: auth_controller.dfy ===
/** The /api/auth endpoints that add behaviour of their own on top of the
    service: the login through the authentication manager, and the logout
    that deletes guest accounts. */
module AuthController {
  import opened Base
  import opened JavaString
  import opened Entities
  import opened UserDetailsService
  import opened AuthService

  datatype LoginAnswer = LoginAnswer(status: int, jwtToken: Option<string>, message: Option<string>)

  /** POST /api/auth/login: the authentication manager loads the account
      (missing and banned users fail) and checks the password. The endpoint
      does not catch the authentication failure, so it reaches the security
      filter chain, whose default entry point answers 403; a success is
      answered with a token for the account's email and the
      message "OK". */
  function Login(email: string, password: string, enc: Encoder, jwt: TokenIssuer, users: seq<User>): (r: LoginAnswer)
    ensures r.status in {OK, FORBIDDEN}
    ensures r.status == OK <==>
      && UserByEmail(users, email).Some?
      && users[UserByEmail(users, email).value].banned != Some(true)
      && enc.matches(password, users[UserByEmail(users, email).value].password)
    ensures r.status == OK ==> r == LoginAnswer(OK, Some(jwt(email)), Some("OK"))
    ensures r.status != OK ==> r.jwtToken.None?
  {
    match LoadUserByUsername(email, users)
    case Err(_) => LoginAnswer(FORBIDDEN, None, None)
    case Ok(details) =>
      if !enc.matches(password, details.password) then LoginAnswer(FORBIDDEN, None, None)
      else LoginAnswer(OK, Some(jwt(details.username)), Some("OK"))
  }

  /** A banned user cannot log in, whatever the password. */
  lemma BannedCannotLogin(email: string, password: string, enc: Encoder, jwt: TokenIssuer, users: seq<User>, k: nat)
    requires UsersWellFormed(users)
    requires k < |users| && users[k].email == email && users[k].banned == Some(true)
    ensures Login(email, password, enc, jwt, users).status == FORBIDDEN
  {
    UserByEmailUnique(users, email, k);
  }

  /** Whether logout deletes the caller: a guest email, the row found, and
      the role exactly "GUEST". */
  predicate DeletesOnLogout(auth: Auth, users: seq<User>) {
    && auth.Authenticated?
    && StartsWith(auth.name, "guest_")
    && UserByEmail(users, auth.name).Some?
    && users[UserByEmail(users, auth.name).value].role == "GUEST"
  }

  /** POST /api/auth/logout: always 200; the caller's row is removed when it
      is a guest account, and nothing else changes. */
  function Logout(auth: Auth, db: Db): (r: Answer)
    ensures r.status == OK
    ensures !DeletesOnLogout(auth, db.users) ==> r.db == db
    ensures DeletesOnLogout(auth, db.users) ==>
      r.db == db.(users := RemoveAt(db.users, UserByEmail(db.users, auth.name).value))
  {
    if DeletesOnLogout(auth, db.users) then
      Answer(OK, db.(users := RemoveAt(db.users, UserByEmail(db.users, auth.name).value)))
    else Answer(OK, db)
  }

  datatype Answer = Answer(status: int, db: Db)

  /** Logging out of a guest session right after creating it restores the
      store exactly as it was before. */
  lemma {:induction false} GuestSessionRoundTrip(emailMillis: nat, passwordMillis: nat, enc: Encoder, jwt: TokenIssuer, db: Db)
    requires CreateGuestSession(emailMillis, passwordMillis, enc, jwt, db).status == OK
    ensures Logout(Authenticated(GuestEmail(emailMillis)), CreateGuestSession(emailMillis, passwordMillis, enc, jwt, db).db).db == db
  {
    var email := GuestEmail(emailMillis);
    var db' := CreateGuestSession(emailMillis, passwordMillis, enc, jwt, db).db;
    var n := |db.users|;
    assert db'.users[n].email == email;
    assert forall j :: 0 <= j < n ==> db'.users[j] == db.users[j];
    assert UserByEmail(db'.users, email) == Some(n);
    assert RemoveAt(db'.users, n) == db.users;
  }

  /** Logout never removes a registered (non-guest) account. */
  lemma LogoutKeepsNonGuests(auth: Auth, db: Db)
    requires auth.Authenticated? && UserByEmail(db.users, auth.name).Some?
    requires db.users[UserByEmail(db.users, auth.name).value].role != "GUEST"
    ensures Logout(auth, db).db == db
  {
  }
}

=== FILE: auth_service.dfy ===
/** Registration, the service-level login check, and guest sessions. The
    password encoder and the token issuer are parameters; the clock is a
    parameter too. */
module AuthService {
  import opened Base
  import opened JavaString
  import opened Entities

  /** JwtUtils.generateToken: a token for a subject (the user's email). */
  type TokenIssuer = string -> string

  datatype RegisterRequest = RegisterRequest(nombre: string, email: string, password: string)

  datatype AuthResponse = AuthResponse(message: string, jwtToken: string)

  /** existsByNombreIgnoreCase. */
  predicate NombreTaken(users: seq<User>, nombre: string) {
    exists k :: 0 <= k < |users| && EqualsIgnoreCase(users[k].nombre, nombre)
  }

  /** Whether a new row with this name and email passes the unique
      constraints on `usuarios`; a save that fails them throws. */
  predicate Insertable(users: seq<User>, nombre: string, email: string) {
    forall k :: 0 <= k < |users| ==> users[k].nombre != nombre && users[k].email != email
  }

  /** A new user row appended with a fresh id. */
  function AddUser(users: seq<User>, u: User): (r: seq<User>)
    ensures r == users + [u.(id := NextId(users, UserId))]
  {
    users + [u.(id := NextId(users, UserId))]
  }

  /** Appending a row that passes the unique constraints keeps them. */
  lemma AddUserWellFormed(users: seq<User>, u: User)
    requires UsersWellFormed(users) && Insertable(users, u.nombre, u.email)
    ensures UsersWellFormed(AddUser(users, u))
  {
    var r := AddUser(users, u);
    forall i, j | 0 <= i < j < |r|
      ensures r[i].id != r[j].id && r[i].email != r[j].email && r[i].nombre != r[j].nombre
    {
      if j == |users| {
        assert UserId(users[i]) < NextId(users, UserId);
      }
    }
  }

  /** register: the email must be new, then the name must be new ignoring
      case; the stored row has role USER and the encoded password. */
  function Register(req: RegisterRequest, enc: Encoder, jwt: TokenIssuer, db: Db): (r: Result<(AuthResponse, Db)>)
    ensures UserByEmail(db.users, req.email).Some? ==> r == Err("El email ya está registrado")
    ensures UserByEmail(db.users, req.email).None? && NombreTaken(db.users, req.nombre) ==>
      r == Err("El nombre de usuario ya está en uso")
    ensures r.Ok? <==> UserByEmail(db.users, req.email).None? && !NombreTaken(db.users, req.nombre)
    ensures r.Ok? ==>
      && r.value.0 == AuthResponse("Registro exitoso", jwt(req.email))
      && r.value.1 == db.(users := AddUser(db.users, NewUser(0, req.nombre, req.email, enc.encode(req.password))))
  {
    if UserByEmail(db.users, req.email).Some? then Err("El email ya está registrado")
    else if NombreTaken(db.users, req.nombre) then Err("El nombre de usuario ya está en uso")
    else
      var u := NewUser(0, req.nombre, req.email, enc.encode(req.password));
      Ok((AuthResponse("Registro exitoso", jwt(req.email)), db.(users := AddUser(db.users, u))))
  }

  /** Registration never breaks the unique constraints: the checks it makes
      are enough for the save to succeed. */
  lemma RegisterKeepsUsersWellFormed(req: RegisterRequest, enc: Encoder, jwt: TokenIssuer, db: Db)
    requires UsersWellFormed(db.users)
    requires Register(req, enc, jwt, db).Ok?
    ensures UsersWellFormed(Register(req, enc, jwt, db).value.1.users)
  {
    var u := NewUser(0, req.nombre, req.email, enc.encode(req.password));
    forall k | 0 <= k < |db.users| ensures db.users[k].nombre != u.nombre {
      if db.users[k].nombre == u.nombre {
        assert EqualsIgnoreCase(db.users[k].nombre, req.nombre);
      }
    }
    AddUserWellFormed(db.users, u);
  }

  /** AuthService.login: the user by email, then the password check. */
  function Login(email: string, password: string, enc: Encoder, jwt: TokenIssuer, users: seq<User>): (r: Result<AuthResponse>)
    ensures UserByEmail(users, email).None? ==> r == Err("Usuario no encontrado")
    ensures r.Ok? <==>
      UserByEmail(users, email).Some? && enc.matches(password, users[UserByEmail(users, email).value].password)
    ensures r.Ok? ==> r.value == AuthResponse("Login exitoso", jwt(email))
  {
    match UserByEmail(users, email)
    case None => Err("Usuario no encontrado")
    case Some(i) =>
      if !enc.matches(password, users[i].password) then Err("Contraseña incorrecta")
      else Ok(AuthResponse("Login exitoso", jwt(users[i].email)))
  }

  /** A freshly registered user can log in with the password it chose,
      whatever encoder is used, provided the encoder accepts a password
      against its own encoding. */
  lemma {:induction false} RegisterThenLogin(req: RegisterRequest, enc: Encoder, jwt: TokenIssuer, db: Db)
    requires Sound(enc)
    requires Register(req, enc, jwt, db).Ok?
    ensures Login(req.email, req.password, enc, jwt, Register(req, enc, jwt, db).value.1.users)
      == Ok(AuthResponse("Login exitoso", jwt(req.email)))
  {
    var users' := Register(req, enc, jwt, db).value.1.users;
    var n := |db.users|;
    assert users'[n].email == req.email;
    assert UserByEmail(users', req.email) == Some(n) by {
      assert forall j :: 0 <= j < n ==> users'[j] == db.users[j];
    }
    assert enc.matches(req.password, enc.encode(req.password));
  }

  const GUEST_NAME := "Invitado"
  const GUEST_DOMAIN := "@eatsandthinks.app"

  /** The email of a guest created at clock reading `millis`. */
  function GuestEmail(millis: nat): (e: string)
    ensures StartsWith(e, "guest_")
  {
    "guest_" + NatToString(millis) + GUEST_DOMAIN
  }

  /** The guest row: role GUEST, not allowed to review, not banned, with a
      throw-away password. */
  function GuestUser(emailMillis: nat, passwordMillis: nat, enc: Encoder): (u: User)
    ensures u.nombre == GUEST_NAME && u.email == GuestEmail(emailMillis) && u.role == "GUEST"
    ensures u.canReview == Some(false) && u.banned == Some(false)
  {
    NewUser(0, GUEST_NAME, GuestEmail(emailMillis), enc.encode("guest_" + NatToString(passwordMillis)))
      .(role := "GUEST", canReview := Some(false))
  }

  /** The JSON body of POST /api/auth/guest. */
  datatype GuestBody =
    | GuestCreated(jwtToken: string, email: string, role: string, message: string)
    | GuestFailed(message: string)

  datatype GuestAnswer = GuestAnswer(status: int, body: GuestBody, db: Db)

  /** createGuestSession, with the two clock readings it takes (one for the
      email, one for the password). The save fails, and the answer is 500,
      when the unique name or email is already taken: in particular while
      another guest named "Invitado" exists. */
  function CreateGuestSession(emailMillis: nat, passwordMillis: nat, enc: Encoder, jwt: TokenIssuer, db: Db): (r: GuestAnswer)
    ensures r.status in {OK, SERVER_ERROR}
    ensures r.status == OK <==> Insertable(db.users, GUEST_NAME, GuestEmail(emailMillis))
    ensures r.status != OK ==> r.db == db && r.body == GuestFailed("Error al crear sesión de invitado")
    ensures r.status == OK ==>
      && r.body == GuestCreated(jwt(GuestEmail(emailMillis)), GuestEmail(emailMillis), "GUEST", "Sesión de invitado creada")
      && r.db == db.(users := AddUser(db.users, GuestUser(emailMillis, passwordMillis, enc)))
  {
    var email := GuestEmail(emailMillis);
    if !Insertable(db.users, GUEST_NAME, email) then
      GuestAnswer(SERVER_ERROR, GuestFailed("Error al crear sesión de invitado"), db)
    else
      GuestAnswer(OK, GuestCreated(jwt(email), email, "GUEST", "Sesión de invitado creada"),
                  db.(users := AddUser(db.users, GuestUser(emailMillis, passwordMillis, enc))))
  }

  /** While a guest exists no second guest can be created: the name
      "Invitado" is taken. */
  lemma SecondGuestFails(m1: nat, p1: nat, m2: nat, p2: nat, enc: Encoder, jwt: TokenIssuer, db: Db)
    requires CreateGuestSession(m1, p1, enc, jwt, db).status == OK
    ensures CreateGuestSession(m2, p2, enc, jwt, CreateGuestSession(m1, p1, enc, jwt, db).db).status == SERVER_ERROR
  {
    var users' := CreateGuestSession(m1, p1, enc, jwt, db).db.users;
    assert users'[|db.users|].nombre == GUEST_NAME;
  }
}

=== FILE: base.dfy ===
/** Small building blocks shared by every part of the model: optional values
    standing for Java's nullable references, failures carrying the message of
    the RuntimeException the service would throw, HTTP status codes, and a few
    generic sequence utilities (first match, fresh identity, subsequence). */
module Base {

  /** A nullable Java reference: `None` is `null`. */
  datatype Option<+T> = None | Some(value: T) {
    function GetOr(default: T): T {
      match this
      case Some(v) => v
      case None => default
    }
  }

  /** The outcome of a service call that either returns or throws. */
  datatype Result<+T> = Ok(value: T) | Err(message: string)

  /** HTTP status codes the controllers answer with. */
  const OK := 200
  const CREATED := 201
  const BAD_REQUEST := 400
  const UNAUTHORIZED := 401
  const FORBIDDEN := 403
  const NOT_FOUND := 404
  const SERVER_ERROR := 500

  /** Index of the first element satisfying `p`, as a repository
      `findBy...` query returns the first matching row. */
  function FindFirst<T>(s: seq<T>, p: T -> bool): (r: Option<nat>)
    ensures r.Some? ==> r.value < |s| && p(s[r.value])
    ensures r.Some? ==> forall j :: 0 <= j < r.value ==> !p(s[j])
    ensures r.None? <==> forall j :: 0 <= j < |s| ==> !p(s[j])
  {
    if |s| == 0 then None
    else if p(s[0]) then Some(0)
    else
      match FindFirst(s[1..], p)
      case None => None
      case Some(i) => Some(i + 1)
  }

  /** An identity strictly above every identity in use, as an
      auto-increment column hands out. */
  function NextId<T>(s: seq<T>, id: T -> nat): (r: nat)
    ensures forall i :: 0 <= i < |s| ==> id(s[i]) < r
  {
    if |s| == 0 then 1
    else
      var rest := NextId(s[1..], id);
      if id(s[0]) < rest then rest else id(s[0]) + 1
  }

  /** Elements satisfying `p`, in their original order (a Java stream
      `filter`). */
  function Filter<T>(s: seq<T>, p: T -> bool): (r: seq<T>)
    ensures |r| <= |s|
    ensures forall i :: 0 <= i < |r| ==> p(r[i]) && r[i] in s
    ensures forall i :: 0 <= i < |s| && p(s[i]) ==> s[i] in r
  {
    if |s| == 0 then []
    else if p(s[0]) then [s[0]] + Filter(s[1..], p)
    else Filter(s[1..], p)
  }

  /** `f` applied to every element, in order (a Java stream `map`). */
  function MapSeq<A, B>(s: seq<A>, f: A -> B): (r: seq<B>)
    ensures |r| == |s|
    ensures forall i :: 0 <= i < |s| ==> r[i] == f(s[i])
  {
    seq(|s|, i requires 0 <= i < |s| => f(s[i]))
  }

  /** The elements satisfying `keep`, each transformed by `f`, in order (a
      loop that skips some elements and converts the others). */
  function FilterMap<A, B(==)>(s: seq<A>, keep: A -> bool, f: A -> B): (r: seq<B>)
    ensures |r| <= |s|
    ensures r == MapSeq(Filter(s, keep), f)
    ensures forall i :: 0 <= i < |s| && keep(s[i]) ==> f(s[i]) in r
    ensures forall i :: 0 <= i < |r| ==> exists j :: 0 <= j < |s| && keep(s[j]) && r[i] == f(s[j])
  {
    var t := Filter(s, keep);
    var r := MapSeq(t, f);
    assert forall i :: 0 <= i < |s| && keep(s[i]) ==> f(s[i]) in r by {
      forall i | 0 <= i < |s| && keep(s[i]) ensures f(s[i]) in r {
        var j :| 0 <= j < |t| && t[j] == s[i];
        assert r[j] == f(s[i]);
      }
    }
    assert forall i :: 0 <= i < |r| ==> exists j :: 0 <= j < |s| && keep(s[j]) && r[i] == f(s[j]) by {
      forall i | 0 <= i < |r| ensures exists j :: 0 <= j < |s| && keep(s[j]) && r[i] == f(s[j]) {
        var j :| 0 <= j < |s| && s[j] == t[i];
      }
    }
    r
  }

  /** `a` is obtained from `b` by deleting elements, keeping the order. */
  ghost predicate IsSubsequence<T>(a: seq<T>, b: seq<T>)
    decreases |b|
  {
    if |a| == 0 then true
    else if |b| == 0 then false
    else if a[0] == b[0] then IsSubsequence(a[1..], b[1..])
    else IsSubsequence(a, b[1..])
  }

  lemma {:induction false} FilterIsSubsequence<T>(s: seq<T>, p: T -> bool)
    ensures IsSubsequence(Filter(s, p), s)
    decreases |s|
  {
    if |s| > 0 {
      FilterIsSubsequence(s[1..], p);
    }
  }

  lemma {:induction false} PrefixIsSubsequence<T>(s: seq<T>, n: nat)
    requires n <= |s|
    ensures IsSubsequence(s[..n], s)
    decreases n
  {
    if n > 0 {
      assert s[..n][1..] == s[1..][..n - 1];
      PrefixIsSubsequence(s[1..], n - 1);
    }
  }

  /** Every element of a subsequence occurs in the longer sequence. */
  lemma {:induction false} SubsequenceMembers<T>(a: seq<T>, b: seq<T>)
    requires IsSubsequence(a, b)
    ensures forall i :: 0 <= i < |a| ==> a[i] in b
    decreases |b|
  {
    if |a| > 0 {
      if a[0] == b[0] {
        SubsequenceMembers(a[1..], b[1..]);
        forall i | 0 < i < |a| ensures a[i] in b {
          assert a[i] == a[1..][i - 1];
        }
      } else {
        SubsequenceMembers(a, b[1..]);
      }
    }
  }

  /** Dropping the head of the longer sequence keeps a subsequence one. */
  lemma {:induction false} SubsequenceOfTail<T>(a: seq<T>, c: seq<T>)
    requires |c| > 0 && IsSubsequence(a, c[1..])
    ensures IsSubsequence(a, c)
    decreases |c|, 0
  {
    if |a| > 0 && a[0] == c[0] {
      SubsequenceDropHead(a, c[1..]);
    }
  }

  /** Dropping the head of the shorter sequence keeps a subsequence one. */
  lemma {:induction false} SubsequenceDropHead<T>(a: seq<T>, b: seq<T>)
    requires |a| > 0 && IsSubsequence(a, b)
    ensures IsSubsequence(a[1..], b)
    decreases |b|, 1
  {
    if a[0] == b[0] {
      SubsequenceOfTail(a[1..], b);
    } else {
      SubsequenceDropHead(a, b[1..]);
      SubsequenceOfTail(a[1..], b);
    }
  }

  lemma {:induction false} SubsequenceTransitive<T>(a: seq<T>, b: seq<T>, c: seq<T>)
    requires IsSubsequence(a, b) && IsSubsequence(b, c)
    ensures IsSubsequence(a, c)
    decreases |c|
  {
    if |a| > 0 && |c| > 0 {
      if b[0] == c[0] {
        if a[0] == b[0] {
          SubsequenceTransitive(a[1..], b[1..], c[1..]);
        } else {
          SubsequenceTransitive(a, b[1..], c[1..]);
          SubsequenceOfTail(a, c);
        }
      } else {
        SubsequenceTransitive(a, b, c[1..]);
        SubsequenceOfTail(a, c);
      }
    }
  }

  /** A filter of a filter is the filter by both predicates. */
  lemma {:induction false} FilterFilter<T>(s: seq<T>, p: T -> bool, q: T -> bool)
    ensures Filter(Filter(s, p), q) == Filter(s, x => p(x) && q(x))
    decreases |s|
  {
    if |s| > 0 {
      FilterFilter(s[1..], p, q);
      if p(s[0]) {
        assert Filter(s, p) == [s[0]] + Filter(s[1..], p);
        assert Filter(s, p)[1..] == Filter(s[1..], p);
      }
    }
  }

  /** Filtering distributes over concatenation. */
  lemma {:induction false} FilterAppend<T>(a: seq<T>, b: seq<T>, p: T -> bool)
    ensures Filter(a + b, p) == Filter(a, p) + Filter(b, p)
    decreases |a|
  {
    if |a| > 0 {
      assert (a + b)[1..] == a[1..] + b;
      FilterAppend(a[1..], b, p);
    } else {
      assert a + b == b;
    }
  }

  /** Filters by predicates that agree everywhere give the same result. */
  lemma {:induction false} FilterExt<T>(s: seq<T>, p: T -> bool, q: T -> bool)
    requires forall x :: p(x) == q(x)
    ensures Filter(s, p) == Filter(s, q)
    decreases |s|
  {
    if |s| > 0 {
      FilterExt(s[1..], p, q);
    }
  }

  /** Filtering by a weaker predicate first changes nothing. */
  lemma {:induction false} FilterWeakerFirst<T>(s: seq<T>, p: T -> bool, q: T -> bool)
    requires forall x :: q(x) ==> p(x)
    ensures Filter(Filter(s, p), q) == Filter(s, q)
    decreases |s|
  {
    if |s| > 0 {
      FilterWeakerFirst(s[1..], p, q);
      if p(s[0]) {
        assert Filter(s, p)[1..] == Filter(s[1..], p);
      }
    }
  }

  /** Filtering by a predicate every element meets changes nothing. */
  lemma {:induction false} FilterAll<T>(s: seq<T>, p: T -> bool)
    requires forall i :: 0 <= i < |s| ==> p(s[i])
    ensures Filter(s, p) == s
    decreases |s|
  {
    if |s| > 0 {
      FilterAll(s[1..], p);
    }
  }
}

=== FILE: entities.dfy ===
/** The persistent entities of the backend (users, places, favourites,
    reviews, review replies, reply notifications, search history), the
    store that holds them, the caller's authentication, and the external
    collaborators the services are given (password encoder, token issuer).

    Repositories are sequences in insertion order; a `findBy...` query
    returns the first matching row, a `save` of a new row appends it with an
    identity above every identity in use, and a `save` of an existing row
    replaces it in place. */
module Entities {
  import opened Base

  /** A point in time (System.currentTimeMillis, LocalDateTime.now). */
  type Timestamp = nat
  /** A rating as an integer in a fixed-point unit (for instance tenths of
      a star); only compared, never averaged. */
  type Rating = int
  /** A latitude or longitude; only copied from one record to another. */
  type Coordinate = int

  /** Table `usuarios`. */
  datatype User = User(
    id: nat,
    nombre: string,
    email: string,
    password: string,
    role: string,
    banned: Option<bool>,
    canReview: Option<bool>,
    profileImageUrl: Option<string>)

  /** A user as the entity constructor leaves it: role USER, not banned,
      allowed to review, no avatar. */
  function NewUser(id: nat, nombre: string, email: string, password: string): (u: User)
    ensures u.role == "USER" && u.banned == Some(false) && u.canReview == Some(true)
    ensures u.id == id && u.nombre == nombre && u.email == email && u.password == password
  {
    User(id, nombre, email, password, "USER", Some(false), Some(true), None)
  }

  /** Where a place record came from: fetched from Google or created by an
      administrator. */
  datatype Source = GOOGLE | LOCAL

  /** Table `locales`. */
  datatype Place = Place(
    id: nat,
    placeId: string,
    nombre: Option<string>,
    direccion: Option<string>,
    tipo: Option<string>,
    latitud: Option<Coordinate>,
    longitud: Option<Coordinate>,
    rating: Option<Rating>,
    totalValoraciones: Option<int>,
    precioNivel: Option<int>,
    abierto: Option<bool>,
    fotoRef: Option<string>,
    creadoPorUsuarioId: Option<nat>,
    source: Source)

  /** A place as the entity constructor leaves it once its placeId is set:
      every other column null and source GOOGLE. */
  function NewPlace(id: nat, placeId: string): (p: Place)
    ensures p.id == id && p.placeId == placeId && p.source == GOOGLE
    ensures p.rating.None? && p.creadoPorUsuarioId.None?
  {
    Place(id, placeId, None, None, None, None, None, None, None, None, None, None, None, GOOGLE)
  }

  /** Table `favoritos`, unique on (user_id, local_id). */
  datatype Favorite = Favorite(id: nat, userId: nat, localId: nat, placeId: string, createdAt: Timestamp)

  /** A review of a place; its author may be unknown. */
  datatype Review = Review(id: nat, userId: Option<nat>, localId: nat, comentario: Option<string>)

  datatype ReviewReply = ReviewReply(id: nat, reviewId: nat, authorId: nat, content: string, createdAt: Timestamp)

  /** A notice to a review's author that someone replied. */
  datatype Notification = Notification(
    id: nat,
    userId: Option<nat>,
    reviewId: nat,
    replyId: nat,
    responderId: nat,
    responderName: string,
    placeId: Option<string>,
    placeName: Option<string>,
    reviewSnippet: string,
    replySnippet: string,
    read: bool,
    createdAt: Timestamp)

  datatype SearchEntry = SearchEntry(userId: nat, term: string, searchDate: Timestamp)

  /** The whole database. */
  datatype Db = Db(
    users: seq<User>,
    places: seq<Place>,
    favorites: seq<Favorite>,
    reviews: seq<Review>,
    replies: seq<ReviewReply>,
    notifications: seq<Notification>,
    history: seq<SearchEntry>)

  /** The request's Authentication: absent or not authenticated, or
      authenticated under a name (the user's email). */
  datatype Auth = Anonymous | Authenticated(name: string)

  /** The PasswordEncoder bean (BCrypt in the application). */
  datatype Encoder = Encoder(encode: string -> string, matches: (string, string) -> bool)

  /** What any password encoder promises: a password matches its own
      encoding. */
  ghost predicate Sound(enc: Encoder) {
    forall p :: enc.matches(p, enc.encode(p))
  }

  // Repository lookups.

  function UserByEmail(users: seq<User>, email: string): (r: Option<nat>)
    ensures r.Some? ==> r.value < |users| && users[r.value].email == email
    ensures r.None? <==> forall j :: 0 <= j < |users| ==> users[j].email != email
  {
    FindFirst(users, (u: User) => u.email == email)
  }

  function UserById(users: seq<User>, id: nat): (r: Option<nat>)
    ensures r.Some? ==> r.value < |users| && users[r.value].id == id
    ensures r.None? <==> forall j :: 0 <= j < |users| ==> users[j].id != id
  {
    FindFirst(users, (u: User) => u.id == id)
  }

  function PlaceByPlaceId(places: seq<Place>, placeId: string): (r: Option<nat>)
    ensures r.Some? ==> r.value < |places| && places[r.value].placeId == placeId
    ensures r.None? <==> forall j :: 0 <= j < |places| ==> places[j].placeId != placeId
  {
    FindFirst(places, (p: Place) => p.placeId == placeId)
  }

  function PlaceById(places: seq<Place>, id: nat): (r: Option<nat>)
    ensures r.Some? ==> r.value < |places| && places[r.value].id == id
    ensures r.None? <==> forall j :: 0 <= j < |places| ==> places[j].id != id
  {
    FindFirst(places, (p: Place) => p.id == id)
  }

  function ReviewById(reviews: seq<Review>, id: nat): (r: Option<nat>)
    ensures r.Some? ==> r.value < |reviews| && reviews[r.value].id == id
    ensures r.None? <==> forall j :: 0 <= j < |reviews| ==> reviews[j].id != id
  {
    FindFirst(reviews, (v: Review) => v.id == id)
  }

  function UserId(u: User): nat { u.id }
  function PlaceRowId(p: Place): nat { p.id }

  /** `repository.delete(row)`: the row at `i` is gone, the others keep
      their order. */
  function RemoveAt<T>(s: seq<T>, i: nat): (r: seq<T>)
    requires i < |s|
    ensures |r| == |s| - 1
    ensures forall j :: 0 <= j < i ==> r[j] == s[j]
    ensures forall j :: i < j < |s| ==> r[j - 1] == s[j]
  {
    s[..i] + s[i + 1..]
  }

  // Unique constraints of the schema.

  /** `usuarios`: id primary key, nombre and email unique. */
  ghost predicate UsersWellFormed(users: seq<User>) {
    forall i, j :: 0 <= i < j < |users| ==>
      users[i].id != users[j].id && users[i].email != users[j].email && users[i].nombre != users[j].nombre
  }

  /** `locales`: id primary key, place_id unique. */
  ghost predicate PlacesWellFormed(places: seq<Place>) {
    forall i, j :: 0 <= i < j < |places| ==>
      places[i].id != places[j].id && places[i].placeId != places[j].placeId
  }

  /** `favoritos`: unique on (user_id, local_id). */
  ghost predicate FavoritesWellFormed(favorites: seq<Favorite>) {
    forall i, j :: 0 <= i < j < |favorites| ==>
      (favorites[i].userId, favorites[i].localId) != (favorites[j].userId, favorites[j].localId)
  }

  /** Deleting a row keeps the user table's unique constraints. */
  lemma RemoveAtWellFormed(users: seq<User>, k: nat)
    requires UsersWellFormed(users) && k < |users|
    ensures UsersWellFormed(RemoveAt(users, k))
  {
    var r := RemoveAt(users, k);
    forall i, j | 0 <= i < j < |r|
      ensures r[i].id != r[j].id && r[i].email != r[j].email && r[i].nombre != r[j].nombre
    {
      var i' := if i < k then i else i + 1;
      var j' := if j < k then j else j + 1;
      assert r[i] == users[i'] && r[j] == users[j'] && i' < j';
    }
  }

  /** With unique ids, deleting a row leaves no row with its id. */
  lemma RemoveAtDropsId(users: seq<User>, k: nat)
    requires UsersWellFormed(users) && k < |users|
    ensures forall u :: u in RemoveAt(users, k) ==> u.id != users[k].id
  {
    var r := RemoveAt(users, k);
    forall u | u in r ensures u.id != users[k].id {
      var j :| 0 <= j < |r| && r[j] == u;
      var i := if j < k then j else j + 1;
      assert r[j] == users[i] && i != k;
    }
  }

  /** With unique emails, the row a lookup finds is the only one with that
      email. */
  lemma UserByEmailUnique(users: seq<User>, email: string, k: nat)
    requires UsersWellFormed(users)
    requires k < |users| && users[k].email == email
    ensures UserByEmail(users, email) == Some(k)
  {
  }

  lemma UserByIdUnique(users: seq<User>, id: nat, k: nat)
    requires UsersWellFormed(users)
    requires k < |users| && users[k].id == id
    ensures UserById(users, id) == Some(k)
  {
  }

  lemma PlaceByPlaceIdUnique(places: seq<Place>, placeId: string, k: nat)
    requires PlacesWellFormed(places)
    requires k < |places| && places[k].placeId == placeId
    ensures PlaceByPlaceId(places, placeId) == Some(k)
  {
  }
}

=== FILE: favorites.dfy ===
/** Favourites: a set of (user, place) pairs. Adding a place that is not
    stored yet asks Google for its details, up to three times with a
    doubling pause between attempts, and stores the place before the pair.
    Each service call is one transaction: when it throws, nothing it wrote
    is kept. */
module FavoriteService {
  import opened Base
  import opened JavaString
  import opened Entities
  import opened GooglePlacesService
  import opened LocalController

  const MAX_RETRIES := 3
  /** The first pause, in milliseconds; each further pause doubles. */
  const FIRST_DELAY := 1000

  /** Details good enough to create a place from: present and named. */
  predicate Usable(d: Option<PlaceDetails>) {
    d.Some? && d.value.name.Some?
  }

  function Pow2(n: nat): (r: nat)
    ensures r >= 1
  {
    if n == 0 then 1 else 2 * Pow2(n - 1)
  }

  /** The details the retry loop settles on, as a reference: the first
      usable answer among the three attempts, otherwise the last answer.
      `fetch(a)` is what getPlaceDetails returns on attempt `a`. */
  function RetryOutcome(fetch: nat -> Option<PlaceDetails>): Option<PlaceDetails> {
    if Usable(fetch(1)) then fetch(1)
    else if Usable(fetch(2)) then fetch(2)
    else fetch(3)
  }

  /** The retry loop of addFavorite. It stops at the first usable answer;
      after each unusable answer but the last it pauses, and the pauses
      double from one second. Returns the details, the number of attempts
      made and the pauses taken, in order. */
  method RetryFetch(fetch: nat -> Option<PlaceDetails>) returns (details: Option<PlaceDetails>, attempts: nat, delays: seq<nat>)
    ensures 1 <= attempts <= MAX_RETRIES
    ensures details == fetch(attempts)
    ensures forall a :: 1 <= a < attempts ==> !Usable(fetch(a))
    ensures Usable(details) || attempts == MAX_RETRIES
    ensures |delays| == attempts - 1
    ensures forall i :: 0 <= i < |delays| ==> delays[i] == FIRST_DELAY * Pow2(i)
    ensures details == RetryOutcome(fetch)
  {
    details := None;
    attempts := 0;
    delays := [];
    var retryDelay := FIRST_DELAY;
    while attempts < MAX_RETRIES && !Usable(details)
      invariant 0 <= attempts <= MAX_RETRIES
      invariant attempts == 0 ==> !Usable(details)
      invariant attempts > 0 ==> details == fetch(attempts)
      invariant forall a :: 1 <= a < attempts ==> !Usable(fetch(a))
      invariant |delays| == if attempts == 0 then 0
                            else if Usable(details) || attempts == MAX_RETRIES then attempts - 1
                            else attempts
      invariant forall i :: 0 <= i < |delays| ==> delays[i] == FIRST_DELAY * Pow2(i)
      invariant retryDelay == FIRST_DELAY * Pow2(|delays|)
    {
      attempts := attempts + 1;
      details := fetch(attempts);
      if !Usable(details) && attempts < MAX_RETRIES {
        delays := delays + [retryDelay];
        retryDelay := retryDelay * 2;
      }
    }
  }

  /** LocalDTO: the place as a favourite shows it. */
  datatype LocalDto = LocalDto(
    placeId: string,
    name: Option<string>,
    address: Option<string>,
    rating: Option<Rating>,
    totalRatings: Option<int>,
    priceLevel: Option<int>,
    tipo: Option<string>,
    photoRef: Option<string>)

  datatype FavoriteDto = FavoriteDto(id: nat, userId: nat, createdAt: Timestamp, local: LocalDto)

  /** toDTO: null without a place, otherwise the pair and every column of
      the place that LocalDTO shows. */
  function ToDto(f: Favorite, local: Option<Place>): (r: Option<FavoriteDto>)
    ensures r.Some? <==> local.Some?
    ensures r.Some? ==>
      && r.value.id == f.id && r.value.userId == f.userId && r.value.createdAt == f.createdAt
      && r.value.local.placeId == local.value.placeId && r.value.local.name == local.value.nombre
      && r.value.local.address == local.value.direccion && r.value.local.rating == local.value.rating
      && r.value.local.totalRatings == local.value.totalValoraciones
      && r.value.local.priceLevel == local.value.precioNivel
      && r.value.local.tipo == local.value.tipo && r.value.local.photoRef == local.value.fotoRef
  {
    match local
    case None => None
    case Some(p) =>
      Some(FavoriteDto(f.id, f.userId, f.createdAt,
        LocalDto(p.placeId, p.nombre, p.direccion, p.rating, p.totalValoraciones, p.precioNivel, p.tipo, p.fotoRef)))
  }

  /** existsByUserIdAndLocalId. */
  predicate HasPair(favorites: seq<Favorite>, userId: nat, localId: nat) {
    exists i :: 0 <= i < |favorites| && favorites[i].userId == userId && favorites[i].localId == localId
  }

  /** isFavorite: false when no place has the placeId, otherwise whether
      the pair is stored. */
  function IsFavorite(userId: nat, placeId: string, db: Db): (b: bool)
    ensures PlaceByPlaceId(db.places, placeId).None? ==> !b
    ensures b <==>
      exists k, i :: 0 <= k < |db.places| && 0 <= i < |db.favorites|
        && db.places[k].placeId == placeId && k == PlaceByPlaceId(db.places, placeId).value
        && db.favorites[i].userId == userId && db.favorites[i].localId == db.places[k].id
  {
    match PlaceByPlaceId(db.places, placeId)
    case None => false
    case Some(k) => HasPair(db.favorites, userId, db.places[k].id)
  }

  /** The place created from fetched details: a GOOGLE row with the
      details' columns and a fresh identity. */
  function PlaceFromDetails(places: seq<Place>, placeId: string, d: PlaceDetails): (p: Place)
    ensures p.placeId == placeId && p.source == GOOGLE && p.creadoPorUsuarioId.None?
    ensures p.nombre == d.name && p.direccion == d.formattedAddress && p.tipo == d.tipo
    ensures p.rating == d.rating && p.totalValoraciones == Some(d.userRatingsTotal) && p.precioNivel == d.priceLevel
    ensures p.latitud == d.lat && p.longitud == d.lng && p.abierto == d.openNow && p.fotoRef == d.photoRef
    ensures forall i :: 0 <= i < |places| ==> places[i].id < p.id
  {
    Refreshed(NewPlace(NextId(places, PlaceRowId), placeId), d)
  }

  /** The place the favourite will point at, and the place table once it
      is there: the stored row, or a row created from the fetched details;
      an error when neither exists. */
  function ResolvePlace(placeId: string, fetch: nat -> Option<PlaceDetails>, places: seq<Place>): (r: Result<(Place, seq<Place>)>)
    ensures PlaceByPlaceId(places, placeId).Some? ==>
      r == Ok((places[PlaceByPlaceId(places, placeId).value], places))
    ensures PlaceByPlaceId(places, placeId).None? ==>
      (r.Ok? <==> Usable(RetryOutcome(fetch)))
    ensures PlaceByPlaceId(places, placeId).None? && r.Ok? ==>
      var p := PlaceFromDetails(places, placeId, RetryOutcome(fetch).value);
      r.value == (p, places + [p])
    ensures r.Ok? ==> r.value.0.placeId == placeId && r.value.0 in r.value.1
  {
    match PlaceByPlaceId(places, placeId)
    case Some(k) => Ok((places[k], places))
    case None =>
      var details := RetryOutcome(fetch);
      if !Usable(details) then Err("No se pudo obtener información del local de Google Places")
      else
        var p := PlaceFromDetails(places, placeId, details.value);
        assert (places + [p])[|places|] == p;
        Ok((p, places + [p]))
  }

  /** addFavorite. Null or blank arguments are refused first; then the
      place is found or created; a pair already stored is refused; otherwise
      one pair is added. Any refusal leaves the store as it was. */
  function AddFavorite(userId: Option<nat>, placeId: Option<string>, fetch: nat -> Option<PlaceDetails>, now: Timestamp, db: Db): (r: Result<(FavoriteDto, Db)>)
    ensures userId.None? || placeId.None? || Trim(placeId.value) == [] ==> r == Err("Usuario ID o Place ID inválidos")
    ensures r.Ok? ==>
      && userId.Some? && placeId.Some?
      && ResolvePlace(placeId.value, fetch, db.places).Ok?
      && var (local, places) := ResolvePlace(placeId.value, fetch, db.places).value;
         && !HasPair(db.favorites, userId.value, local.id)
         && r.value.1 == db.(places := places,
                             favorites := db.favorites + [Favorite(NextId(db.favorites, FavoriteId), userId.value, local.id, placeId.value, now)])
         && r.value.0.userId == userId.value && r.value.0.local.placeId == placeId.value
    ensures r.Err? <==>
      || userId.None? || placeId.None? || Trim(placeId.value) == []
      || ResolvePlace(placeId.value, fetch, db.places).Err?
      || HasPair(db.favorites, userId.value, ResolvePlace(placeId.value, fetch, db.places).value.0.id)
  {
    if userId.None? || placeId.None? || Trim(placeId.value) == [] then Err("Usuario ID o Place ID inválidos")
    else
      match ResolvePlace(placeId.value, fetch, db.places)
      case Err(m) => Err(m)
      case Ok((local, places)) =>
        if HasPair(db.favorites, userId.value, local.id) then Err("El local ya está en favoritos")
        else
          var saved := Favorite(NextId(db.favorites, FavoriteId), userId.value, local.id, placeId.value, now);
          Ok((ToDto(saved, Some(local)).value, db.(places := places, favorites := db.favorites + [saved])))
  }

  function FavoriteId(f: Favorite): nat { f.id }

  /** After a successful add the place is a favourite of the user. */
  lemma AddThenIsFavorite(userId: nat, placeId: string, fetch: nat -> Option<PlaceDetails>, now: Timestamp, db: Db)
    requires AddFavorite(Some(userId), Some(placeId), fetch, now, db).Ok?
    ensures IsFavorite(userId, placeId, AddFavorite(Some(userId), Some(placeId), fetch, now, db).value.1)
  {
    var db' := AddFavorite(Some(userId), Some(placeId), fetch, now, db).value.1;
    var (local, places) := ResolvePlace(placeId, fetch, db.places).value;
    var k := PlaceByPlaceId(db'.places, placeId);
    if PlaceByPlaceId(db.places, placeId).None? {
      assert db'.places[|db.places|].placeId == placeId;
      assert k == Some(|db.places|);
    }
    assert db'.places[k.value] == local;
    var n := |db.favorites|;
    assert db'.favorites[n].userId == userId && db'.favorites[n].localId == local.id;
  }

  /** A successful add keeps every unique constraint: the pair is new, and
      a created place has a new placeId and identity. */
  lemma AddKeepsWellFormed(userId: Option<nat>, placeId: Option<string>, fetch: nat -> Option<PlaceDetails>, now: Timestamp, db: Db)
    requires FavoritesWellFormed(db.favorites) && PlacesWellFormed(db.places)
    requires AddFavorite(userId, placeId, fetch, now, db).Ok?
    ensures FavoritesWellFormed(AddFavorite(userId, placeId, fetch, now, db).value.1.favorites)
    ensures PlacesWellFormed(AddFavorite(userId, placeId, fetch, now, db).value.1.places)
  {
    var (local, places) := ResolvePlace(placeId.value, fetch, db.places).value;
    NewPairKeepsFavorites(db.favorites, Favorite(NextId(db.favorites, FavoriteId), userId.value, local.id, placeId.value, now));
    ResolveKeepsPlaces(placeId.value, fetch, db.places);
  }

  /** Appending a pair not yet stored keeps the pairs unique. */
  lemma NewPairKeepsFavorites(favorites: seq<Favorite>, f: Favorite)
    requires FavoritesWellFormed(favorites) && !HasPair(favorites, f.userId, f.localId)
    ensures FavoritesWellFormed(favorites + [f])
  {
    var all := favorites + [f];
    forall i | 0 <= i < |favorites|
      ensures (all[i].userId, all[i].localId) != (f.userId, f.localId)
    {
      assert all[i] == favorites[i];
    }
  }

  /** Finding or creating the place keeps placeIds and identities unique. */
  lemma ResolveKeepsPlaces(placeId: string, fetch: nat -> Option<PlaceDetails>, places: seq<Place>)
    requires PlacesWellFormed(places) && ResolvePlace(placeId, fetch, places).Ok?
    ensures PlacesWellFormed(ResolvePlace(placeId, fetch, places).value.1)
  {
    if PlaceByPlaceId(places, placeId).None? {
      var p := PlaceFromDetails(places, placeId, RetryOutcome(fetch).value);
      var all := places + [p];
      forall i | 0 <= i < |places|
        ensures all[i].id != p.id && all[i].placeId != p.placeId
      {
        assert all[i] == places[i];
      }
    }
  }

  /** A pair other than (user, place). */
  function OtherPair(userId: nat, localId: nat): Favorite -> bool {
    (f: Favorite) => !(f.userId == userId && f.localId == localId)
  }

  /** removeFavorite: an unknown placeId is an error; otherwise the pair
      is deleted (and nothing else). */
  function RemoveFavorite(userId: nat, placeId: string, db: Db): (r: Result<Db>)
    ensures r.Err? <==> PlaceByPlaceId(db.places, placeId).None?
    ensures r.Ok? ==>
      var local := db.places[PlaceByPlaceId(db.places, placeId).value];
      && r.value.(favorites := db.favorites) == db
      && !HasPair(r.value.favorites, userId, local.id)
      && (forall i :: 0 <= i < |db.favorites| && OtherPair(userId, local.id)(db.favorites[i]) ==>
            db.favorites[i] in r.value.favorites)
      && (forall i :: 0 <= i < |r.value.favorites| ==> r.value.favorites[i] in db.favorites)
  {
    match PlaceByPlaceId(db.places, placeId)
    case None => Err("Local no encontrado")
    case Some(k) => Ok(db.(favorites := Filter(db.favorites, OtherPair(userId, db.places[k].id))))
  }

  /** After a successful removal the place is no longer a favourite of the
      user, and the remaining pairs keep their order. */
  lemma RemoveThenNotFavorite(userId: nat, placeId: string, db: Db)
    requires RemoveFavorite(userId, placeId, db).Ok?
    ensures !IsFavorite(userId, placeId, RemoveFavorite(userId, placeId, db).value)
    ensures IsSubsequence(RemoveFavorite(userId, placeId, db).value.favorites, db.favorites)
  {
    var k := PlaceByPlaceId(db.places, placeId).value;
    assert RemoveFavorite(userId, placeId, db).value.favorites == Filter(db.favorites, OtherPair(userId, db.places[k].id));
    FilterIsSubsequence(db.favorites, OtherPair(userId, db.places[k].id));
  }

  /** Removing what was just added gives the favourites back. */
  lemma AddThenRemoveRestores(userId: nat, placeId: string, fetch: nat -> Option<PlaceDetails>, now: Timestamp, db: Db)
    requires AddFavorite(Some(userId), Some(placeId), fetch, now, db).Ok?
    ensures
      var db' := AddFavorite(Some(userId), Some(placeId), fetch, now, db).value.1;
      RemoveFavorite(userId, placeId, db').Ok? && RemoveFavorite(userId, placeId, db').value.favorites == db.favorites
  {
    var db' := AddFavorite(Some(userId), Some(placeId), fetch, now, db).value.1;
    var (local, places) := ResolvePlace(placeId, fetch, db.places).value;
    AddThenIsFavorite(userId, placeId, fetch, now, db);
    var k := PlaceByPlaceId(db'.places, placeId).value;
    assert db'.places[k] == local by {
      match PlaceByPlaceId(db.places, placeId)
      case Some(j) =>
        assert k == j;
      case None =>
        assert db'.places[|db.places|].placeId == placeId;
    }
    var p := OtherPair(userId, local.id);
    var saved := db'.favorites[|db.favorites|];
    assert db'.favorites == db.favorites + [saved];
    FilterAppend(db.favorites, [saved], p);
    FilterAll(db.favorites, p);
    assert RemoveFavorite(userId, placeId, db').value.favorites == Filter(db'.favorites, p);
  }

  /** The user's favourites as DTOs, or None as soon as one of them points
      at a place that is gone (toDTO's null then makes the stream throw). */
  function DtosOf(favorites: seq<Favorite>, places: seq<Place>): (r: Option<seq<FavoriteDto>>)
    ensures r.Some? <==> forall i :: 0 <= i < |favorites| ==> PlaceById(places, favorites[i].localId).Some?
    ensures r.Some? ==> |r.value| == |favorites|
    ensures r.Some? ==> forall i :: 0 <= i < |favorites| ==>
      Some(r.value[i]) == ToDto(favorites[i], Some(places[PlaceById(places, favorites[i].localId).value]))
  {
    if |favorites| == 0 then Some([])
    else
      match PlaceById(places, favorites[0].localId)
      case None => None
      case Some(k) =>
        match DtosOf(favorites[1..], places)
        case None =>
          assert exists i :: 1 <= i < |favorites| && PlaceById(places, favorites[i].localId).None? by {
            var j :| 0 <= j < |favorites[1..]| && PlaceById(places, favorites[1..][j].localId).None?;
            assert favorites[1..][j] == favorites[j + 1];
          }
          None
        case Some(rest) =>
          Some([ToDto(favorites[0], Some(places[k])).value] + rest)
  }

  /** Whether a pair belongs to `userId`. */
  function OwnedBy(userId: nat): Favorite -> bool {
    (f: Favorite) => f.userId == userId
  }

  /** getUserFavorites: the user's pairs in store order, each with its
      place; a single missing place makes the answer empty. */
  function GetUserFavorites(userId: nat, db: Db): (r: seq<FavoriteDto>)
    ensures
      var mine := Filter(db.favorites, OwnedBy(userId));
      && ((exists i :: 0 <= i < |mine| && PlaceById(db.places, mine[i].localId).None?) ==> r == [])
      && ((forall i :: 0 <= i < |mine| ==> PlaceById(db.places, mine[i].localId).Some?) ==>
            |r| == |mine| && forall i :: 0 <= i < |r| ==> r[i].userId == userId && r[i].id == mine[i].id)
  {
    DtosOf(Filter(db.favorites, OwnedBy(userId)), db.places).GetOr([])
  }
}

=== FILE: java_string.dfy ===
/** The java.lang.String operations the backend's decisions depend on,
    restricted to ASCII letters for the case-insensitive ones: `isBlank`,
    `trim`, `toLowerCase`, `equalsIgnoreCase`, `startsWith`, `contains`,
    `replace`, `split(",")`, `length` in UTF-16 code units and the decimal
    rendering of a `long`. */
module JavaString {

  /** Character.isWhitespace: the Unicode space, line and paragraph
      separators except the three no-break spaces (U+00A0, U+2007,
      U+202F), plus tab, line feed, vertical tab, form feed, carriage
      return and the four information separators U+001C..U+001F. */
  predicate IsWhitespace(c: char) {
    c == ' ' || c == '\t' || c == '\n' || c == '\U{B}' || c == '\U{C}' || c == '\r'
    || ('\U{1C}' <= c <= '\U{1F}')
    || c == '\U{1680}'
    || ('\U{2000}' <= c <= '\U{2006}') || ('\U{2008}' <= c <= '\U{200A}')
    || c == '\U{2028}' || c == '\U{2029}' || c == '\U{205F}' || c == '\U{3000}'
  }

  /** String.isBlank: empty or whitespace only. */
  predicate IsBlank(s: string) {
    forall i :: 0 <= i < |s| ==> IsWhitespace(s[i])
  }

  /** String.trim drops every leading and trailing character whose code is
      at most U+0020 (control characters included, not only whitespace). */
  predicate Trimmable(c: char) {
    c <= ' '
  }

  function TrimStart(s: string): (r: string)
    ensures |r| <= |s| && r == s[|s| - |r|..]
    ensures forall k :: 0 <= k < |s| - |r| ==> Trimmable(s[k])
    ensures r == [] || !Trimmable(r[0])
    decreases |s|
  {
    if |s| > 0 && Trimmable(s[0]) then TrimStart(s[1..]) else s
  }

  function TrimEnd(s: string): (r: string)
    ensures |r| <= |s| && r == s[..|r|]
    ensures forall k :: |r| <= k < |s| ==> Trimmable(s[k])
    ensures r == [] || !Trimmable(r[|r| - 1])
    decreases |s|
  {
    if |s| > 0 && Trimmable(s[|s| - 1]) then TrimEnd(s[..|s| - 1]) else s
  }

  /** String.trim: the longest infix of `s` whose first and last characters
      are above U+0020; everything cut away is at most U+0020. */
  function Trim(s: string): (r: string)
    ensures |r| <= |s|
    ensures r == [] || (!Trimmable(r[0]) && !Trimmable(r[|r| - 1]))
    ensures |r| <= |TrimStart(s)| && r == TrimStart(s)[..|r|]
    ensures forall k :: 0 <= k < |s| - |TrimStart(s)| ==> Trimmable(s[k])
    ensures forall k :: |s| - |TrimStart(s)| + |r| <= k < |s| ==> Trimmable(s[k])
  {
    var t := TrimStart(s);
    var r := TrimEnd(t);
    assert forall k :: |s| - |t| + |r| <= k < |s| ==> s[k] == t[k - (|s| - |t|)];
    r
  }

  /** isBlank and trim disagree in both directions: an ideographic space
      is blank but survives trimming, and U+0001 is not blank but is
      trimmed away. */
  lemma BlankAndTrimDisagree()
    ensures IsBlank("\U{3000}") && Trim("\U{3000}") == "\U{3000}"
    ensures !IsBlank("\U{1}") && Trim("\U{1}") == []
  {
    BlankSurvivesTrim('\U{3000}');
    TrimmedButNotBlank('\U{1}');
  }

  /** A single whitespace character above U+0020 is blank yet kept. */
  lemma BlankSurvivesTrim(c: char)
    requires IsWhitespace(c) && !Trimmable(c)
    ensures IsBlank([c]) && Trim([c]) == [c]
  {
    var w := [c];
    assert w[0] == c;
    assert TrimStart(w) == w;
    assert TrimEnd(w) == w;
  }

  /** A single control character that is not whitespace is not blank yet
      trimmed away. */
  lemma TrimmedButNotBlank(c: char)
    requires !IsWhitespace(c) && Trimmable(c)
    ensures !IsBlank([c]) && Trim([c]) == []
  {
    var t := [c];
    assert t[0] == c;
    assert TrimStart(t) == TrimStart(t[1..]) == [];
  }

  /** Trimming twice is trimming once. */
  lemma TrimIdempotent(s: string)
    ensures Trim(Trim(s)) == Trim(s)
  {
    var r := Trim(s);
    if r != [] {
      assert TrimStart(r) == r;
      assert TrimEnd(r) == r;
    }
  }

  /** The UTF-16 code units a character takes: two for a character
      outside the Basic Multilingual Plane (a surrogate pair), else one. */
  function Utf16Units(c: char): (n: nat)
    ensures n == 1 || n == 2
  {
    if c as int > 0xFFFF then 2 else 1
  }

  /** String.length(): the number of UTF-16 code units. */
  function Utf16Length(s: string): (n: nat)
    ensures |s| <= n <= 2 * |s|
  {
    if |s| == 0 then 0 else Utf16Units(s[0]) + Utf16Length(s[1..])
  }

  /** Code units add up over concatenation. */
  lemma {:induction false} Utf16LengthAppend(a: string, b: string)
    ensures Utf16Length(a + b) == Utf16Length(a) + Utf16Length(b)
    decreases |a|
  {
    if |a| > 0 {
      assert (a + b)[0] == a[0] && (a + b)[1..] == a[1..] + b;
      Utf16LengthAppend(a[1..], b);
    } else {
      assert a + b == b;
    }
  }

  /** A slice never has more code units than the whole string. */
  lemma Utf16LengthSlice(s: string, i: nat, j: nat)
    requires i <= j <= |s|
    ensures Utf16Length(s[i..j]) <= Utf16Length(s)
  {
    var front, middle, back := s[..i], s[i..j], s[j..];
    assert s == (front + middle) + back;
    Utf16LengthAppend(front + middle, back);
    Utf16LengthAppend(front, middle);
  }

  /** The longest prefix of `s` of at most `n` code units: what
      substring(0, n) keeps, except that a surrogate pair straddling the
      cut is dropped whole instead of being split. */
  function Utf16Prefix(s: string, n: nat): (p: string)
    ensures p <= s && Utf16Length(p) <= n
    ensures |p| < |s| ==> Utf16Length(p) + Utf16Units(s[|p|]) > n
    decreases |s|
  {
    if |s| == 0 || Utf16Units(s[0]) > n then []
    else
      var rest := Utf16Prefix(s[1..], n - Utf16Units(s[0]));
      assert ([s[0]] + rest)[1..] == rest;
      [s[0]] + rest
  }

  /** A prefix cut at `n` units falls short of `n` only by the half of a
      surrogate pair that would have been split. */
  lemma Utf16PrefixLength(s: string, n: nat)
    requires Utf16Length(s) > n
    ensures |Utf16Prefix(s, n)| < |s|
    ensures n - 1 <= Utf16Length(Utf16Prefix(s, n)) <= n
    ensures Utf16Length(Utf16Prefix(s, n)) < n ==> Utf16Units(s[|Utf16Prefix(s, n)|]) == 2
  {
    var p := Utf16Prefix(s, n);
    assert p == s[..|p|];
    assert s[..|s|] == s;
  }

  /** Trimming never adds code units. */
  lemma TrimUtf16Length(s: string)
    ensures Utf16Length(Trim(s)) <= Utf16Length(s)
  {
    var r, a := Trim(s), |s| - |TrimStart(s)|;
    assert r == s[a..a + |r|];
    Utf16LengthSlice(s, a, a + |r|);
  }

  /** The cut is the only prefix that fits in `n` units and cannot take
      the next character. */
  lemma {:induction false} Utf16PrefixUnique(s: string, n: nat, q: string)
    requires q <= s && Utf16Length(q) <= n
    requires |q| < |s| ==> Utf16Length(q) + Utf16Units(s[|q|]) > n
    ensures Utf16Prefix(s, n) == q
    decreases |s|
  {
    if |q| > 0 {
      assert q[0] == s[0] && q[1..] <= s[1..];
      assert |q[1..]| < |s[1..]| ==> s[1..][|q[1..]|] == s[|q|];
      Utf16PrefixUnique(s[1..], n - Utf16Units(s[0]), q[1..]);
      assert q == [s[0]] + q[1..];
    }
  }

  /** Character.toLowerCase on ASCII letters; every other character is
      kept as it is. */
  function ToLowerChar(c: char): (r: char)
    ensures 'A' <= c <= 'Z' ==> 'a' <= r <= 'z'
    ensures !('A' <= c <= 'Z') ==> r == c
  {
    if 'A' <= c <= 'Z' then (c as int + 32) as char else c
  }

  function ToLower(s: string): (r: string)
    ensures |r| == |s|
    ensures forall i :: 0 <= i < |s| ==> r[i] == ToLowerChar(s[i])
  {
    seq(|s|, i requires 0 <= i < |s| => ToLowerChar(s[i]))
  }

  /** String.equalsIgnoreCase over ASCII. */
  predicate EqualsIgnoreCase(a: string, b: string) {
    ToLower(a) == ToLower(b)
  }

  predicate StartsWith(s: string, prefix: string) {
    prefix <= s
  }

  /** String.contains: `t` occurs somewhere in `s`. */
  predicate Contains(s: string, t: string)
    decreases |s|
  {
    t <= s || (|s| > 0 && Contains(s[1..], t))
  }

  /** String.replace(target, replacement): left-to-right, non-overlapping
      replacement of every occurrence of a non-empty target. */
  function ReplaceAll(s: string, target: string, replacement: string): string
    requires |target| > 0
    decreases |s|
  {
    if |s| == 0 then []
    else if target <= s then replacement + ReplaceAll(s[|target|..], target, replacement)
    else [s[0]] + ReplaceAll(s[1..], target, replacement)
  }

  /** A string without the target comes back unchanged. */
  lemma {:induction false} ReplaceAbsent(s: string, target: string, replacement: string)
    requires |target| > 0
    ensures !Contains(s, target) ==> ReplaceAll(s, target, replacement) == s
    decreases |s|
  {
    if |s| > 0 {
      ReplaceAbsent(s[1..], target, replacement);
    }
  }

  /** Erasing every occurrence never lengthens the string. */
  lemma {:induction false} EraseShortens(s: string, target: string)
    requires |target| > 0
    ensures |ReplaceAll(s, target, "")| <= |s|
    decreases |s|
  {
    if |s| > 0 {
      if target <= s {
        EraseShortens(s[|target|..], target);
      } else {
        EraseShortens(s[1..], target);
      }
    }
  }

  /** The pieces between separators, trailing empty pieces included. */
  function Pieces(s: string, sep: char): (r: seq<string>)
    ensures |r| > 0
    ensures forall i :: 0 <= i < |r| ==> sep !in r[i]
    decreases |s|
  {
    if |s| == 0 then [""]
    else
      var rest := Pieces(s[1..], sep);
      if s[0] == sep then [""] + rest
      else [[s[0]] + rest[0]] + rest[1..]
  }

  /** String.join(sep, parts). */
  function Join(parts: seq<string>, sep: char): string
    requires |parts| > 0
  {
    if |parts| == 1 then parts[0] else parts[0] + [sep] + Join(parts[1..], sep)
  }

  /** Cutting at the separators and gluing back gives the string again. */
  lemma {:induction false} JoinPieces(s: string, sep: char)
    ensures Join(Pieces(s, sep), sep) == s
    decreases |s|
  {
    if |s| > 0 {
      var rest := Pieces(s[1..], sep);
      JoinPieces(s[1..], sep);
      if s[0] == sep {
        assert Pieces(s, sep)[1..] == rest;
      } else {
        var r := Pieces(s, sep);
        assert r[1..] == rest[1..];
        if |rest| > 1 {
          assert Join(rest, sep) == rest[0] + [sep] + Join(rest[1..], sep);
        }
      }
    }
  }

  function DropTrailingEmpty(parts: seq<string>): (r: seq<string>)
    ensures |r| <= |parts| && r == parts[..|r|]
    ensures r == [] || r[|r| - 1] != ""
    ensures forall i :: |r| <= i < |parts| ==> parts[i] == ""
  {
    if |parts| > 0 && parts[|parts| - 1] == "" then DropTrailingEmpty(parts[..|parts| - 1])
    else parts
  }

  /** String.split(",") with limit zero: a string without the separator is
      its own only piece; otherwise the pieces with the trailing empty ones
      removed (so "," gives no piece at all, and "a,,b" keeps the empty
      middle piece). */
  function Split(s: string, sep: char): (r: seq<string>)
    ensures forall i :: 0 <= i < |r| ==> sep !in r[i]
    ensures sep !in s ==> r == [s]
    ensures sep in s ==> |r| <= |Pieces(s, sep)| && r == Pieces(s, sep)[..|r|]
  {
    if sep !in s then [s] else DropTrailingEmpty(Pieces(s, sep))
  }

  function DigitChar(d: nat): char
    requires d < 10
  {
    ('0' as int + d) as char
  }

  predicate IsDigit(c: char) {
    '0' <= c <= '9'
  }

  /** Long.toString for a non-negative value: shortest decimal form. */
  function NatToString(n: nat): (r: string)
    ensures |r| > 0
    ensures forall i :: 0 <= i < |r| ==> IsDigit(r[i])
    ensures r[0] == '0' ==> n == 0
    decreases n
  {
    if n < 10 then [DigitChar(n)] else NatToString(n / 10) + [DigitChar(n % 10)]
  }

  /** Reads back a string of decimal digits. */
  function ParseNat(s: string): nat
    requires forall i :: 0 <= i < |s| ==> IsDigit(s[i])
  {
    if |s| == 0 then 0
    else
      var last := s[|s| - 1];
      assert IsDigit(last);
      ParseNat(s[..|s| - 1]) * 10 + (last as int - '0' as int)
  }

  /** The decimal rendering loses nothing. */
  lemma {:induction false} ParseNatToString(n: nat)
    ensures ParseNat(NatToString(n)) == n
    decreases n
  {
    if n >= 10 {
      var s := NatToString(n);
      assert s[..|s| - 1] == NatToString(n / 10);
      ParseNatToString(n / 10);
    }
  }

  /** Distinct values render as distinct strings. */
  lemma NatToStringInjective(m: nat, n: nat)
    requires NatToString(m) == NatToString(n)
    ensures m == n
  {
    ParseNatToString(m);
    ParseNatToString(n);
  }
}

=== FILE: json.dfy ===
/** The parsed JSON tree the Google responses arrive as, with the Jackson
    accessors the service reads it through. Objects keep their members in
    document order; numbers are integers. */
module Json {
  import opened Base
  import opened JavaString

  datatype Json =
    | JNull
    | JBool(b: bool)
    | JNum(n: int)
    | JStr(s: string)
    | JArr(items: seq<Json>)
    | JObj(members: seq<(string, Json)>)

  /** JsonNode.has(field): an object with that member (even a null one). */
  predicate Has(node: Json, field: string) {
    node.JObj? && exists i :: 0 <= i < |node.members| && node.members[i].0 == field
  }

  /** JsonNode.path(field): the member's value, or None for Jackson's
      MissingNode (no such member, or not an object). */
  function Path(node: Json, field: string): (r: Option<Json>)
    ensures r.Some? <==> Has(node, field)
    ensures r.Some? ==> exists i :: 0 <= i < |node.members| && node.members[i] == (field, r.value)
  {
    if !node.JObj? then None
    else
      match FindFirst(node.members, (m: (string, Json)) => m.0 == field)
      case None => None
      case Some(i) => Some(node.members[i].1)
  }

  /** Path on a node that may itself be missing: missing stays missing. */
  function PathOf(node: Option<Json>, field: string): (r: Option<Json>)
    ensures node.None? ==> r.None?
    ensures node.Some? ==> r == Path(node.value, field)
  {
    if node.None? then None else Path(node.value, field)
  }

  /** Long.toString for any sign. */
  function IntToString(n: int): (r: string)
    ensures |r| > 0
  {
    if n < 0 then "-" + NatToString(-n) else NatToString(n)
  }

  /** JsonNode.asText(): the text of a string, the rendering of a number or
      boolean, "null" for a null, "" for containers and for a missing node. */
  function AsText(node: Option<Json>): (r: string)
    ensures node.Some? && node.value.JStr? ==> r == node.value.s
    ensures node.None? ==> r == ""
  {
    match node
    case None => ""
    case Some(JNull) => "null"
    case Some(JBool(b)) => if b then "true" else "false"
    case Some(JNum(n)) => IntToString(n)
    case Some(JStr(s)) => s
    case Some(_) => ""
  }

  /** JsonNode.asText(default): the default for a missing or null node. */
  function AsTextOr(node: Option<Json>, default: Option<string>): (r: Option<string>)
    ensures node.None? || node.value.JNull? ==> r == default
    ensures node.Some? && !node.value.JNull? ==> r == Some(AsText(node))
  {
    if node.None? || node.value.JNull? then default else Some(AsText(node))
  }

  /** The service's safeText: the member's text when the member exists,
      otherwise null. */
  function SafeText(node: Json, field: string): (r: Option<string>)
    ensures r.Some? <==> Has(node, field)
    ensures r.Some? ==> r.value == AsText(Path(node, field))
  {
    if Has(node, field) then Some(AsText(Path(node, field))) else None
  }

  /** JsonNode.asDouble(), and asInt() before its 32-bit cut: a number's
      value, 1 or 0 for a boolean, 0 otherwise (textual numbers are not parsed here). */
  function AsNumber(node: Option<Json>): (r: int)
    ensures node.Some? && node.value.JNum? ==> r == node.value.n
    ensures node.None? ==> r == 0
  {
    match node
    case Some(JNum(n)) => n
    case Some(JBool(b)) => if b then 1 else 0
    case _ => 0
  }

  /** A Java `(int)` cast of a whole number: the low 32 bits, read as a
      two's-complement value. */
  function ToInt32(n: int): (r: int)
    ensures -0x8000_0000 <= r < 0x8000_0000
    ensures (r - n) % 0x1_0000_0000 == 0
    ensures -0x8000_0000 <= n < 0x8000_0000 ==> r == n
  {
    (n + 0x8000_0000) % 0x1_0000_0000 - 0x8000_0000
  }

  /** JsonNode.asInt(): as AsNumber, then cut to 32 bits the way a long or
      big-integer node's intValue() is. */
  function AsInt(node: Option<Json>): (r: int)
    ensures -0x8000_0000 <= r < 0x8000_0000
    ensures r == ToInt32(AsNumber(node))
  {
    ToInt32(AsNumber(node))
  }

  /** JsonNode.asBoolean(default): a boolean's value, a number's being
      non-zero, the text "true" or "false" (trimmed), else the default. */
  function AsBoolean(node: Option<Json>, default: bool): (r: bool)
    ensures node.None? ==> r == default
    ensures node.Some? && node.value.JBool? ==> r == node.value.b
  {
    match node
    case Some(JBool(b)) => b
    case Some(JNum(n)) => n != 0
    case Some(JStr(s)) => if Trim(s) == "true" then true else if Trim(s) == "false" then false else default
    case _ => default
  }

  /** The children an enhanced for loop visits: an array's items or an
      object's member values, in order; nothing for a scalar. */
  function Children(node: Json): (r: seq<Json>)
    ensures node.JArr? ==> r == node.items
    ensures node.JObj? ==> |r| == |node.members|
    ensures !node.JArr? && !node.JObj? ==> r == []
  {
    match node
    case JArr(items) => items
    case JObj(members) => seq(|members|, i requires 0 <= i < |members| => members[i].1)
    case _ => []
  }

  /** `has(field) && get(field).isArray() && get(field).size() > 0`. */
  predicate HasNonEmptyArray(node: Json, field: string) {
    Has(node, field) && Path(node, field).value.JArr? && |Path(node, field).value.items| > 0
  }
}

=== FILE: locales.dfy ===
/** The /api/locales endpoints: a search that also stores every new result
    as a GOOGLE place, the list of places administrators created, and the
    details of a place refreshed from Google. */
module LocalController {
  import opened Base
  import opened Entities
  import opened Json
  import opened GooglePlacesService
  import opened GooglePlacesController

  /** The place row stored for a search result. */
  function PlaceFromResult(id: nat, placeId: string, gp: GooglePlace): (p: Place)
    ensures p.id == id && p.placeId == placeId && p.source == GOOGLE && p.creadoPorUsuarioId.None?
    ensures p.nombre == gp.name && p.rating == gp.rating && p.precioNivel == gp.priceLevel && p.tipo == gp.tipo
    ensures p.abierto == Some(gp.openNow) && p.totalValoraciones == Some(gp.userRatingsTotal)
  {
    Place(id, placeId, gp.name, gp.formattedAddress, gp.tipo, Some(gp.lat), Some(gp.lng),
          gp.rating, Some(gp.userRatingsTotal), gp.priceLevel, Some(gp.openNow), gp.photoRef, None, GOOGLE)
  }

  /** One iteration of the storing loop: a result whose placeId is not yet
      stored is appended; anything else leaves the table alone. */
  function StoreOne(places: seq<Place>, gp: GooglePlace): (r: seq<Place>)
    ensures gp.placeId.None? || PlaceByPlaceId(places, gp.placeId.value).Some? ==> r == places
    ensures gp.placeId.Some? && PlaceByPlaceId(places, gp.placeId.value).None? ==>
      r == places + [PlaceFromResult(NextId(places, PlaceRowId), gp.placeId.value, gp)]
  {
    if gp.placeId.None? || PlaceByPlaceId(places, gp.placeId.value).Some? then places
    else places + [PlaceFromResult(NextId(places, PlaceRowId), gp.placeId.value, gp)]
  }

  /** The storing loop over all results, in order. */
  function StoreResults(places: seq<Place>, results: seq<GooglePlace>): (r: seq<Place>)
    ensures |places| <= |r| && r[..|places|] == places
    ensures forall i :: |places| <= i < |r| ==> r[i].source == GOOGLE
    decreases |results|
  {
    if |results| == 0 then places else StoreResults(StoreOne(places, results[0]), results[1..])
  }

  /** After the loop every result that has a placeId is stored. */
  lemma {:induction false} StoreResultsCovers(places: seq<Place>, results: seq<GooglePlace>)
    ensures forall i :: 0 <= i < |results| && results[i].placeId.Some? ==>
      PlaceByPlaceId(StoreResults(places, results), results[i].placeId.value).Some?
    decreases |results|
  {
    if |results| > 0 {
      var next := StoreOne(places, results[0]);
      StoreResultsCovers(next, results[1..]);
      var r := StoreResults(places, results);
      forall i | 0 <= i < |results| && results[i].placeId.Some?
        ensures PlaceByPlaceId(r, results[i].placeId.value).Some?
      {
        if i == 0 {
          var k :| 0 <= k < |next| && next[k].placeId == results[0].placeId.value;
          assert r[k] == next[k];
        } else {
          assert results[i] == results[1..][i - 1];
        }
      }
    }
  }

  /** Storing keeps ids and placeIds unique. */
  lemma {:induction false} StoreResultsWellFormed(places: seq<Place>, results: seq<GooglePlace>)
    requires PlacesWellFormed(places)
    ensures PlacesWellFormed(StoreResults(places, results))
    decreases |results|
  {
    if |results| > 0 {
      var next := StoreOne(places, results[0]);
      assert PlacesWellFormed(next) by {
        if next != places {
          forall i | 0 <= i < |places| ensures places[i].id < next[|places|].id {
            assert PlaceRowId(places[i]) < NextId(places, PlaceRowId);
          }
        }
      }
      StoreResultsWellFormed(next, results[1..]);
    }
  }

  /** Results that are all stored already change nothing: a repeated search
      adds no row. */
  lemma {:induction false} StoreResultsStable(places: seq<Place>, results: seq<GooglePlace>)
    requires forall i :: 0 <= i < |results| && results[i].placeId.Some? ==> PlaceByPlaceId(places, results[i].placeId.value).Some?
    ensures StoreResults(places, results) == places
    decreases |results|
  {
    if |results| > 0 {
      StoreResultsStable(places, results[1..]);
    }
  }

  /** Storing the same results twice is storing them once. */
  lemma StoreResultsIdempotent(places: seq<Place>, results: seq<GooglePlace>)
    ensures StoreResults(StoreResults(places, results), results) == StoreResults(places, results)
  {
    StoreResultsCovers(places, results);
    StoreResultsStable(StoreResults(places, results), results);
  }

  datatype LocalesAnswer = LocalesAnswer(status: int, results: seq<GooglePlace>, db: Db)

  /** The filters of this endpoint: rating, price and open-now, with no
      cuisine filter and no limit. */
  predicate PassesLocalFilters(minRating: Option<Rating>, priceLevels: Option<seq<int>>, openNowOnly: Option<bool>, p: GooglePlace) {
    PassesRating(minRating, p) && PassesPrice(priceLevels, p) && PassesOpen(openNowOnly, p)
  }

  /** GET /api/locales/search: every new result is stored, then the
      filtered results are answered. */
  function SearchLocales(apiKey: Option<string>, response: Option<Json>, minRating: Option<Rating>,
                         priceLevels: Option<seq<int>>, openNowOnly: Option<bool>, db: Db): (r: LocalesAnswer)
    ensures r.status == OK
    ensures r.db == db.(places := StoreResults(db.places, SearchPlaces(apiKey, response)))
    ensures r.results == Filter(SearchPlaces(apiKey, response), p => PassesLocalFilters(minRating, priceLevels, openNowOnly, p))
  {
    var results := SearchPlaces(apiKey, response);
    if |results| == 0 then LocalesAnswer(OK, [], db)
    else
      var places := StoreResults(db.places, results);
      var filtered := Filter(results, p => PassesLocalFilters(minRating, priceLevels, openNowOnly, p));
      LocalesAnswer(OK, filtered, db.(places := places))
  }

  /** A search leaves every other table and every existing place as it
      was, stores each result, and keeps places unique. */
  lemma SearchLocalesEffect(apiKey: Option<string>, response: Option<Json>, minRating: Option<Rating>,
                            priceLevels: Option<seq<int>>, openNowOnly: Option<bool>, db: Db)
    requires PlacesWellFormed(db.places)
    ensures
      var db' := SearchLocales(apiKey, response, minRating, priceLevels, openNowOnly, db).db;
      var results := SearchPlaces(apiKey, response);
      && db'.users == db.users && db'.favorites == db.favorites && db'.reviews == db.reviews
      && db'.places[..|db.places|] == db.places
      && PlacesWellFormed(db'.places)
      && forall i :: 0 <= i < |results| && results[i].placeId.Some? ==> PlaceByPlaceId(db'.places, results[i].placeId.value).Some?
  {
    StoreResultsCovers(db.places, SearchPlaces(apiKey, response));
    StoreResultsWellFormed(db.places, SearchPlaces(apiKey, response));
  }

  /** GET /api/locales/community: the places administrators created. */
  function GetCommunityLocales(places: seq<Place>): (r: seq<Place>)
    ensures forall i :: 0 <= i < |r| ==> r[i].source == LOCAL && r[i] in places
    ensures forall i :: 0 <= i < |places| && places[i].source == LOCAL ==> places[i] in r
  {
    Filter(places, (p: Place) => p.source == LOCAL)
  }

  datatype LocalDetails = LocalDetails(status: int, place: Option<Place>, details: Option<PlaceDetails>, db: Db)

  /** The stored row refreshed with Google's details: identity, placeId,
      source and creator kept, every other column overwritten. */
  function Refreshed(local: Place, d: PlaceDetails): (p: Place)
    ensures p.id == local.id && p.placeId == local.placeId && p.source == local.source
    ensures p.creadoPorUsuarioId == local.creadoPorUsuarioId
    ensures p.nombre == d.name && p.direccion == d.formattedAddress && p.rating == d.rating
    ensures p.latitud == d.lat && p.longitud == d.lng && p.abierto == d.openNow
    ensures p.totalValoraciones == Some(d.userRatingsTotal) && p.precioNivel == d.priceLevel
    ensures p.fotoRef == d.photoRef && p.tipo == d.tipo
  {
    local.(nombre := d.name, direccion := d.formattedAddress, latitud := d.lat, longitud := d.lng,
           rating := d.rating, totalValoraciones := Some(d.userRatingsTotal), precioNivel := d.priceLevel,
           fotoRef := d.photoRef, tipo := d.tipo, abierto := d.openNow)
  }

  /** The work of GET /api/locales/details/{placeId} once Google has
      answered: without details the stored row (200) or 404; with details
      the stored row is refreshed, or a new GOOGLE row created, and
      answered. */
  function DetailsFor(placeId: string, details: Option<PlaceDetails>, db: Db): (r: LocalDetails)
    ensures r.status in {OK, NOT_FOUND}
    ensures r.status == NOT_FOUND <==> details.None? && PlaceByPlaceId(db.places, placeId).None?
    ensures details.None? ==> r.db == db && r.details.None?
    ensures r.status == OK ==> r.place.Some? && r.place.value.placeId == placeId && r.place.value in r.db.places
    ensures details.Some? ==>
      && r.details == details
      && r.place.Some? && r.place.value.nombre == details.value.name && r.place.value.rating == details.value.rating
      && (PlaceByPlaceId(db.places, placeId).Some? ==>
            var k := PlaceByPlaceId(db.places, placeId).value;
            r.db == db.(places := db.places[k := Refreshed(db.places[k], details.value)]))
      && (PlaceByPlaceId(db.places, placeId).None? ==>
            r.db == db.(places := db.places + [Refreshed(NewPlace(NextId(db.places, PlaceRowId), placeId), details.value)]))
  {
    var localOpt := PlaceByPlaceId(db.places, placeId);
    match details
    case None =>
      if localOpt.Some? then LocalDetails(OK, Some(db.places[localOpt.value]), None, db)
      else LocalDetails(NOT_FOUND, None, None, db)
    case Some(d) =>
      match localOpt
      case Some(k) =>
        var local := Refreshed(db.places[k], d);
        var places := db.places[k := local];
        assert places[k] == local;
        LocalDetails(OK, Some(local), Some(d), db.(places := places))
      case None =>
        var local := Refreshed(NewPlace(NextId(db.places, PlaceRowId), placeId), d);
        var places := db.places + [local];
        assert places[|db.places|] == local;
        LocalDetails(OK, Some(local), Some(d), db.(places := places))
  }

  /** Asking twice with the same details stores the same thing as asking
      once, and places stay unique. */
  lemma DetailsForIdempotent(placeId: string, details: Option<PlaceDetails>, db: Db)
    requires PlacesWellFormed(db.places)
    ensures PlacesWellFormed(DetailsFor(placeId, details, db).db.places)
    ensures
      var db1 := DetailsFor(placeId, details, db).db;
      DetailsFor(placeId, details, db1).db == db1
  {
    var db1 := DetailsFor(placeId, details, db).db;
    if details.Some? {
      match PlaceByPlaceId(db.places, placeId)
      case Some(k) =>
        PlaceByPlaceIdUnique(db1.places, placeId, k);
      case None =>
        var n := |db.places|;
        forall i | 0 <= i < n ensures db.places[i].id < db1.places[n].id {
          assert PlaceRowId(db.places[i]) < NextId(db.places, PlaceRowId);
        }
        assert PlacesWellFormed(db1.places);
        PlaceByPlaceIdUnique(db1.places, placeId, n);
    }
  }

  /** GET /api/locales/details/{placeId}: the store is looked up and Google
      asked; only details from Google change the store. */
  function GetLocalDetails(apiKey: Option<string>, placeId: string, response: Option<Json>, db: Db): (r: LocalDetails)
    ensures r.status == NOT_FOUND <==>
      GetPlaceDetails(apiKey, placeId, response).None? && PlaceByPlaceId(db.places, placeId).None?
    ensures GetPlaceDetails(apiKey, placeId, response).None? ==> r.db == db
    ensures r.details == GetPlaceDetails(apiKey, placeId, response)
  {
    DetailsFor(placeId, GetPlaceDetails(apiKey, placeId, response), db)
  }
}

=== FILE: notifications.dfy ===
/** Notices to a review's author that someone replied: creating them,
    counting and listing the unread ones, and marking them read. The
    notification clock is a parameter; rows are stored in creation order. */
module ReplyNotificationService {
  import opened Base
  import opened JavaString
  import opened Entities

  const SNIPPET_MAX := 160

  /** buildSnippet: empty for a missing text, the text itself up to 160
      UTF-16 code units, otherwise its longest prefix of at most 160 units
      followed by an ellipsis. */
  function BuildSnippet(value: Option<string>): (r: string)
    ensures Utf16Length(r) <= SNIPPET_MAX + 1
    ensures value.None? ==> r == ""
    ensures value.Some? && Utf16Length(value.value) <= SNIPPET_MAX ==> r == value.value
    ensures value.Some? && Utf16Length(value.value) > SNIPPET_MAX ==>
      && |r| > 0 && r[|r| - 1] == '…'
      && var p := r[..|r| - 1];
         && p <= value.value && |p| < |value.value|
         && SNIPPET_MAX - 1 <= Utf16Length(p) <= SNIPPET_MAX
         && Utf16Length(p) + Utf16Units(value.value[|p|]) > SNIPPET_MAX
  {
    match value
    case None => ""
    case Some(v) =>
      if Utf16Length(v) <= SNIPPET_MAX then v
      else
        var p := Utf16Prefix(v, SNIPPET_MAX);
        Utf16PrefixLength(v, SNIPPET_MAX);
        Utf16LengthAppend(p, "…");
        assert (p + "…")[..|p|] == p;
        p + "…"
  }

  /** A snippet of a snippet is the same snippet: a cut text keeps at most
      160 units before its ellipsis, so it is either short enough already
      or is cut again at the same place. */
  lemma {:induction false} BuildSnippetIdempotent(value: Option<string>)
    ensures BuildSnippet(Some(BuildSnippet(value))) == BuildSnippet(value)
  {
    var r := BuildSnippet(value);
    if value.Some? && Utf16Length(value.value) > SNIPPET_MAX {
      var p := r[..|r| - 1];
      assert r == p + "…";
      Utf16LengthAppend(p, "…");
      if Utf16Length(r) > SNIPPET_MAX {
        assert r[|p|] == '…';
        Utf16PrefixUnique(r, SNIPPET_MAX, p);
      }
    }
  }

  /** Whether notifyReviewAuthor writes anything: all three of review,
      reply and responder are present, and the responder is not the
      review's known author. */
  predicate Notifies(review: Option<Review>, reply: Option<ReviewReply>, responder: Option<User>) {
    && review.Some? && reply.Some? && responder.Some?
    && !(review.value.userId.Some? && review.value.userId.value == responder.value.id)
  }

  /** The notification row for a reply; `local` may be missing, in which
      case the place columns stay null. */
  function NotificationFor(id: nat, review: Review, reply: ReviewReply, responder: User, local: Option<Place>, now: Timestamp): (n: Notification)
    ensures n.id == id && n.userId == review.userId && n.reviewId == review.id && n.replyId == reply.id
    ensures n.responderId == responder.id && n.responderName == responder.nombre && !n.read
    ensures local.None? ==> n.placeId.None? && n.placeName.None?
    ensures local.Some? ==> n.placeId == Some(local.value.placeId) && n.placeName == local.value.nombre
    ensures n.reviewSnippet == BuildSnippet(review.comentario) && n.replySnippet == BuildSnippet(Some(reply.content))
  {
    Notification(
      id, review.userId, review.id, reply.id, responder.id, responder.nombre,
      if local.Some? then Some(local.value.placeId) else None,
      if local.Some? then local.value.nombre else None,
      BuildSnippet(review.comentario), BuildSnippet(Some(reply.content)),
      false, now)
  }

  function NotificationId(n: Notification): nat { n.id }

  /** notifyReviewAuthor: appends one unread notification addressed to the
      review's author, unless nothing is to be notified. */
  function NotifyReviewAuthor(review: Option<Review>, reply: Option<ReviewReply>, responder: Option<User>,
                              local: Option<Place>, now: Timestamp, ns: seq<Notification>): (r: seq<Notification>)
    ensures !Notifies(review, reply, responder) ==> r == ns
    ensures Notifies(review, reply, responder) ==>
      && |r| == |ns| + 1 && r[..|ns|] == ns
      && r[|ns|] == NotificationFor(NextId(ns, NotificationId), review.value, reply.value, responder.value, local, now)
  {
    if !Notifies(review, reply, responder) then ns
    else ns + [NotificationFor(NextId(ns, NotificationId), review.value, reply.value, responder.value, local, now)]
  }

  /** Nobody is notified of their own reply to their own review. */
  lemma NoSelfNotification(review: Review, reply: ReviewReply, responder: User, local: Option<Place>, now: Timestamp, ns: seq<Notification>)
    requires review.userId == Some(responder.id)
    ensures NotifyReviewAuthor(Some(review), Some(reply), Some(responder), local, now, ns) == ns
  {
  }

  predicate UnreadFor(userId: nat, n: Notification) {
    n.userId == Some(userId) && !n.read
  }

  /** Whether a notification is one of `userId`'s unread ones. */
  function UnreadOf(userId: nat): Notification -> bool {
    (n: Notification) => UnreadFor(userId, n)
  }

  /** The number of a user's unread notifications. */
  function CountUnread(userId: nat, ns: seq<Notification>): (c: nat)
    ensures c == |Filter(ns, UnreadOf(userId))| <= |ns|
    ensures c == 0 <==> forall i :: 0 <= i < |ns| ==> !UnreadFor(userId, ns[i])
  {
    if |ns| == 0 then 0
    else (if UnreadFor(userId, ns[0]) then 1 else 0) + CountUnread(userId, ns[1..])
  }

  /** getUnreadCount: 0 for a missing user. */
  function GetUnreadCount(userId: Option<nat>, ns: seq<Notification>): (c: nat)
    ensures userId.None? ==> c == 0
    ensures userId.Some? ==> c == |Filter(ns, UnreadOf(userId.value))|
  {
    if userId.None? then 0 else CountUnread(userId.value, ns)
  }

  /** A new notification adds exactly one to its addressee's unread count
      and nothing to anyone else's. */
  lemma {:induction false} NotifyAddsOneUnread(review: Option<Review>, reply: Option<ReviewReply>, responder: Option<User>,
                                              local: Option<Place>, now: Timestamp, ns: seq<Notification>, userId: nat)
    ensures
      var r := NotifyReviewAuthor(review, reply, responder, local, now, ns);
      CountUnread(userId, r) == CountUnread(userId, ns) +
        (if Notifies(review, reply, responder) && review.value.userId == Some(userId) then 1 else 0)
  {
    var r := NotifyReviewAuthor(review, reply, responder, local, now, ns);
    if Notifies(review, reply, responder) {
      var n := r[|ns|];
      assert r == ns + [n];
      FilterAppend(ns, [n], UnreadOf(userId));
      assert |Filter([n], UnreadOf(userId))| == if UnreadFor(userId, n) then 1 else 0;
    }
  }

  /** The newest first. */
  function Reverse<T>(s: seq<T>): (r: seq<T>)
    ensures |r| == |s|
    ensures forall i :: 0 <= i < |s| ==> r[i] == s[|s| - 1 - i]
  {
    if |s| == 0 then [] else Reverse(s[1..]) + [s[0]]
  }

  const PAGE_SIZE := 20

  /** getNotifications: a user's twenty newest notifications, newest first;
      nothing for a missing user. */
  function GetNotifications(userId: Option<nat>, ns: seq<Notification>): (r: seq<Notification>)
    ensures userId.None? ==> r == []
    ensures |r| <= PAGE_SIZE
    ensures forall i :: 0 <= i < |r| ==> r[i] in ns && r[i].userId == userId
  {
    if userId.None? then []
    else
      var newest := Reverse(Filter(ns, AddressedTo(userId)));
      if |newest| <= PAGE_SIZE then newest else newest[..PAGE_SIZE]
  }

  /** Whether a notification is addressed to `userId`. */
  function AddressedTo(userId: Option<nat>): Notification -> bool {
    (n: Notification) => n.userId == userId
  }

  /** The page holds the user's notifications newest first (the store keeps
      creation order), cut at twenty: its length is the smaller of twenty
      and the user's count, its i-th entry is the user's i-th newest, and
      with at most twenty none of the user's is missing. */
  lemma GetNotificationsNewestFirst(userId: nat, ns: seq<Notification>)
    ensures
      var mine := Filter(ns, AddressedTo(Some(userId)));
      var r := GetNotifications(Some(userId), ns);
      && |r| == (if |mine| <= PAGE_SIZE then |mine| else PAGE_SIZE)
      && (forall i :: 0 <= i < |r| ==> r[i] == mine[|mine| - 1 - i])
      && (|mine| <= PAGE_SIZE ==> forall i :: 0 <= i < |ns| && ns[i].userId == Some(userId) ==> ns[i] in r)
  {
    var mine := Filter(ns, AddressedTo(Some(userId)));
    var newest := Reverse(mine);
    var r := GetNotifications(Some(userId), ns);
    assert r == if |newest| <= PAGE_SIZE then newest else newest[..PAGE_SIZE];
    if |mine| <= PAGE_SIZE {
      forall i | 0 <= i < |ns| && ns[i].userId == Some(userId) ensures ns[i] in r {
        assert AddressedTo(Some(userId))(ns[i]);
        var j :| 0 <= j < |mine| && mine[j] == ns[i];
        assert r[|mine| - 1 - j] == ns[i];
      }
    }
  }

  /** Which notifications markAsRead touches: all of the user's unread ones,
      or those of the listed ids that belong to the user. */
  predicate Selected(userId: nat, ids: seq<nat>, markAll: bool, n: Notification) {
    if markAll then UnreadFor(userId, n) else n.id in ids && n.userId == Some(userId)
  }

  /** markAsRead: nothing for a missing user, nor when neither markAll nor
      any id is given; otherwise the selected notifications become read. */
  function MarkAsRead(userId: Option<nat>, ids: Option<seq<nat>>, markAll: bool, ns: seq<Notification>): (r: seq<Notification>)
    ensures |r| == |ns|
    ensures userId.None? || (!markAll && (ids.None? || |ids.value| == 0)) ==> r == ns
    ensures forall i :: 0 <= i < |ns| ==> r[i] == ns[i] || r[i] == ns[i].(read := true)
    ensures forall i :: 0 <= i < |ns| && ns[i].userId != userId ==> r[i] == ns[i]
    ensures forall i :: 0 <= i < |ns| && !(userId.Some? && Selected(userId.value, ids.GetOr([]), markAll, ns[i])) ==>
      r[i] == ns[i]
    ensures userId.Some? ==> forall i :: 0 <= i < |ns| ==>
      (Selected(userId.value, ids.GetOr([]), markAll, ns[i]) ==> r[i].read)
  {
    if userId.None? || (!markAll && (ids.None? || |ids.value| == 0)) then ns
    else
      var u, chosen := userId.value, ids.GetOr([]);
      seq(|ns|, i requires 0 <= i < |ns| =>
        if Selected(u, chosen, markAll, ns[i]) then ns[i].(read := true) else ns[i])
  }

  /** Marking is idempotent. */
  lemma MarkAsReadIdempotent(userId: Option<nat>, ids: Option<seq<nat>>, markAll: bool, ns: seq<Notification>)
    ensures MarkAsRead(userId, ids, markAll, MarkAsRead(userId, ids, markAll, ns)) == MarkAsRead(userId, ids, markAll, ns)
  {
  }

  /** After marking everything read the user has no unread notification. */
  lemma MarkAllClearsUnread(userId: nat, ids: Option<seq<nat>>, ns: seq<Notification>)
    ensures GetUnreadCount(Some(userId), MarkAsRead(Some(userId), ids, true, ns)) == 0
  {
    var r := MarkAsRead(Some(userId), ids, true, ns);
    assert forall i :: 0 <= i < |r| ==> !UnreadFor(userId, r[i]);
  }

  /** Marking never adds to anyone's unread count. */
  lemma {:induction false} MarkAsReadNeverAddsUnread(userId: Option<nat>, ids: Option<seq<nat>>, markAll: bool, ns: seq<Notification>, other: nat)
    ensures CountUnread(other, MarkAsRead(userId, ids, markAll, ns)) <= CountUnread(other, ns)
  {
    CountUnreadPointwise(other, MarkAsRead(userId, ids, markAll, ns), ns);
  }

  lemma {:induction false} CountUnreadPointwise(userId: nat, a: seq<Notification>, b: seq<Notification>)
    requires |a| == |b|
    requires forall i :: 0 <= i < |a| ==> UnreadFor(userId, a[i]) ==> UnreadFor(userId, b[i])
    ensures CountUnread(userId, a) <= CountUnread(userId, b)
    decreases |a|
  {
    if |a| > 0 {
      CountUnreadPointwise(userId, a[1..], b[1..]);
    }
  }
}

=== FILE: places_filter.dfy ===
/** GET /api/places/search: the optional filters applied, one stage after
    another, to the gastronomic results of a text search, and the cuisine
    synonyms they use. GET /api/places/details is the service's answer
    mapped to 200 or 404. */
module GooglePlacesController {
  import opened Base
  import opened JavaString
  import opened Entities
  import opened GooglePlacesService

  /** The request parameters that filter (the `openNow` parameter is
      accepted and ignored). */
  datatype SearchFilters = SearchFilters(
    minRating: Option<Rating>,
    priceLevels: Option<seq<int>>,
    openNowOnly: Option<bool>,
    cuisineTypes: Option<string>,
    limit: Option<int>)

  predicate PassesRating(minRating: Option<Rating>, p: GooglePlace) {
    minRating.None? || (p.rating.Some? && p.rating.value >= minRating.value)
  }

  predicate PassesPrice(priceLevels: Option<seq<int>>, p: GooglePlace) {
    priceLevels.None? || |priceLevels.value| == 0 || (p.priceLevel.Some? && p.priceLevel.value in priceLevels.value)
  }

  predicate PassesOpen(openNowOnly: Option<bool>, p: GooglePlace) {
    openNowOnly != Some(true) || p.openNow
  }

  /** The synonym table of hasCuisineMatch. */
  const CUISINE_SYNONYMS: seq<(string, seq<string>)> := [
    ("restaurant", ["restaurante", "comida", "food"]),
    ("cafe", ["café", "cafe", "coffee"]),
    ("bar", ["bar", "pub", "cervecería"]),
    ("pizza", ["pizzeria", "pizza", "italian"]),
    ("asian", ["asiatico", "asiático", "chino", "japonés", "sushi", "thai"]),
    ("mexican", ["mexicano", "mexican", "taco", "burrito"]),
    ("italian", ["italiano", "italian", "pasta", "ristorante"])]

  /** hasCuisineMatch: some table entry lists the cuisine as a synonym while
      the place type contains the entry's key, or lists the place type
      while the cuisine contains the key. */
  predicate HasCuisineMatch(placeType: string, cuisine: string) {
    exists i :: 0 <= i < |CUISINE_SYNONYMS| &&
      ((cuisine in CUISINE_SYNONYMS[i].1 && Contains(placeType, CUISINE_SYNONYMS[i].0))
       || (placeType in CUISINE_SYNONYMS[i].1 && Contains(cuisine, CUISINE_SYNONYMS[i].0)))
  }

  /** The synonym test does not depend on which side is the place. */
  lemma HasCuisineMatchSymmetric(a: string, b: string)
    ensures HasCuisineMatch(a, b) <==> HasCuisineMatch(b, a)
  {
  }

  /** A requested cuisine matches a place type (both lower-cased): either
      contains the other, or the synonym table relates them. */
  predicate CuisineMatches(placeType: string, cuisine: string) {
    Contains(placeType, cuisine) || Contains(cuisine, placeType) || HasCuisineMatch(placeType, cuisine)
  }

  /** The cuisine stage: a place without a type never passes; otherwise one
      of the comma-separated cuisines must match its type. */
  predicate PassesCuisine(cuisineTypes: Option<string>, p: GooglePlace) {
    cuisineTypes.None? || |cuisineTypes.value| == 0 ||
      (p.tipo.Some? &&
        var selected := Split(cuisineTypes.value, ',');
        exists i :: 0 <= i < |selected| && CuisineMatches(ToLower(p.tipo.value), ToLower(selected[i])))
  }

  /** Every filter at once. */
  predicate PassesAll(f: SearchFilters, p: GooglePlace) {
    PassesRating(f.minRating, p) && PassesPrice(f.priceLevels, p) && PassesOpen(f.openNowOnly, p) && PassesCuisine(f.cuisineTypes, p)
  }

  /** Stream.limit for a positive limit; no limit otherwise. */
  function Limit<T>(s: seq<T>, limit: Option<int>): (r: seq<T>)
    ensures limit.Some? && limit.value > 0 ==> |r| <= limit.value
    ensures |r| <= |s| && r == s[..|r|]
    ensures (limit.None? || limit.value <= 0 || |s| <= limit.value) ==> r == s
  {
    if limit.Some? && limit.value > 0 && |s| > limit.value then s[..limit.value] else s
  }

  /** One optional stage of the pipeline: a filter when the parameter is
      given, nothing otherwise. */
  function Stage<T>(s: seq<T>, active: bool, p: T -> bool): (r: seq<T>)
    ensures forall i :: 0 <= i < |r| ==> r[i] in s
    ensures active ==> forall i :: 0 <= i < |r| ==> p(r[i])
  {
    if active then Filter(s, p) else s
  }

  /** A stage after a filter is one filter by both conditions, provided the
      stage's condition holds of everything when the stage is inactive. */
  lemma {:induction false} StageAfterFilter<T>(s: seq<T>, q: T -> bool, active: bool, p: T -> bool, both: T -> bool)
    requires forall x :: !active ==> p(x)
    requires forall x :: both(x) == (q(x) && p(x))
    ensures Stage(Filter(s, q), active, p) == Filter(s, both)
  {
    FilterFilter(s, q, p);
    FilterExt(s, x => q(x) && p(x), both);
    if !active {
      FilterAll(Filter(s, q), p);
    }
  }

  // The stage conditions as values, so that the pipeline and the facts
  // about it refer to the same functions.
  function RatingTest(f: SearchFilters): GooglePlace -> bool { p => PassesRating(f.minRating, p) }
  function PriceTest(f: SearchFilters): GooglePlace -> bool { p => PassesPrice(f.priceLevels, p) }
  function OpenTest(f: SearchFilters): GooglePlace -> bool { p => PassesOpen(f.openNowOnly, p) }
  function CuisineTest(f: SearchFilters): GooglePlace -> bool { p => PassesCuisine(f.cuisineTypes, p) }
  function AllTest(f: SearchFilters): GooglePlace -> bool { p => PassesAll(f, p) }

  /** The stream pipeline of searchPlaces, stage by stage as the endpoint
      adds them; an empty search answers the empty list. */
  function FilterResults(results: seq<GooglePlace>, f: SearchFilters): seq<GooglePlace>
  {
    if |results| == 0 then []
    else
      var s1 := Stage(results, f.minRating.Some?, RatingTest(f));
      var s2 := Stage(s1, f.priceLevels.Some? && |f.priceLevels.value| > 0, PriceTest(f));
      var s3 := Stage(s2, f.openNowOnly == Some(true), OpenTest(f));
      var s4 := Stage(s3, f.cuisineTypes.Some? && |f.cuisineTypes.value| > 0, CuisineTest(f));
      Limit(s4, f.limit)
  }

  /** The staged pipeline is one filter by all conditions followed by the
      limit: exactly the passing results, in search order, truncated. */
  lemma {:induction false} FilterResultsIsOneFilter(results: seq<GooglePlace>, f: SearchFilters)
    ensures FilterResults(results, f) == Limit(Filter(results, AllTest(f)), f.limit)
  {
    if |results| > 0 {
      InactiveStagesPass(f);
      var b1, b2, b3, b4 := f.minRating.Some?, f.priceLevels.Some? && |f.priceLevels.value| > 0,
                            f.openNowOnly == Some(true), f.cuisineTypes.Some? && |f.cuisineTypes.value| > 0;
      var r, pr, o, c := RatingTest(f), PriceTest(f), OpenTest(f), CuisineTest(f);
      var q2 := (x: GooglePlace) => r(x) && pr(x);
      var q3 := (x: GooglePlace) => r(x) && pr(x) && o(x);
      var q4 := (x: GooglePlace) => r(x) && pr(x) && o(x) && c(x);
      var s1 := Stage(results, b1, r);
      var s2 := Stage(s1, b2, pr);
      var s3 := Stage(s2, b3, o);
      var s4 := Stage(s3, b4, c);
      assert FilterResults(results, f) == Limit(s4, f.limit);
      if !b1 {
        FilterAll(results, r);
      }
      assert s1 == Filter(results, r);
      StageAfterFilter(results, r, b2, pr, q2);
      StageAfterFilter(results, q2, b3, o, q3);
      StageAfterFilter(results, q3, b4, c, q4);
      AllTestIsConjunction(f, q4);
      FilterExt(results, q4, AllTest(f));
    }
  }

  lemma AllTestIsConjunction(f: SearchFilters, q: GooglePlace -> bool)
    requires forall x :: q(x) == (RatingTest(f)(x) && PriceTest(f)(x) && OpenTest(f)(x) && CuisineTest(f)(x))
    ensures forall x :: q(x) == AllTest(f)(x)
  {
  }

  /** A stage that is not switched on lets every place through. */
  lemma InactiveStagesPass(f: SearchFilters)
    ensures !f.minRating.Some? ==> forall x :: RatingTest(f)(x)
    ensures !(f.priceLevels.Some? && |f.priceLevels.value| > 0) ==> forall x :: PriceTest(f)(x)
    ensures f.openNowOnly != Some(true) ==> forall x :: OpenTest(f)(x)
    ensures !(f.cuisineTypes.Some? && |f.cuisineTypes.value| > 0) ==> forall x :: CuisineTest(f)(x)
  {
  }

  /** Without a limit nothing that passes is lost, and the answer keeps the
      search order. */
  lemma NoLimitKeepsEveryMatch(results: seq<GooglePlace>, f: SearchFilters)
    requires f.limit.None?
    ensures forall i :: 0 <= i < |results| && PassesAll(f, results[i]) ==> results[i] in FilterResults(results, f)
    ensures IsSubsequence(FilterResults(results, f), results)
  {
    FilterResultsIsOneFilter(results, f);
    FilterIsSubsequence(results, AllTest(f));
    PrefixIsSubsequence(Filter(results, AllTest(f)), |FilterResults(results, f)|);
    SubsequenceTransitive(FilterResults(results, f), Filter(results, AllTest(f)), results);
  }

  /** Every place the pipeline lets through passes every requested filter
      and comes from the search results; a positive limit bounds the
      count. */
  lemma FilterResultsSound(results: seq<GooglePlace>, f: SearchFilters)
    ensures forall i :: 0 <= i < |FilterResults(results, f)| ==>
      PassesAll(f, FilterResults(results, f)[i]) && FilterResults(results, f)[i] in results
    ensures f.limit.Some? && f.limit.value > 0 ==> |FilterResults(results, f)| <= f.limit.value
  {
    FilterResultsIsOneFilter(results, f);
    var all := Filter(results, AllTest(f));
    forall i | 0 <= i < |FilterResults(results, f)|
      ensures PassesAll(f, FilterResults(results, f)[i]) && FilterResults(results, f)[i] in results
    {
      assert FilterResults(results, f)[i] == all[i];
      assert AllTest(f)(all[i]);
    }
  }

  /** GET /api/places/search for already decoded search results. */
  function SearchPlacesEndpoint(apiKey: Option<string>, response: Option<Json.Json>, f: SearchFilters): (r: seq<GooglePlace>)
    ensures forall i :: 0 <= i < |r| ==> PassesAll(f, r[i]) && IsGastronomic(r[i].types)
    ensures f.limit.Some? && f.limit.value > 0 ==> |r| <= f.limit.value
  {
    var results := SearchPlaces(apiKey, response);
    FilterResultsSound(results, f);
    FilterResults(results, f)
  }

  datatype DetailsAnswer = DetailsAnswer(status: int, details: Option<PlaceDetails>)

  /** GET /api/places/details/{placeId}: 404 when the service has nothing,
      otherwise 200 with the details; the store is not consulted. */
  function GetPlaceDetailsEndpoint(apiKey: Option<string>, placeId: string, response: Option<Json.Json>): (r: DetailsAnswer)
    ensures r.status in {OK, NOT_FOUND}
    ensures r.status == OK <==> GetPlaceDetails(apiKey, placeId, response).Some?
    ensures r.details == GetPlaceDetails(apiKey, placeId, response)
  {
    var d := GetPlaceDetails(apiKey, placeId, response);
    if d.None? then DetailsAnswer(NOT_FOUND, None) else DetailsAnswer(OK, d)
  }
}

=== FILE: places_service.dfy ===
/** GooglePlacesService: turning a Google Places text-search response and a
    place-details response into the records the backend uses. The HTTP
    exchange itself is not modelled: each operation receives the parsed
    response body, or None when there was none (empty body, HTTP error or
    any exception, all of which the service maps to the same answer). */
module GooglePlacesService {
  import opened Base
  import opened Entities
  import opened Json

  /** ALLOWED_GASTRONOMIC_TYPES, duplicates included. */
  const ALLOWED_GASTRONOMIC_TYPES: seq<string> := [
    "restaurant", "cafe", "bar", "bakery", "food",
    "meal_takeaway", "meal_delivery", "liquor_store",
    "night_club", "bakery", "cafe", "restaurant"]

  /** A text-search result. */
  datatype GooglePlace = GooglePlace(
    placeId: Option<string>,
    name: Option<string>,
    formattedAddress: Option<string>,
    lat: Coordinate,
    lng: Coordinate,
    rating: Option<Rating>,
    userRatingsTotal: int,
    priceLevel: Option<int>,
    openNow: bool,
    photoRef: Option<string>,
    tipo: Option<string>,
    types: seq<string>)

  /** The details of one place. */
  datatype PlaceDetails = PlaceDetails(
    placeId: string,
    name: Option<string>,
    formattedAddress: Option<string>,
    lat: Option<Coordinate>,
    lng: Option<Coordinate>,
    rating: Option<Rating>,
    userRatingsTotal: int,
    priceLevel: Option<int>,
    openNow: Option<bool>,
    photoRef: Option<string>,
    tipo: Option<string>,
    phoneNumber: Option<string>,
    website: Option<string>)

  /** The configured API key is usable: present and not empty. */
  predicate KeyConfigured(apiKey: Option<string>) {
    apiKey.Some? && |apiKey.value| > 0
  }

  /** The response's "status" member reads "OK". */
  predicate StatusOk(root: Json) {
    AsText(Path(root, "status")) == "OK"
  }

  /** A numeric member that reads as null when missing. */
  function OptionalNumber(node: Json, field: string): (r: Option<int>)
    ensures r.None? <==> !Has(node, field)
    ensures r.Some? ==> r.value == AsNumber(Path(node, field))
  {
    if Path(node, field).None? then None else Some(AsNumber(Path(node, field)))
  }

  /** An integer member read with asInt() that reads as null when missing;
      a value outside the 32-bit range wraps. */
  function OptionalInt(node: Json, field: string): (r: Option<int>)
    ensures r.None? <==> !Has(node, field)
    ensures r.Some? ==> r.value == ToInt32(AsNumber(Path(node, field)))
    ensures r.Some? && -0x8000_0000 <= AsNumber(Path(node, field)) < 0x8000_0000 ==> r.value == AsNumber(Path(node, field))
  {
    if Path(node, field).None? then None else Some(AsInt(Path(node, field)))
  }

  /** An integer member read with asInt() that reads as 0 when missing; a
      value outside the 32-bit range wraps. */
  function NumberOrZero(node: Json, field: string): (r: int)
    ensures !Has(node, field) ==> r == 0
    ensures Has(node, field) ==> r == ToInt32(AsNumber(Path(node, field)))
    ensures -0x8000_0000 <= r < 0x8000_0000
  {
    if Path(node, field).None? then 0 else AsInt(Path(node, field))
  }

  /** The first photo's reference, when there is a non-empty photos array;
      null when that first photo has no (or a null) reference. */
  function FirstPhotoRef(node: Json): (r: Option<string>)
    ensures !HasNonEmptyArray(node, "photos") ==> r.None?
    ensures HasNonEmptyArray(node, "photos") ==>
      r == AsTextOr(Path(Path(node, "photos").value.items[0], "photo_reference"), None)
  {
    if HasNonEmptyArray(node, "photos") then
      AsTextOr(Path(Path(node, "photos").value.items[0], "photo_reference"), None)
    else None
  }

  /** The place's type list as texts; empty unless "types" is an array. */
  function TypesOf(node: Json): (r: seq<string>)
    ensures !(Has(node, "types") && Path(node, "types").value.JArr?) ==> r == []
    ensures Has(node, "types") && Path(node, "types").value.JArr? ==>
      |r| == |Path(node, "types").value.items| &&
      forall i :: 0 <= i < |r| ==> r[i] == AsText(Some(Path(node, "types").value.items[i]))
  {
    if Has(node, "types") && Path(node, "types").value.JArr? then
      var items := Path(node, "types").value.items;
      seq(|items|, i requires 0 <= i < |items| => AsText(Some(items[i])))
    else []
  }

  /** A result is kept when one of its types is gastronomic. */
  predicate IsGastronomic(types: seq<string>) {
    exists i :: 0 <= i < |types| && types[i] in ALLOWED_GASTRONOMIC_TYPES
  }

  /** One text-search result as the loop body builds it. */
  function DecodeResult(r: Json): (p: GooglePlace)
    ensures p.types == TypesOf(r)
    ensures p.tipo == (if |p.types| > 0 then Some(p.types[0]) else None)
    ensures p.rating.None? <==> !Has(r, "rating")
    ensures p.userRatingsTotal == NumberOrZero(r, "user_ratings_total") && p.priceLevel == OptionalInt(r, "price_level")
    ensures p.openNow == AsBoolean(PathOf(Path(r, "opening_hours"), "open_now"), false)
    ensures p.placeId == SafeText(r, "place_id") && p.name == SafeText(r, "name")
  {
    var types := TypesOf(r);
    var location := PathOf(Path(r, "geometry"), "location");
    GooglePlace(
      SafeText(r, "place_id"), SafeText(r, "name"), SafeText(r, "formatted_address"),
      AsNumber(PathOf(location, "lat")), AsNumber(PathOf(location, "lng")),
      OptionalNumber(r, "rating"), NumberOrZero(r, "user_ratings_total"), OptionalInt(r, "price_level"),
      AsBoolean(PathOf(Path(r, "opening_hours"), "open_now"), false),
      FirstPhotoRef(r),
      if |types| > 0 then Some(types[0]) else None,
      types)
  }

  predicate Kept(r: Json) {
    IsGastronomic(TypesOf(r))
  }

  /** The results loop: gastronomic results decoded, in order, the others
      skipped. */
  function DecodeResults(rs: seq<Json>): (out: seq<GooglePlace>)
    ensures |out| <= |rs|
    ensures forall i :: 0 <= i < |out| ==> IsGastronomic(out[i].types)
    ensures forall i :: 0 <= i < |rs| && Kept(rs[i]) ==> DecodeResult(rs[i]) in out
  {
    FilterMap(rs, Kept, DecodeResult)
  }

  /** The decoded results are the kept raw results, decoded one by one in
      response order. */
  lemma DecodeResultsInOrder(rs: seq<Json>)
    ensures exists kept ::
      && IsSubsequence(kept, rs)
      && (forall i :: 0 <= i < |kept| ==> Kept(kept[i]))
      && DecodeResults(rs) == MapSeq(kept, DecodeResult)
  {
    FilterIsSubsequence(rs, Kept);
    var kept := Filter(rs, Kept);
    assert forall i :: 0 <= i < |kept| ==> Kept(kept[i]);
  }

  /** searchPlaces: nothing without a key, without a body or unless the
      status is "OK"; otherwise the gastronomic results. */
  function SearchPlaces(apiKey: Option<string>, response: Option<Json>): (out: seq<GooglePlace>)
    ensures !KeyConfigured(apiKey) || response.None? ==> out == []
    ensures response.Some? && !StatusOk(response.value) ==> out == []
    ensures forall i :: 0 <= i < |out| ==> IsGastronomic(out[i].types)
    ensures KeyConfigured(apiKey) && response.Some? && StatusOk(response.value) ==>
      out == (if Has(response.value, "results") then DecodeResults(Children(Path(response.value, "results").value)) else [])
  {
    if !KeyConfigured(apiKey) || response.None? then []
    else
      var root := response.value;
      if !StatusOk(root) then []
      else if Has(root, "results") then DecodeResults(Children(Path(root, "results").value))
      else []
  }

  /** A result whose only types are not gastronomic never reaches the
      caller, and one with a gastronomic type always does. */
  lemma SearchKeepsExactlyGastronomic(apiKey: Option<string>, root: Json, i: nat)
    requires KeyConfigured(apiKey) && StatusOk(root) && Has(root, "results")
    requires i < |Children(Path(root, "results").value)|
    ensures Kept(Children(Path(root, "results").value)[i]) ==>
      DecodeResult(Children(Path(root, "results").value)[i]) in SearchPlaces(apiKey, Some(root))
    ensures !Kept(Children(Path(root, "results").value)[i]) ==>
      forall p :: p in SearchPlaces(apiKey, Some(root)) ==> p.types != TypesOf(Children(Path(root, "results").value)[i])
  {
  }

  /** Whether logging the details' price level throws: "€".repeat refuses
      a negative count (including a value that asInt() wrapped below zero),
      and the surrounding catch turns that into null. */
  predicate NegativePriceLevel(result: Json) {
    OptionalInt(result, "price_level").Some? && OptionalInt(result, "price_level").value < 0
  }

  /** getPlaceDetails: null without a key, without a body, unless the status
      is "OK", without a "result" member, or when the result's price level
      is negative (the log line that repeats "€" throws); otherwise the
      decoded details. Coordinates are set only with a "geometry" member,
      openNow only with "opening_hours". */
  function GetPlaceDetails(apiKey: Option<string>, placeId: string, response: Option<Json>): (d: Option<PlaceDetails>)
    ensures d.Some? <==>
      && KeyConfigured(apiKey) && response.Some? && StatusOk(response.value) && Has(response.value, "result")
      && !NegativePriceLevel(Path(response.value, "result").value)
    ensures d.Some? ==>
      var result := Path(response.value, "result").value;
      && d.value.placeId == placeId
      && d.value.name == SafeText(result, "name")
      && d.value.formattedAddress == SafeText(result, "formatted_address")
      && d.value.lat == (if Has(result, "geometry") then Some(AsNumber(PathOf(PathOf(Path(result, "geometry"), "location"), "lat"))) else None)
      && d.value.lng == (if Has(result, "geometry") then Some(AsNumber(PathOf(PathOf(Path(result, "geometry"), "location"), "lng"))) else None)
      && d.value.openNow == (if Has(result, "opening_hours") then Some(AsBoolean(PathOf(Path(result, "opening_hours"), "open_now"), false)) else None)
      && d.value.rating == OptionalNumber(result, "rating")
      && d.value.userRatingsTotal == NumberOrZero(result, "user_ratings_total")
      && d.value.priceLevel == OptionalInt(result, "price_level")
      && (d.value.priceLevel.Some? ==> d.value.priceLevel.value >= 0)
      && d.value.photoRef == FirstPhotoRef(result)
      && d.value.tipo == (if HasNonEmptyArray(result, "types") then Some(AsText(Some(Path(result, "types").value.items[0]))) else None)
      && d.value.phoneNumber == SafeText(result, "formatted_phone_number")
      && d.value.website == SafeText(result, "website")
  {
    if !KeyConfigured(apiKey) || response.None? then None
    else
      var root := response.value;
      if !StatusOk(root) then None
      else
        match Path(root, "result")
        case None => None
        case Some(result) =>
          if NegativePriceLevel(result) then None
          else
            var geometry := Path(result, "geometry");
            var location := PathOf(geometry, "location");
            var hours := Path(result, "opening_hours");
            Some(PlaceDetails(
              placeId,
              SafeText(result, "name"),
              SafeText(result, "formatted_address"),
              if geometry.Some? then Some(AsNumber(PathOf(location, "lat"))) else None,
              if geometry.Some? then Some(AsNumber(PathOf(location, "lng"))) else None,
              OptionalNumber(result, "rating"),
              NumberOrZero(result, "user_ratings_total"),
              OptionalInt(result, "price_level"),
              if hours.Some? then Some(AsBoolean(PathOf(hours, "open_now"), false)) else None,
              FirstPhotoRef(result),
              if HasNonEmptyArray(result, "types") then Some(AsText(Some(Path(result, "types").value.items[0]))) else None,
              SafeText(result, "formatted_phone_number"),
              SafeText(result, "website")))
  }

  /** A price level of 2^31 reads as -2^31 through asInt(), so logging it
      throws and the details come back null. */
  lemma WrappedPriceLevelGivesNull(apiKey: Option<string>, placeId: string, root: Json)
    requires KeyConfigured(apiKey) && StatusOk(root) && Has(root, "result")
    requires Path(Path(root, "result").value, "price_level") == Some(JNum(0x8000_0000))
    ensures GetPlaceDetails(apiKey, placeId, Some(root)).None?
  {
    assert ToInt32(0x8000_0000) == -0x8000_0000;
  }

  /** The details of a place say what a text search would have said of the
      same result object: name, address, rating, count, price, photo and
      type agree, and so do coordinates and openNow wherever the details
      carry them. */
  lemma DetailsAgreeWithSearch(apiKey: Option<string>, placeId: string, root: Json)
    requires GetPlaceDetails(apiKey, placeId, Some(root)).Some?
    ensures
      var d := GetPlaceDetails(apiKey, placeId, Some(root)).value;
      var p := DecodeResult(Path(root, "result").value);
      && d.name == p.name && d.formattedAddress == p.formattedAddress
      && d.rating == p.rating && d.userRatingsTotal == p.userRatingsTotal
      && d.priceLevel == p.priceLevel && d.photoRef == p.photoRef && d.tipo == p.tipo
      && (d.lat.Some? ==> d.lat.value == p.lat && d.lng.value == p.lng)
      && (d.openNow.Some? ==> d.openNow.value == p.openNow)
  {
    var result := Path(root, "result").value;
    var types := TypesOf(result);
    if HasNonEmptyArray(result, "types") {
      assert types[0] == AsText(Some(Path(result, "types").value.items[0]));
    }
  }
}

=== FILE: profile.dfy ===
/** The profile endpoints under /api/users/me: reading the caller's own
    account and updating its name, email and password. */
module UserController {
  import opened Base
  import opened JavaString
  import opened Entities
  import opened UserDetailsService

  /** The role as the profile shows it: every "ROLE_" erased. */
  function CleanRole(role: string): (r: string)
    ensures |r| <= |role|
    ensures !Contains(role, "ROLE_") ==> r == role
  {
    EraseShortens(role, "ROLE_");
    ReplaceAbsent(role, "ROLE_", "");
    ReplaceAll(role, "ROLE_", "")
  }

  /** The profile shows the role behind the caller's authority: for any
      role not containing "ROLE_" itself, cleaning the granted authority
      gives the role back. */
  lemma CleanRoleOfAuthority(role: string)
    requires !Contains(role, "ROLE_")
    ensures CleanRole(Authority(role)) == role
  {
    var a := Authority(role);
    assert a == "ROLE_" + role;
    assert "ROLE_" <= a;
    assert a[5..] == role;
    assert ReplaceAll(a, "ROLE_", "") == ReplaceAll(role, "ROLE_", "");
    ReplaceAbsent(role, "ROLE_", "");
  }

  datatype Profile = Profile(id: nat, nombre: string, email: string, role: string)

  datatype ProfileAnswer = ProfileAnswer(status: int, profile: Option<Profile>)

  /** GET /api/users/me: 401 for an anonymous caller, 500 when the account
      is gone, else the account with its cleaned role. */
  function GetCurrentUser(auth: Auth, users: seq<User>): (r: ProfileAnswer)
    ensures r.status in {OK, UNAUTHORIZED, SERVER_ERROR}
    ensures r.status == UNAUTHORIZED <==> auth.Anonymous?
    ensures r.status == SERVER_ERROR <==> auth.Authenticated? && UserByEmail(users, auth.name).None?
    ensures r.profile.Some? <==> r.status == OK
    ensures r.status == OK ==>
      exists k :: 0 <= k < |users| && users[k].email == auth.name &&
        r.profile.value == Profile(users[k].id, users[k].nombre, auth.name, CleanRole(users[k].role))
  {
    match auth
    case Anonymous => ProfileAnswer(UNAUTHORIZED, None)
    case Authenticated(email) =>
      match UserByEmail(users, email)
      case None => ProfileAnswer(SERVER_ERROR, None)
      case Some(k) =>
        var u := users[k];
        ProfileAnswer(OK, Some(Profile(u.id, u.nombre, u.email, CleanRole(u.role))))
  }

  datatype UpdateUserDto = UpdateUserDto(
    nombre: Option<string>,
    email: Option<string>,
    currentPassword: Option<string>,
    newPassword: Option<string>)

  /** A field the request asks to change: present and not blank. */
  predicate Provided(field: Option<string>) {
    field.Some? && !IsBlank(field.value)
  }

  datatype UpdatedProfile = UpdatedProfile(id: nat, nombre: string, email: string, emailChanged: bool)

  datatype UpdateAnswer = UpdateAnswer(status: int, profile: Option<UpdatedProfile>, db: Db)

  /** Whether replacing row `k` by `u` keeps the unique name and email
      columns; the save throws otherwise. */
  predicate Savable(users: seq<User>, k: nat, u: User) {
    forall j :: 0 <= j < |users| && j != k ==> users[j].nombre != u.nombre && users[j].email != u.email
  }

  /** Whether the request asks for a different email. */
  predicate WantsEmail(dto: UpdateUserDto, u: User) {
    Provided(dto.email) && dto.email.value != u.email
  }

  /** Whether the requested new email already belongs to an account. */
  predicate EmailTaken(dto: UpdateUserDto, u: User, users: seq<User>) {
    WantsEmail(dto, u) && UserByEmail(users, dto.email.value).Some?
  }

  /** Whether a password change is asked for without the right current
      password. */
  predicate PasswordRefused(dto: UpdateUserDto, u: User, enc: Encoder) {
    Provided(dto.newPassword) && (dto.currentPassword.None? || !enc.matches(dto.currentPassword.value, u.password))
  }

  /** The row with every requested change applied. */
  function Updated(u: User, dto: UpdateUserDto, enc: Encoder): (v: User)
    ensures v.id == u.id && v.role == u.role && v.banned == u.banned && v.canReview == u.canReview
    ensures v.nombre == (if Provided(dto.nombre) then dto.nombre.value else u.nombre)
    ensures v.email == (if WantsEmail(dto, u) then dto.email.value else u.email)
    ensures v.password == (if Provided(dto.newPassword) then enc.encode(dto.newPassword.value) else u.password)
  {
    var u1 := if Provided(dto.nombre) then u.(nombre := dto.nombre.value) else u;
    var u2 := if WantsEmail(dto, u) then u1.(email := dto.email.value) else u1;
    if Provided(dto.newPassword) then u2.(password := enc.encode(dto.newPassword.value)) else u2
  }

  /** PUT /api/users/me. The checks run in the source's order; a refusal
      returns before the single save, so the store is only written on 200. */
  function UpdateCurrentUser(auth: Auth, dto: UpdateUserDto, enc: Encoder, db: Db): (r: UpdateAnswer)
    ensures r.status in {OK, BAD_REQUEST, UNAUTHORIZED, SERVER_ERROR}
    ensures r.status != OK ==> r.db == db && r.profile.None?
    ensures r.status == UNAUTHORIZED <==> auth.Anonymous?
    ensures auth.Authenticated? && UserByEmail(db.users, auth.name).None? ==> r.status == SERVER_ERROR
    ensures r.status == BAD_REQUEST <==>
      && auth.Authenticated? && UserByEmail(db.users, auth.name).Some?
      && var u := db.users[UserByEmail(db.users, auth.name).value];
         EmailTaken(dto, u, db.users) || PasswordRefused(dto, u, enc)
    ensures r.status == OK <==>
      && auth.Authenticated? && UserByEmail(db.users, auth.name).Some?
      && var k := UserByEmail(db.users, auth.name).value;
         var u := db.users[k];
         && !EmailTaken(dto, u, db.users) && !PasswordRefused(dto, u, enc)
         && Savable(db.users, k, Updated(u, dto, enc))
    ensures r.status == OK ==>
      && auth.Authenticated? && UserByEmail(db.users, auth.name).Some?
      && var k := UserByEmail(db.users, auth.name).value;
         var u := db.users[k];
         && r.db == db.(users := db.users[k := Updated(u, dto, enc)])
         && r.profile == Some(UpdatedProfile(u.id, Updated(u, dto, enc).nombre, Updated(u, dto, enc).email, WantsEmail(dto, u)))
         && (WantsEmail(dto, u) ==> forall j :: 0 <= j < |db.users| ==> db.users[j].email != dto.email.value)
         && (Provided(dto.newPassword) ==> dto.currentPassword.Some? && enc.matches(dto.currentPassword.value, u.password))
  {
    match auth
    case Anonymous => UpdateAnswer(UNAUTHORIZED, None, db)
    case Authenticated(email) =>
      match UserByEmail(db.users, email)
      case None => UpdateAnswer(SERVER_ERROR, None, db)
      case Some(k) =>
        var u := db.users[k];
        if EmailTaken(dto, u, db.users) then
          UpdateAnswer(BAD_REQUEST, None, db)
        else if PasswordRefused(dto, u, enc) then
          UpdateAnswer(BAD_REQUEST, None, db)
        else
          var v := Updated(u, dto, enc);
          if !Savable(db.users, k, v) then UpdateAnswer(SERVER_ERROR, None, db)
          else UpdateAnswer(OK, Some(UpdatedProfile(v.id, v.nombre, v.email, WantsEmail(dto, u))), db.(users := db.users[k := v]))
  }

  /** The password only ever changes on a request that proves the current
      one: an update that stores a different password was given a new
      password and a current password the encoder accepts. */
  lemma PasswordNeedsCurrent(auth: Auth, dto: UpdateUserDto, enc: Encoder, db: Db)
    requires UpdateCurrentUser(auth, dto, enc, db).status == OK
    ensures
      var k := UserByEmail(db.users, auth.name).value;
      UpdateCurrentUser(auth, dto, enc, db).db.users[k].password != db.users[k].password ==>
        dto.newPassword.Some? && dto.currentPassword.Some? && enc.matches(dto.currentPassword.value, db.users[k].password)
  {
  }

  /** A profile update keeps the unique constraints, and touches no other
      account. */
  lemma {:induction false} UpdateKeepsUsersWellFormed(auth: Auth, dto: UpdateUserDto, enc: Encoder, db: Db)
    requires UsersWellFormed(db.users)
    requires UpdateCurrentUser(auth, dto, enc, db).status == OK
    ensures UsersWellFormed(UpdateCurrentUser(auth, dto, enc, db).db.users)
    ensures forall j :: 0 <= j < |db.users| && db.users[j].email != auth.name ==>
      UpdateCurrentUser(auth, dto, enc, db).db.users[j] == db.users[j]
  {
    var k := UserByEmail(db.users, auth.name).value;
    var v := Updated(db.users[k], dto, enc);
    var users' := db.users[k := v];
    assert Savable(db.users, k, v);
    forall i, j | 0 <= i < j < |users'|
      ensures users'[i].id != users'[j].id && users'[i].email != users'[j].email && users'[i].nombre != users'[j].nombre
    {
      assert v.id == db.users[k].id;
    }
  }

  /** Reading the profile after a successful update, under the email the
      update answered with, shows the new name and email of the same
      account. */
  lemma UpdatedProfileIsRead(auth: Auth, dto: UpdateUserDto, enc: Encoder, db: Db)
    requires UsersWellFormed(db.users)
    requires UpdateCurrentUser(auth, dto, enc, db).status == OK
    ensures
      var r := UpdateCurrentUser(auth, dto, enc, db);
      var p := r.profile.value;
      var k := UserByEmail(db.users, auth.name).value;
      GetCurrentUser(Authenticated(p.email), r.db.users)
        == ProfileAnswer(OK, Some(Profile(p.id, p.nombre, p.email, CleanRole(db.users[k].role))))
  {
    var r := UpdateCurrentUser(auth, dto, enc, db);
    var k := UserByEmail(db.users, auth.name).value;
    var v := Updated(db.users[k], dto, enc);
    UpdateKeepsUsersWellFormed(auth, dto, enc, db);
    assert r.db.users[k] == v;
    UserByEmailUnique(r.db.users, v.email, k);
  }
}

=== FILE: review_replies.dfy ===
/** Replies to reviews: the service that validates and stores a reply and
    notifies the review's author, the listing of a review's replies, and
    the controller that guards the service. The clock is a parameter;
    replies are stored in creation order. */
module ReviewReplyService {
  import opened Base
  import opened JavaString
  import opened Entities
  import opened ReplyNotificationService

  const MIN_CONTENT := 2
  const MAX_CONTENT := 2000

  /** The content checks, in UTF-16 code units as String.length counts:
      at least two once trimmed, at most 2000 before trimming; the stored
      text is the trimmed one. */
  function ValidateContent(content: Option<string>): (r: Result<string>)
    ensures r.Ok? <==>
      content.Some? && Utf16Length(Trim(content.value)) >= MIN_CONTENT && Utf16Length(content.value) <= MAX_CONTENT
    ensures r.Ok? ==> r.value == Trim(content.value) && MIN_CONTENT <= Utf16Length(r.value) <= MAX_CONTENT
    ensures r.Ok? ==> |r.value| > 0 && !Trimmable(r.value[0]) && !Trimmable(r.value[|r.value| - 1])
    ensures content.None? || Utf16Length(Trim(content.value)) < MIN_CONTENT ==> r == Err("La respuesta es demasiado corta")
    ensures content.Some? && Utf16Length(Trim(content.value)) >= MIN_CONTENT && Utf16Length(content.value) > MAX_CONTENT ==>
      r == Err("La respuesta excede el límite permitido")
  {
    if content.None? || Utf16Length(Trim(content.value)) < MIN_CONTENT then Err("La respuesta es demasiado corta")
    else if Utf16Length(content.value) > MAX_CONTENT then Err("La respuesta excede el límite permitido")
    else
      TrimUtf16Length(content.value);
      Ok(Trim(content.value))
  }

  /** Stored replies pass the checks again unchanged. */
  lemma ValidContentIsStable(content: Option<string>)
    requires ValidateContent(content).Ok?
    ensures ValidateContent(Some(ValidateContent(content).value)) == ValidateContent(content)
  {
    TrimIdempotent(content.value);
  }

  datatype ReplyDto = ReplyDto(
    replyId: nat,
    reviewId: nat,
    authorId: nat,
    authorName: string,
    content: string,
    createdAt: Timestamp,
    authorAvatarUrl: Option<string>)

  /** mapToDto: a missing author shows as "Usuario" without avatar. */
  function MapToDto(reply: ReviewReply, author: Option<User>): (d: ReplyDto)
    ensures d.replyId == reply.id && d.reviewId == reply.reviewId && d.authorId == reply.authorId
    ensures d.content == reply.content && d.createdAt == reply.createdAt
    ensures author.None? ==> d.authorName == "Usuario" && d.authorAvatarUrl.None?
    ensures author.Some? ==> d.authorName == author.value.nombre && d.authorAvatarUrl == author.value.profileImageUrl
  {
    ReplyDto(reply.id, reply.reviewId, reply.authorId,
             if author.Some? then author.value.nombre else "Usuario",
             reply.content, reply.createdAt,
             if author.Some? then author.value.profileImageUrl else None)
  }

  function ReplyId(r: ReviewReply): nat { r.id }

  /** Whether the author may reply: not banned and explicitly allowed. */
  predicate MayReply(u: User) {
    u.banned != Some(true) && u.canReview == Some(true)
  }

  /** createReply. The method is transactional and throws only before the
      reply is saved, so a failure leaves the store as it was. */
  function CreateReply(reviewId: nat, content: Option<string>, authorId: nat, now: Timestamp, notifiedAt: Timestamp, db: Db): (r: Result<(ReplyDto, Db)>)
    ensures r.Ok? <==>
      && ValidateContent(content).Ok?
      && ReviewById(db.reviews, reviewId).Some?
      && UserById(db.users, authorId).Some?
      && MayReply(db.users[UserById(db.users, authorId).value])
    ensures r.Ok? ==>
      var text := ValidateContent(content).value;
      var reply := ReviewReply(NextId(db.replies, ReplyId), reviewId, authorId, text, now);
      var review := db.reviews[ReviewById(db.reviews, reviewId).value];
      var author := db.users[UserById(db.users, authorId).value];
      var local := if PlaceById(db.places, review.localId).Some? then Some(db.places[PlaceById(db.places, review.localId).value]) else None;
      && r.value.0 == MapToDto(reply, Some(author))
      && r.value.1 == db.(replies := db.replies + [reply],
                          notifications := NotifyReviewAuthor(Some(review), Some(reply), Some(author), local, notifiedAt, db.notifications))
  {
    match ValidateContent(content)
    case Err(m) => Err(m)
    case Ok(text) =>
      match ReviewById(db.reviews, reviewId)
      case None => Err("Reseña no encontrada")
      case Some(ri) =>
        match UserById(db.users, authorId)
        case None => Err("Usuario no encontrado")
        case Some(ai) =>
          var author := db.users[ai];
          if author.banned == Some(true) then Err("Tu cuenta ha sido suspendida")
          else if author.canReview != Some(true) then Err("No tienes permisos para responder reseñas")
          else
            var review := db.reviews[ri];
            var reply := ReviewReply(NextId(db.replies, ReplyId), reviewId, authorId, text, now);
            var local := match PlaceById(db.places, review.localId)
              case None => None
              case Some(li) => Some(db.places[li]);
            var notifications := NotifyReviewAuthor(Some(review), Some(reply), Some(author), local, notifiedAt, db.notifications);
            Ok((MapToDto(reply, Some(author)), db.(replies := db.replies + [reply], notifications := notifications)))
  }

  /** A reply is announced to the review's author exactly when the replier
      is someone else (or the author is unknown); users, places, reviews
      and history are untouched. */
  lemma {:induction false} ReplyNotifiesIffOtherAuthor(reviewId: nat, content: Option<string>, authorId: nat, now: Timestamp, notifiedAt: Timestamp, db: Db)
    requires CreateReply(reviewId, content, authorId, now, notifiedAt, db).Ok?
    ensures
      var db' := CreateReply(reviewId, content, authorId, now, notifiedAt, db).value.1;
      var review := db.reviews[ReviewById(db.reviews, reviewId).value];
      && db'.users == db.users && db'.places == db.places && db'.reviews == db.reviews && db'.history == db.history
      && db'.favorites == db.favorites
      && |db'.replies| == |db.replies| + 1
      && (|db'.notifications| == |db.notifications| + 1 <==> review.userId != Some(authorId))
      && (review.userId == Some(authorId) ==> db'.notifications == db.notifications)
  {
    var ai := UserById(db.users, authorId).value;
    assert db.users[ai].id == authorId;
  }

  /** Whether a reply answers review `reviewId`. */
  function RepliesOf(reviewId: nat): ReviewReply -> bool {
    (x: ReviewReply) => x.reviewId == reviewId
  }

  /** The author row of a reply, if the account still exists. */
  function AuthorOf(users: seq<User>, authorId: nat): (a: Option<User>)
    ensures a.Some? <==> UserById(users, authorId).Some?
    ensures a.Some? ==> a.value in users && a.value.id == authorId
  {
    match UserById(users, authorId)
    case None => None
    case Some(k) => Some(users[k])
  }

  /** getReplies: a review's replies in creation order, each with its
      author's name and avatar. */
  function GetReplies(reviewId: nat, db: Db): (r: seq<ReplyDto>)
    ensures |r| == |Filter(db.replies, RepliesOf(reviewId))| <= |db.replies|
    ensures forall i :: 0 <= i < |r| ==>
      var reply := Filter(db.replies, RepliesOf(reviewId))[i];
      r[i] == MapToDto(reply, AuthorOf(db.users, reply.authorId)) && reply in db.replies
    ensures forall i :: 0 <= i < |r| ==> r[i].reviewId == reviewId
  {
    var replies := Filter(db.replies, RepliesOf(reviewId));
    seq(|replies|, i requires 0 <= i < |replies| => MapToDto(replies[i], AuthorOf(db.users, replies[i].authorId)))
  }

  /** Creating a reply extends its review's listing by exactly the new
      reply, and leaves every other review's listing as it was. */
  lemma {:induction false} CreatedReplyIsListed(reviewId: nat, content: Option<string>, authorId: nat, now: Timestamp, notifiedAt: Timestamp, db: Db)
    requires CreateReply(reviewId, content, authorId, now, notifiedAt, db).Ok?
    ensures
      var (dto, db') := CreateReply(reviewId, content, authorId, now, notifiedAt, db).value;
      GetReplies(reviewId, db') == GetReplies(reviewId, db) + [dto]
    ensures
      var db' := CreateReply(reviewId, content, authorId, now, notifiedAt, db).value.1;
      forall other :: other != reviewId ==> GetReplies(other, db') == GetReplies(other, db)
  {
    var (dto, db') := CreateReply(reviewId, content, authorId, now, notifiedAt, db).value;
    var reply := db'.replies[|db.replies|];
    assert db'.replies == db.replies + [reply];
    FilterAppend(db.replies, [reply], RepliesOf(reviewId));
    assert Filter([reply], RepliesOf(reviewId)) == [reply];
    var ai := UserById(db.users, authorId).value;
    assert db'.users == db.users;
    assert AuthorOf(db'.users, reply.authorId) == Some(db.users[ai]);
    forall other | other != reviewId
      ensures GetReplies(other, db') == GetReplies(other, db)
    {
      FilterAppend(db.replies, [reply], RepliesOf(other));
      assert Filter([reply], RepliesOf(other)) == [];
    }
  }

  datatype ReplyAnswer = ReplyAnswer(status: int, reply: Option<ReplyDto>, message: Option<string>, db: Db)

  /** POST /api/reviews/{reviewId}/replies: 401 without authentication; 403
      for a banned caller or one without review permission (in that order);
      the service's failures, including an unknown caller, are 400; success
      is 201 with the reply. */
  function CreateReplyEndpoint(auth: Auth, reviewId: nat, content: Option<string>, now: Timestamp, notifiedAt: Timestamp, db: Db): (r: ReplyAnswer)
    ensures r.status in {CREATED, BAD_REQUEST, UNAUTHORIZED, FORBIDDEN}
    ensures r.status != CREATED ==> r.db == db && r.reply.None?
    ensures r.status == UNAUTHORIZED <==> auth.Anonymous?
    ensures r.status == FORBIDDEN <==>
      auth.Authenticated? && UserByEmail(db.users, auth.name).Some? && !MayReply(db.users[UserByEmail(db.users, auth.name).value])
    ensures r.status == FORBIDDEN && db.users[UserByEmail(db.users, auth.name).value].banned == Some(true) ==>
      r.message == Some("Tu cuenta ha sido suspendida")
    ensures r.status == CREATED ==>
      && auth.Authenticated? && UserByEmail(db.users, auth.name).Some?
      && var caller := db.users[UserByEmail(db.users, auth.name).value];
         CreateReply(reviewId, content, caller.id, now, notifiedAt, db).Ok?
         && r.reply == Some(CreateReply(reviewId, content, caller.id, now, notifiedAt, db).value.0)
         && r.db == CreateReply(reviewId, content, caller.id, now, notifiedAt, db).value.1
  {
    match auth
    case Anonymous => ReplyAnswer(UNAUTHORIZED, None, Some("Debes iniciar sesión"), db)
    case Authenticated(email) =>
      match UserByEmail(db.users, email)
      case None => ReplyAnswer(BAD_REQUEST, None, Some("Usuario no encontrado"), db)
      case Some(k) =>
        var user := db.users[k];
        if user.banned == Some(true) then ReplyAnswer(FORBIDDEN, None, Some("Tu cuenta ha sido suspendida"), db)
        else if user.canReview != Some(true) then ReplyAnswer(FORBIDDEN, None, Some("No tienes permisos para responder"), db)
        else
          match CreateReply(reviewId, content, user.id, now, notifiedAt, db)
          case Err(m) => ReplyAnswer(BAD_REQUEST, None, Some(m), db)
          case Ok((dto, db')) => ReplyAnswer(CREATED, Some(dto), None, db')
  }

  /** With unique user ids, the service's own ban and permission checks
      never fire behind the controller: an allowed caller with valid
      content replying to an existing review always gets 201. */
  lemma ControllerAdmitsValidReplies(auth: Auth, reviewId: nat, content: Option<string>, now: Timestamp, notifiedAt: Timestamp, db: Db)
    requires UsersWellFormed(db.users)
    requires auth.Authenticated? && UserByEmail(db.users, auth.name).Some?
    requires MayReply(db.users[UserByEmail(db.users, auth.name).value])
    requires ValidateContent(content).Ok? && ReviewById(db.reviews, reviewId).Some?
    ensures CreateReplyEndpoint(auth, reviewId, content, now, notifiedAt, db).status == CREATED
  {
    var k := UserByEmail(db.users, auth.name).value;
    UserByIdUnique(db.users, db.users[k].id, k);
  }
}

=== FILE: search_history.dfy ===
/** The per-user search history: saving a search term, reading back the
    most recent distinct terms (at most ten), and clearing one's own
    history. Every endpoint needs an authenticated caller; a caller without
    a user row makes the lookup throw, which the endpoint answers with 500. */
module SearchHistoryController {
  import opened Base
  import opened JavaString
  import opened Entities

  /** An answer carrying only a message, and the store afterwards. */
  datatype HistoryAnswer = HistoryAnswer(status: int, message: string, db: Db)

  const EMPTY_TERM := "El término de búsqueda no puede estar vacío"

  /** The history with one more entry for `userId` at the end. */
  function Recorded(db: Db, userId: nat, term: string, now: Timestamp): (d: Db)
    ensures |d.history| == |db.history| + 1 && d.history[..|db.history|] == db.history
    ensures d.history[|db.history|] == SearchEntry(userId, term, now)
    ensures d.(history := db.history) == db
  {
    db.(history := db.history + [SearchEntry(userId, term, now)])
  }

  /** saveSearch as the controller is written: the term is checked with
      isBlank but stored trimmed. A term made only of control characters
      that are not whitespace (U+0000..U+0008, U+000E..U+001B) is not blank,
      yet trims to the empty string, which is then saved. */
  function SaveSearchAsWritten(auth: Auth, term: Option<string>, now: Timestamp, db: Db): (r: HistoryAnswer)
    ensures auth.Anonymous? ==> r.status == UNAUTHORIZED
    ensures auth.Authenticated? && UserByEmail(db.users, auth.name).None? ==> r.status == SERVER_ERROR
    ensures r.status == OK <==>
      auth.Authenticated? && UserByEmail(db.users, auth.name).Some? && term.Some? && !IsBlank(term.value)
    ensures r.status != OK ==> r.db == db
    ensures r.status == OK ==>
      r.db == Recorded(db, db.users[UserByEmail(db.users, auth.name).value].id, Trim(term.value), now)
  {
    match auth
    case Anonymous => HistoryAnswer(UNAUTHORIZED, "No autenticado", db)
    case Authenticated(email) =>
      match UserByEmail(db.users, email)
      case None => HistoryAnswer(SERVER_ERROR, "Error al guardar búsqueda", db)
      case Some(k) =>
        if term.None? || IsBlank(term.value) then HistoryAnswer(BAD_REQUEST, EMPTY_TERM, db)
        else HistoryAnswer(OK, "Búsqueda guardada", Recorded(db, db.users[k].id, Trim(term.value), now))
  }

  /** The discrepancy: a known caller searching for "\u0001" gets 200 and an
      empty search term is stored. */
  lemma AsWrittenSavesEmptyTerm(now: Timestamp)
    ensures
      var db := Db([NewUser(1, "ana", "ana@example.com", "hash")], [], [], [], [], [], []);
      var r := SaveSearchAsWritten(Authenticated("ana@example.com"), Some("\U{1}"), now, db);
      r.status == OK && r.db.history == [SearchEntry(1, "", now)]
  {
    var t := "\U{1}";
    assert !IsWhitespace(t[0]);
    assert !IsBlank(t);
    assert TrimStart(t[1..]) == [];
    assert Trim(t) == [];
  }

  /** saveSearch with the check the trimming calls for: a null or blank
      term is refused as before, and so is one that trims to nothing. */
  function SaveSearch(auth: Auth, term: Option<string>, now: Timestamp, db: Db): (r: HistoryAnswer)
    ensures auth.Anonymous? ==> r.status == UNAUTHORIZED
    ensures auth.Authenticated? && UserByEmail(db.users, auth.name).None? ==> r.status == SERVER_ERROR
    ensures r.status == OK <==>
      && auth.Authenticated? && UserByEmail(db.users, auth.name).Some? && term.Some?
      && !IsBlank(term.value) && Trim(term.value) != []
    ensures r.status != OK ==> r.db == db
    ensures r.status == OK ==>
      var user := db.users[UserByEmail(db.users, auth.name).value];
      && r.db == Recorded(db, user.id, Trim(term.value), now)
      && r.db.history[|db.history|].term != []
  {
    match auth
    case Anonymous => HistoryAnswer(UNAUTHORIZED, "No autenticado", db)
    case Authenticated(email) =>
      match UserByEmail(db.users, email)
      case None => HistoryAnswer(SERVER_ERROR, "Error al guardar búsqueda", db)
      case Some(k) =>
        if term.None? || IsBlank(term.value) || Trim(term.value) == [] then HistoryAnswer(BAD_REQUEST, EMPTY_TERM, db)
        else HistoryAnswer(OK, "Búsqueda guardada", Recorded(db, db.users[k].id, Trim(term.value), now))
  }

  /** The correction only removes the faulty case: whenever the written
      endpoint does not store an empty term, both answer alike. */
  lemma {:induction false} SaveSearchAgreesWithAsWritten(auth: Auth, term: Option<string>, now: Timestamp, db: Db)
    requires var w := SaveSearchAsWritten(auth, term, now, db);
      w.status != OK || w.db.history[|db.history|].term != []
    ensures SaveSearch(auth, term, now, db) == SaveSearchAsWritten(auth, term, now, db)
  {
    var w := SaveSearchAsWritten(auth, term, now, db);
    if w.status == OK {
      assert w.db.history[|db.history|].term == Trim(term.value);
    }
  }

  /** Both versions refuse a term of ideographic spaces: it is blank,
      although trimming keeps it. */
  lemma BothRefuseUnicodeBlank(auth: Auth, now: Timestamp, db: Db)
    requires auth.Authenticated? && UserByEmail(db.users, auth.name).Some?
    ensures SaveSearchAsWritten(auth, Some("\U{3000}"), now, db).status == BAD_REQUEST
    ensures SaveSearch(auth, Some("\U{3000}"), now, db).status == BAD_REQUEST
  {
    BlankAndTrimDisagree();
  }

  /** Every term in the history is non-empty. */
  ghost predicate TermsNonEmpty(history: seq<SearchEntry>) {
    forall i :: 0 <= i < |history| ==> history[i].term != []
  }

  /** The corrected endpoint keeps the history free of empty terms. */
  lemma SaveSearchKeepsTermsNonEmpty(auth: Auth, term: Option<string>, now: Timestamp, db: Db)
    requires TermsNonEmpty(db.history)
    ensures TermsNonEmpty(SaveSearch(auth, term, now, db).db.history)
  {
    var r := SaveSearch(auth, term, now, db);
    if r.status == OK {
      forall i | 0 <= i < |r.db.history| ensures r.db.history[i].term != [] {
        if i < |db.history| {
          assert r.db.history[i] == r.db.history[..|db.history|][i];
        }
      }
    }
  }

  const HISTORY_MAX := 10

  /** GET answer: the terms on success, a message otherwise. */
  datatype TermsAnswer = TermsAnswer(status: int, terms: seq<string>, message: string)

  /** getSearchHistory. `recent(id)` is the repository's list of distinct
      terms of user `id`, most recent first, or None when the query fails
      (the exception the endpoint answers with 500); the endpoint keeps the
      first ten. */
  function GetSearchHistory(auth: Auth, users: seq<User>, recent: nat -> Option<seq<string>>): (r: TermsAnswer)
    ensures auth.Anonymous? ==> r.status == UNAUTHORIZED && r.terms == []
    ensures r.status == OK <==>
      auth.Authenticated? && UserByEmail(users, auth.name).Some? && recent(users[UserByEmail(users, auth.name).value].id).Some?
    ensures r.status != OK ==> r.terms == []
    ensures auth.Authenticated? && r.status != OK ==> r.status == SERVER_ERROR
    ensures r.status == OK ==>
      var listed := recent(users[UserByEmail(users, auth.name).value].id).value;
      && |r.terms| <= HISTORY_MAX
      && r.terms <= listed
      && (|listed| <= HISTORY_MAX ==> r.terms == listed)
      && (|listed| > HISTORY_MAX ==> |r.terms| == HISTORY_MAX)
  {
    match auth
    case Anonymous => TermsAnswer(UNAUTHORIZED, [], "No autenticado")
    case Authenticated(email) =>
      match UserByEmail(users, email)
      case None => TermsAnswer(SERVER_ERROR, [], "Error al obtener historial")
      case Some(k) =>
        match recent(users[k].id)
        case None => TermsAnswer(SERVER_ERROR, [], "Error al obtener historial")
        case Some(listed) =>
          TermsAnswer(OK, if |listed| > HISTORY_MAX then listed[..HISTORY_MAX] else listed, "")
  }

  /** Whether a term differs from `term`. */
  function OtherTerm(term: string): string -> bool {
    (t: string) => t != term
  }

  /** The distinct terms of `userId`'s searches, each once; the body lists
      them by latest search, most recent first, since the store keeps
      searches in date order. The contract promises the listing itself
      (ListsRecent); SavedTermListedFirst states where a new search goes.
      This is the list the repository query is meant to return. */
  function RecentTerms(history: seq<SearchEntry>, userId: nat): (r: seq<string>)
    ensures ListsRecent(history, userId, r)
    decreases |history|
  {
    if |history| == 0 then []
    else
      var rest := RecentTerms(history[..|history| - 1], userId);
      var last := history[|history| - 1];
      if last.userId != userId then
        OtherEntryKeepsListing(history, userId, rest);
        rest
      else
        OwnEntryMovesFirst(history, userId, rest);
        [last.term] + Filter(rest, OtherTerm(last.term))
  }

  /** What the listing of a user's recent terms promises: every term listed
      was saved by the user, every term the user saved is listed, and none
      is listed twice. */
  predicate ListsRecent(history: seq<SearchEntry>, userId: nat, r: seq<string>) {
    && (forall i :: 0 <= i < |r| ==> SavedBy(history, userId, r[i]))
    && (forall j :: 0 <= j < |history| && history[j].userId == userId ==> history[j].term in r)
    && (forall i, j :: 0 <= i < j < |r| ==> r[i] != r[j])
  }

  /** Another user's entry at the end changes nobody else's listing. */
  lemma OtherEntryKeepsListing(history: seq<SearchEntry>, userId: nat, rest: seq<string>)
    requires |history| > 0 && history[|history| - 1].userId != userId
    requires ListsRecent(history[..|history| - 1], userId, rest)
    ensures ListsRecent(history, userId, rest)
  {
    var front := history[..|history| - 1];
    SavedByPrefix(history, userId);
    assert forall j :: 0 <= j < |front| ==> front[j] == history[j];
  }

  /** The user's own entry at the end puts its term first and removes the
      older occurrence of it. */
  lemma OwnEntryMovesFirst(history: seq<SearchEntry>, userId: nat, rest: seq<string>)
    requires |history| > 0 && history[|history| - 1].userId == userId
    requires ListsRecent(history[..|history| - 1], userId, rest)
    ensures ListsRecent(history, userId, [history[|history| - 1].term] + Filter(rest, OtherTerm(history[|history| - 1].term)))
  {
    var front, t := history[..|history| - 1], history[|history| - 1].term;
    var others := Filter(rest, OtherTerm(t));
    var r := [t] + others;
    SavedByPrefix(history, userId);
    assert SavedBy(history, userId, t) by {
      assert history[|history| - 1].term == t;
    }
    forall i | 0 < i < |r| ensures SavedBy(history, userId, r[i]) {
      assert r[i] == others[i - 1] && others[i - 1] in rest;
    }
    forall j | 0 <= j < |history| && history[j].userId == userId ensures history[j].term in r {
      if j < |front| && history[j].term != t {
        assert front[j] == history[j];
        assert OtherTerm(t)(history[j].term);
      }
    }
    FilterIsSubsequence(rest, OtherTerm(t));
    DistinctSubsequence(others, rest);
    forall i | 0 < i < |r| ensures r[0] != r[i] {
      assert OtherTerm(t)(others[i - 1]);
    }
  }

  /** Whether `userId` has an entry in the history with term `t`. */
  predicate SavedBy(history: seq<SearchEntry>, userId: nat, t: string) {
    exists j :: 0 <= j < |history| && history[j].userId == userId && history[j].term == t
  }

  /** A term saved in a prefix of the history is saved in the history. */
  lemma SavedByPrefix(history: seq<SearchEntry>, userId: nat)
    requires |history| > 0
    ensures forall t :: SavedBy(history[..|history| - 1], userId, t) ==> SavedBy(history, userId, t)
  {
    var front := history[..|history| - 1];
    forall t | SavedBy(front, userId, t) ensures SavedBy(history, userId, t) {
      var j :| 0 <= j < |front| && front[j].userId == userId && front[j].term == t;
      assert history[j] == front[j];
    }
  }

  /** A subsequence of a list without repetitions has none either. */
  lemma {:induction false} DistinctSubsequence(s: seq<string>, t: seq<string>)
    requires IsSubsequence(s, t)
    requires forall i, j :: 0 <= i < j < |t| ==> t[i] != t[j]
    ensures forall i, j :: 0 <= i < j < |s| ==> s[i] != s[j]
    decreases |t|
  {
    if |s| > 0 && |t| > 0 {
      if s[0] == t[0] {
        DistinctSubsequence(s[1..], t[1..]);
        SubsequenceMembers(s[1..], t[1..]);
        forall j | 0 < j < |s| ensures s[0] != s[j] {
          assert s[j] == s[1..][j - 1];
          var k :| 0 <= k < |t[1..]| && t[1..][k] == s[j];
          assert t[k + 1] == s[j];
        }
      } else {
        DistinctSubsequence(s, t[1..]);
      }
    }
  }

  /** The repository query answered from the stored history. */
  function HistoryQuery(history: seq<SearchEntry>): nat -> Option<seq<string>> {
    (userId: nat) => Some(RecentTerms(history, userId))
  }

  /** Whether an entry belongs to someone other than `userId`. */
  function NotOwnedBy(userId: nat): SearchEntry -> bool {
    (e: SearchEntry) => e.userId != userId
  }

  /** Whether an entry belongs to `userId`. */
  function OwnedBy(userId: nat): SearchEntry -> bool {
    (e: SearchEntry) => e.userId == userId
  }

  /** clearSearchHistory: every entry of the caller is deleted. */
  function ClearSearchHistory(auth: Auth, db: Db): (r: HistoryAnswer)
    ensures auth.Anonymous? ==> r.status == UNAUTHORIZED
    ensures r.status == OK <==> auth.Authenticated? && UserByEmail(db.users, auth.name).Some?
    ensures r.status != OK ==> r.db == db
    ensures r.db.(history := db.history) == db
    ensures r.status == OK ==>
      var me := db.users[UserByEmail(db.users, auth.name).value].id;
      && (forall i :: 0 <= i < |r.db.history| ==> r.db.history[i].userId != me)
      && (forall i :: 0 <= i < |db.history| && db.history[i].userId != me ==> db.history[i] in r.db.history)
      && (forall i :: 0 <= i < |r.db.history| ==> r.db.history[i] in db.history)
  {
    match auth
    case Anonymous => HistoryAnswer(UNAUTHORIZED, "No autenticado", db)
    case Authenticated(email) =>
      match UserByEmail(db.users, email)
      case None => HistoryAnswer(SERVER_ERROR, "Error al eliminar historial", db)
      case Some(k) =>
        HistoryAnswer(OK, "Historial eliminado", db.(history := Filter(db.history, NotOwnedBy(db.users[k].id))))
  }

  /** Clearing leaves every other user's history exactly as it was, order
      and repetitions included, and keeps the survivors in their order. */
  lemma ClearKeepsOthersHistory(auth: Auth, db: Db, other: nat)
    requires ClearSearchHistory(auth, db).status == OK
    requires other != db.users[UserByEmail(db.users, auth.name).value].id
    ensures Filter(ClearSearchHistory(auth, db).db.history, OwnedBy(other)) == Filter(db.history, OwnedBy(other))
    ensures IsSubsequence(ClearSearchHistory(auth, db).db.history, db.history)
  {
    var me := db.users[UserByEmail(db.users, auth.name).value].id;
    assert ClearSearchHistory(auth, db).db.history == Filter(db.history, NotOwnedBy(me));
    FilterWeakerFirst(db.history, NotOwnedBy(me), OwnedBy(other));
    FilterIsSubsequence(db.history, NotOwnedBy(me));
  }

  /** Clearing twice is clearing once. */
  lemma ClearIdempotent(auth: Auth, db: Db)
    ensures ClearSearchHistory(auth, ClearSearchHistory(auth, db).db) == ClearSearchHistory(auth, db)
  {
    var r := ClearSearchHistory(auth, db);
    if r.status == OK {
      var me := db.users[UserByEmail(db.users, auth.name).value].id;
      assert r.db == db.(history := Filter(db.history, NotOwnedBy(me)));
      assert r.db.users == db.users;
      FilterWeakerFirst(db.history, NotOwnedBy(me), NotOwnedBy(me));
    }
  }

  /** After a saved search, the history lists the saved term first, once. */
  lemma SavedTermListedFirst(auth: Auth, term: Option<string>, now: Timestamp, db: Db)
    requires SaveSearch(auth, term, now, db).status == OK
    ensures
      var db' := SaveSearch(auth, term, now, db).db;
      var r := GetSearchHistory(auth, db'.users, HistoryQuery(db'.history));
      && r.status == OK && |r.terms| > 0 && r.terms[0] == Trim(term.value)
      && forall i :: 0 < i < |r.terms| ==> r.terms[i] != Trim(term.value)
  {
    var db' := SaveSearch(auth, term, now, db).db;
    var me := db.users[UserByEmail(db.users, auth.name).value].id;
    var h := db'.history;
    assert h[..|h| - 1] == db.history;
    assert h[|h| - 1] == SearchEntry(me, Trim(term.value), now);
    var listed := RecentTerms(h, me);
    assert listed[0] == Trim(term.value);
    assert HistoryQuery(h)(me) == Some(listed);
  }

  /** After clearing, the caller's history lists nothing. */
  lemma ClearedHistoryListsNothing(auth: Auth, db: Db)
    requires ClearSearchHistory(auth, db).status == OK
    ensures
      var db' := ClearSearchHistory(auth, db).db;
      GetSearchHistory(auth, db'.users, HistoryQuery(db'.history)) == TermsAnswer(OK, [], "")
  {
    var db' := ClearSearchHistory(auth, db).db;
    var me := db.users[UserByEmail(db.users, auth.name).value].id;
    assert db'.users == db.users;
    assert forall j :: 0 <= j < |db'.history| ==> db'.history[j].userId != me;
    var listed := RecentTerms(db'.history, me);
    RecentTermsOfAbsentUser(db'.history, me);
    assert HistoryQuery(db'.history)(me) == Some([]);
  }

  /** A user with no entry in the history has no recent terms. */
  lemma {:induction false} RecentTermsOfAbsentUser(history: seq<SearchEntry>, userId: nat)
    requires forall j :: 0 <= j < |history| ==> history[j].userId != userId
    ensures RecentTerms(history, userId) == []
    decreases |history|
  {
    if |history| > 0 {
      var front := history[..|history| - 1];
      assert forall j :: 0 <= j < |front| ==> front[j] == history[j];
      RecentTermsOfAbsentUser(front, userId);
    }
  }
}

=== FILE: user_details.dfy ===
/** How Spring Security loads the account behind a login: by email,
    refusing banned users, with the role turned into a "ROLE_" authority. */
module UserDetailsService {
  import opened Base
  import opened JavaString
  import opened Entities

  /** The security principal built for a user. The account is never
      expired, locked or disabled, so only these fields matter. */
  datatype UserDetails = UserDetails(username: string, password: string, authority: string)

  /** The single authority granted: the role itself when it already starts
      with "ROLE_", otherwise the role with that prefix. */
  function Authority(role: string): (a: string)
    ensures StartsWith(a, "ROLE_")
    ensures StartsWith(role, "ROLE_") ==> a == role
    ensures !StartsWith(role, "ROLE_") ==> a == "ROLE_" + role
  {
    if StartsWith(role, "ROLE_") then role else "ROLE_" + role
  }

  /** Prefixing is idempotent: an authority maps to itself. */
  lemma AuthorityIdempotent(role: string)
    ensures Authority(Authority(role)) == Authority(role)
  {
  }

  /** A role with one leading "ROLE_" dropped, if it has one. */
  function BareRole(role: string): (r: string)
    ensures |r| <= |role|
    ensures r == role || role == "ROLE_" + r
    ensures Authority(role) == "ROLE_" + r
  {
    if StartsWith(role, "ROLE_") then
      assert role == role[..5] + role[5..];
      role[5..]
    else role
  }

  /** Two roles give the same authority exactly when they agree once one
      optional leading "ROLE_" is dropped from each: "ADMIN" and
      "ROLE_ADMIN" are the same authority, "admin" is not. */
  lemma {:induction false} AuthorityIff(r1: string, r2: string)
    ensures Authority(r1) == Authority(r2) <==> BareRole(r1) == BareRole(r2)
  {
    var b1, b2 := BareRole(r1), BareRole(r2);
    if Authority(r1) == Authority(r2) {
      assert b1 == ("ROLE_" + b1)[5..] == ("ROLE_" + b2)[5..] == b2;
    }
  }

  /** loadUserByUsername: the user with that email, unless banned (a
      missing ban flag counts as not banned). */
  function LoadUserByUsername(username: string, users: seq<User>): (r: Result<UserDetails>)
    ensures r.Err? <==>
      UserByEmail(users, username).None? || users[UserByEmail(users, username).value].banned == Some(true)
    ensures r.Ok? ==>
      var u := users[UserByEmail(users, username).value];
      r.value == UserDetails(u.email, u.password, Authority(u.role))
    ensures r.Ok? ==> r.value.username == username && StartsWith(r.value.authority, "ROLE_")
  {
    match UserByEmail(users, username)
    case None => Err("Usuario no encontrado: " + username)
    case Some(i) =>
      var u := users[i];
      if u.banned == Some(true) then Err("Usuario baneado")
      else Ok(UserDetails(u.email, u.password, Authority(u.role)))
  }
}
